=== FILE: README.md ===
# UniMeet core, modelled in Dafny

UniMeet is a campus app where students upload their weekly timetable, see which friends are free right now, send friend requests and arrange meetings. This project models three parts of its logic as pure Dafny functions and proves properties of them:

1. **Timetable construction.** This is the backend route that turns an uploaded spreadsheet or PDF into a weekly grid. The grid maps each day to a map from slot label to occupant. The route involves:
   - `detectFileType`;
   - `emptyTimetable`;
   - `normalizeTimeSlot`;
   - the cell loop of `parseExcel`;
   - the spatial join of `parsePDF`;
   - the upload handler.
2. **Client availability logic.** All of it takes the weekday and the current hour as parameters.
   - The friends panel: `parseHour`, `formatHour`, `formatHourEnd`, first/last class, free blocks, the six-way classification and its priority sort, and `getSortedSlots`.
   - The "next class" card in the header.
   - The profile page's timetable editing: manual edit, the Sunday fill, slot and day ordering, and the emptiness test.
3. **Social and meeting state machines.** These come from the backend controllers and their client mirrors:
   - the friend-request toggle and accept/reject;
   - reminders and the notification list capped at 10 entries;
   - `markNotificationAsRead`;
   - the OTP checks;
   - meeting creation with its 10-second cooldown;
   - accept, reject and creator-only cancel;
   - the end-time computation;
   - the meeting listing;
   - the meeting details dialog, the meeting creation dialog and the navigation bar.

JavaScript objects are ordered association lists (module `Assoc`), so key order is modelled, not just key sets:
- `Object.keys`, `Object.entries` and `for..in` list keys in insertion order.
- JavaScript lists integer-like keys first, in ascending order. The association lists do not model this. It is modelled only for the PDF parser's `timeSlots` object (`PdfParser.EnumOrder`), whose keys are y-coordinates. The other objects have no integer-like keys.

Other JavaScript semantics are modelled as follows:
- `NaN`, `undefined` and `null` are `Option.None`.
- A thrown error is `Result.Failure`, carrying its message.
- `parseInt`, `Number`, `trim`, `split` and the regular expressions the code uses are written out in module `JsCore`.
- `Array.prototype.sort` is modelled as a stable insertion sort by a lexicographic key (module `Sorting`).
- A Mongo collection is a map from id to document.

## Model

| member | source | states |
|---|---|---|
| Calendar.VocabularyDistinct | backend/routes/timetableRoutes.js:21-26 | the seven day names and the nine slot labels contain no repeats |
| Calendar.EmptyDayShape | backend/routes/timetableRoutes.js:22-30 | one day of the empty timetable has exactly the nine slot keys, in order, each holding "No class" |
| Calendar.EmptyTimetableShape | backend/routes/timetableRoutes.js:20-33 | the empty timetable has exactly the seven day keys, Monday to Sunday, each an empty day |
| Calendar.EmptyTimetableCells | backend/routes/timetableRoutes.js:20-33 | a cell of the empty timetable exists iff its day is one of the seven days and its slot one of the nine labels, and it then holds "No class" |
| Calendar.PutEachGet | backend/routes/timetableRoutes.js:30 | `slots.forEach(s => obj[d][s] = v)`: every listed key holds `v`, and every other key keeps its value |
| Calendar.PutEachKeys | backend/routes/timetableRoutes.js:30 | fresh distinct keys assigned one by one are appended in the order listed |
| Calendar.SetCell | backend/routes/timetableRoutes.js:97-99 | after `timetable[day][slot] = v` the cell holds `v` |
| Calendar.SetCellOther | backend/routes/timetableRoutes.js:97-99 | assigning one cell changes no other cell of any day |
| Calendar.SetCellKeys | backend/routes/timetableRoutes.js:97-99 | assigning a cell adds its day at the end if it was missing, and otherwise keeps the day keys; the grid stays well formed |
| Calendar.LastWrite | backend/routes/timetableRoutes.js:75-102 | the occupant chosen for a cell is that of a write to it after which no other write targets it; there is none iff no write targets the cell |
| Calendar.ApplyWritesCell | backend/routes/timetableRoutes.js:75-102 | after a sequence of writes, a cell holds the occupant of the last write to it; a cell no write targets is unchanged |
| Calendar.ApplyWritesKeys | backend/routes/timetableRoutes.js:75-102 | writes to days already present never add or remove a day key and keep the grid well formed |
| Calendar.AddNew | frontend/src/components/ProfilePage.jsx:334-339 | `Set.add` for each label: no repeats, the earlier elements kept first and in place, and exactly the earlier elements and the new labels |
| Calendar.SlotLabels | frontend/src/components/Friends.jsx:242-244 | the set of slot keys over all days: a label is listed iff some day has it, and it is listed once |
| Calendar.SlotLabelsOrder | frontend/src/components/Friends.jsx:244 | the labels come in the order a `Set` first meets them, scanning the days in order and each day's keys in order: before any occurrence of a later label every earlier one has appeared |
| TimeSlot.HourColonAt | backend/routes/timetableRoutes.js:44 | `(\d{1,2}):` reads at most two digits and stops just after a colon |
| TimeSlot.SkipSpaces | backend/routes/timetableRoutes.js:44 | `\s*` consumes exactly the run of white space and stops at the first other character |
| TimeSlot.FindTimeRange | backend/routes/timetableRoutes.js:44-45 | the leftmost match: none iff the pattern matches at no position, otherwise the capture at the least position where it matches; the four numbers have at most two digits each |
| TimeSlot.TwelveHour | backend/routes/timetableRoutes.js:54-57 | a 24-hour hour becomes 1..12 and keeps its value modulo 12, so hours above 12 lose 12 and 0 becomes 12 |
| TimeSlot.NormalizeTimeSlot | backend/routes/timetableRoutes.js:37-64 | null iff the text is empty or its cleaned form has no time range; otherwise the leftmost time range of the cleaned text, reformatted as a label with two-digit fields |
| TimeSlot.NoColonNoSlot | backend/routes/timetableRoutes.js:41-45 | text without a colon never normalises to a label |
| TimeSlot.MatchHasColon | backend/routes/timetableRoutes.js:44-45 | the pattern only matches text containing a colon |
| TimeSlot.CleanKeepsChars | backend/routes/timetableRoutes.js:41 | removing the trailing colon and line breaks and trimming introduces no new characters |
| TimeSlot.MatchClockAt | backend/routes/timetableRoutes.js:44 | "HH:MM" at a position is read back as exactly hour HH and minute MM |
| TimeSlot.MatchRangeText | backend/routes/timetableRoutes.js:44-50 | the pattern reads "HH:MM - HH:MM" back as exactly the four numbers written |
| TimeSlot.NormalizeRangeText | backend/routes/timetableRoutes.js:37-64 | normalising a written range yields the label formatted from its own numbers |
| TimeSlot.SuffixAm | backend/routes/timetableRoutes.js:53 | the label ends in AM iff the range starts before 12, and in PM iff it starts at 12 or later |
| TimeSlot.CanonicalSlots | backend/routes/timetableRoutes.js:53-63 | for h in 9..17, "h:00 - (h+1):00" formats as the h-th canonical slot, e.g. 11-12 AM and 12-01 PM |
| TimeSlot.WholeHourText | backend/routes/timetableRoutes.js:59-63 | zero-minute bounds render as two-digit 12-hour numbers joined by '-', then the suffix |
| TimeSlot.MinuteColon | backend/routes/timetableRoutes.js:60 | a non-zero start minute renders as "HH:MM", so a colon follows the two-digit hour |
| ExcelParser.CourseCode | backend/routes/timetableRoutes.js:92 | the leftmost `[A-Z]{3}\d{3}` occurrence, or none iff the pattern occurs nowhere |
| ExcelParser.Occupant | backend/routes/timetableRoutes.js:88-95 | the leftmost course code of the second line when it has one (exactly `CourseCode`'s match); otherwise the line itself, or "No class" for an empty line; never empty |
| ExcelParser.Lines | backend/routes/timetableRoutes.js:85-86 | the cell's lines are the pieces between line breaks, each trimmed |
| ExcelParser.CellWriteChecks | backend/routes/timetableRoutes.js:78-98 | a cell writes iff it is non-blank, its header is a day, it has a second line and its first line normalises |
| ExcelParser.CellWriteFields | backend/routes/timetableRoutes.js:85-99 | a write goes to the header's day and the normalised first line, with the occupant taken from the second line |
| ExcelParser.CellWriteDay | backend/routes/timetableRoutes.js:81-82 | every write names one of the seven days |
| ExcelParser.RowWritesFrom | backend/routes/timetableRoutes.js:77-101 | a row writes exactly what its passing cells write |
| ExcelParser.ExcelWritesFrom | backend/routes/timetableRoutes.js:75-102 | only cells of rows 3 onward that pass every check write, and every such cell writes |
| ExcelParser.ExcelGridDays | backend/routes/timetableRoutes.js:66-104 | the loop never adds or removes day keys: the grid has exactly the seven days, in order |
| ExcelParser.ExcelGridCell | backend/routes/timetableRoutes.js:66-104 | each cell holds its last write; otherwise "No class" for a canonical slot of a day; otherwise it is absent |
| ExcelParser.ParseExcelThrows | backend/routes/timetableRoutes.js:76-78 | parsing fails, with the TypeError of `.trim()`, exactly when some cell of row 3 or later is a non-zero number or `true`; otherwise it yields the grid the writes build |
| ExcelParser.CellString | backend/routes/timetableRoutes.js:78 | the value `.trim()` is called on is a string exactly when the cell is not a non-zero number or `true`, and then it is the cell's text, or "" for a hole, 0 or `false` |
| ExcelParser.CellWriteRange | backend/routes/timetableRoutes.js:78-99 | a cell "HH:MM - HH:MM\nsubject" under a day writes the normalised range with the subject's occupant |
| ExcelParser.RangeCellText | backend/routes/timetableRoutes.js:78-86 | such a cell survives trimming and splits into exactly the time line and the subject line |
| ExcelParser.OccupantLeadingCode | backend/routes/timetableRoutes.js:92-95 | a subject line that starts with a course code yields that code |
| ExcelParser.CanonicalCell | backend/routes/timetableRoutes.js:97-99 | a whole-hour cell from 09:00 to 18:00 fills the matching canonical slot |
| ExcelParser.OffHourLabel | backend/routes/timetableRoutes.js:59-63 | a range with a non-zero start minute, such as "09:30 - 10:30", normalises to a label that is not canonical, so it becomes a new slot key |
| PdfParser.UpperRun | backend/routes/timetableRoutes.js:142 | the greedy `[A-Z]` run: all capitals, stopping before the first non-capital |
| PdfParser.CourseAtPattern | backend/routes/timetableRoutes.js:142 | the matcher succeeds at a position iff "C:", 2 to 5 capitals and three digits follow, and it captures them |
| PdfParser.CourseCode | backend/routes/timetableRoutes.js:142 | `C:([A-Z]{2,5}\d{3})`: none iff the pattern matches nowhere; otherwise the 5-to-8-character code of the leftmost match |
| PdfParser.LastSel | backend/routes/timetableRoutes.js:120-133 | the anchor kept for a key is the one from the last fragment with that key; there is none iff no fragment has that key |
| PdfParser.AnchorsGet | backend/routes/timetableRoutes.js:120-133 | a later duplicate day name or slot y overwrites the earlier anchor |
| PdfParser.AnchorsEntries | backend/routes/timetableRoutes.js:120-133 | every recorded anchor was picked from some fragment |
| PdfParser.AnchorsVocabulary | backend/routes/timetableRoutes.js:120-133 | day anchors are weekday names, and slot anchor values are slot labels |
| PdfParser.EnumOrder | backend/routes/timetableRoutes.js:145-151 | `Object.values(timeSlots)` lists exactly the anchors, each once |
| PdfParser.EnumOrderShape | backend/routes/timetableRoutes.js:145-151 | array-index y keys come first, ascending; the other keys follow in insertion order |
| PdfParser.Nearest | backend/routes/timetableRoutes.js:145-151 | the `reduce` picks a minimal distance, and the earliest one on a tie because the comparison is strict |
| PdfParser.XDistances | backend/routes/timetableRoutes.js:146 | the x distance to each day anchor is `Math.abs` of the difference |
| PdfParser.YDistances | backend/routes/timetableRoutes.js:150 | the y distance to each slot anchor is `Math.abs` of the difference |
| PdfParser.HasCourseCons | backend/routes/timetableRoutes.js:140-158 | some fragment holds a code iff the first one does or one of the rest does |
| PdfParser.CourseWritesFailure | backend/routes/timetableRoutes.js:140-158 | the course loop throws "Reduce of empty array with no initial value" iff a code exists but there is no day anchor or no slot anchor |
| PdfParser.CourseWritesMembers | backend/routes/timetableRoutes.js:140-158 | on success the loop writes exactly what the individual fragments write |
| PdfParser.CourseWriteSome | backend/routes/timetableRoutes.js:140-158 | with anchors on both axes, a fragment holding a code writes that code |
| PdfParser.CourseWriteDay | backend/routes/timetableRoutes.js:145-147 | the code goes to a day anchor nearest in x, the earlier one winning a tie |
| PdfParser.CourseWriteSlot | backend/routes/timetableRoutes.js:149-151 | the code goes to a slot anchor nearest in y, chosen independently of x, the earlier one winning a tie |
| PdfParser.CourseWriteOccupant | backend/routes/timetableRoutes.js:153-155 | the written occupant is the fragment's course code |
| PdfParser.FillDayCell | backend/routes/timetableRoutes.js:160-167 | filling a day marks exactly its blank cells under the listed labels "No class" |
| PdfParser.FillDaysCell | backend/routes/timetableRoutes.js:160-167 | filling all days marks exactly their blank listed cells "No class" and keeps every other cell |
| PdfParser.FillDayKeys | backend/routes/timetableRoutes.js:160-167 | filling a present day keeps the day keys and a well-formed grid |
| PdfParser.FillDaysKeys | backend/routes/timetableRoutes.js:160-167 | filling present days keeps the day keys and a well-formed grid |
| PdfParser.BlankDaysShape | backend/routes/timetableRoutes.js:135-138 | the initial grid has the seven days, each with no cell |
| PdfParser.PdfWriteFields | backend/routes/timetableRoutes.js:140-158 | every write names a weekday, a slot label found on the page and a code of some fragment |
| PdfParser.WriteAnchors | backend/routes/timetableRoutes.js:140-158 | a write's day is a weekday and its slot one of the slot anchors |
| PdfParser.SundayBlockNoop | backend/routes/timetableRoutes.js:169-174 | with all seven days present, the Sunday block changes nothing |
| PdfParser.AssembleDays | backend/routes/timetableRoutes.js:135-167 | the assembled grid has exactly the seven days and is well formed |
| PdfParser.AssembleCell | backend/routes/timetableRoutes.js:135-167 | a day's cells are exactly the page's slot labels: the last code written there, or "No class" |
| PdfParser.ParsePdfFailure | backend/routes/timetableRoutes.js:108-177 | `parsePDF` throws iff a fragment holds a code while no slot anchor or no day anchor exists |
| PdfParser.ParsePdfDays | backend/routes/timetableRoutes.js:135-174 | a parsed timetable lists the seven days in order, so the Sunday block is dead code |
| PdfParser.ParsePdfCell | backend/routes/timetableRoutes.js:121-167 | every day's key set equals the set of slot-anchor labels, the last label kept at each y; each cell holds the last code written there, or "No class" |
| PdfParser.ParsePdfOccupant | backend/routes/timetableRoutes.js:140-167 | every cell that is not "No class" holds a code some fragment carries |
| Upload.DetectFileType | backend/routes/timetableRoutes.js:14-18 | "pdf" iff the mimetype contains "pdf"; "unknown" iff it contains neither "pdf" nor "sheet" and the name ends in neither .xlsx nor .xls |
| Upload.UploadTimetable | backend/routes/timetableRoutes.js:180-207 | the answer is 200 with a stored timetable, or 500 with nothing stored; `success` holds iff the status is 200 |
| Upload.Answer | backend/routes/timetableRoutes.js:196-206 | a parser error becomes 500 carrying the thrown message with nothing stored; a parsed grid is stored and answered with 200 |
| Upload.UnknownRejected | backend/routes/timetableRoutes.js:188-194 | an unknown file fails with "Unsupported file type" and stores nothing |
| Upload.ExcelStored | backend/routes/timetableRoutes.js:180-206 | a spreadsheet upload answers 500 with the TypeError of `.trim()`, storing nothing, exactly when some cell of row 3 or later is a non-zero number or `true`; otherwise it answers 200 and stores the grid read from the sheet, with the seven days |
| Upload.PdfStored | backend/routes/timetableRoutes.js:190-205 | a PDF upload fails iff the parser throws the empty-`reduce` error, and then answers with that message |
| Upload.ExtensionDecides | backend/routes/timetableRoutes.js:16 | a name ending in .xlsx or .xls makes a non-PDF upload a spreadsheet, whatever its mimetype |
| SlotLabel.To24 | frontend/src/components/Friends.jsx:43-44 | for hours 1..12 the result is in 0..23, equals the hour modulo 12 and is 12 or more iff PM |
| SlotLabel.LabelPieces | frontend/src/components/Friends.jsx:40-41 | splitting a label at ' ', '-' and ':' yields the two hour fields and the meridian |
| SlotLabel.LabelHours | frontend/src/components/Header.jsx:21 | both two-digit hours of a label read as their value under `parseInt` and `Number` |
| SlotLabel.TwoDigits | frontend/src/components/ProfilePage.jsx:345 | two decimal digits read as their value under all three number parsers |
| SlotLabel.CanonicalLabel | frontend/src/components/Friends.jsx:5-8 | the nine canonical labels are well formed and start at hours 9..17; only "11-12 AM" ends at hour 0 |
| Friends.ToDayHour | frontend/src/components/Friends.jsx:39-46 | the 12-hour to 24-hour conversion is defined iff the hour is |
| Friends.DisplayClock | frontend/src/components/Friends.jsx:18-21 | the display is a clock number in 1..12 congruent to the hour modulo 12, then AM before noon and PM from noon on |
| Friends.DisplaySuffix | frontend/src/components/Friends.jsx:19 | a rendered hour ends in PM iff the hour is at least 12 |
| Friends.ParseHourLabel | frontend/src/components/Friends.jsx:39-46 | a well-formed label reads as its start hour under the 12-hour rule, and its end under the same meridian |
| Friends.LabelParts | frontend/src/components/Friends.jsx:40-42 | the meridian, start field and end field of a label are read back as written |
| Friends.MeridianRule | frontend/src/components/Friends.jsx:43-44 | PM adds 12 unless the hour is 12, and 12 AM becomes 0 |
| Friends.ParseHourCanonical | frontend/src/components/Friends.jsx:39-46 | the canonical labels read as 9..17, strictly increasing |
| Friends.EndOfElevenSlot | frontend/src/components/Friends.jsx:24-35 | as written, the end of "11-12 AM" renders as 12 AM (midnight) although its start is hour 11 |
| Friends.FormatHourEndCanonical | frontend/src/components/Friends.jsx:24-35 | as written, every other canonical slot renders its end one hour after its start |
| Friends.FixedEnd | frontend/src/components/Friends.jsx:24-35 | the corrected end is the end hour, plus 12 when it does not come after the start |
| Friends.FreeRangeTextDiffers | frontend/src/components/Friends.jsx:183-190 | for a block ending in a canonical slot, the text as written and the corrected text differ exactly when that slot is "11-12 AM" |
| Friends.AmNoonEndDiffers | frontend/src/components/Friends.jsx:24-35 | for a block ending in any well-formed AM label whose end field is 12, the end reads "12 AM" as written but ends in PM once corrected, so the two texts differ |
| Friends.FormatHourEndFixedCanonical | frontend/src/components/Friends.jsx:24-35 | corrected, every canonical slot ends one hour after its start, in PM from "11-12 AM" on |
| Friends.FirstAndLastSpec | frontend/src/components/Friends.jsx:62-71 | both null iff no listed slot holds a class; otherwise the earliest and the latest listed slot that does |
| Friends.FreeSlots | frontend/src/components/Friends.jsx:106-108 | exactly the slots of the day marked "No class" |
| Friends.Runs | frontend/src/components/Friends.jsx:113-126 | empty iff the input is empty; the first run starts with the first slot |
| Friends.RunsFlatten | frontend/src/components/Friends.jsx:113-126 | the blocks put back together are the sorted free slots |
| Friends.RunsInside | frontend/src/components/Friends.jsx:113-126 | each block is non-empty and its consecutive hours differ by exactly 1 |
| Friends.RunsBetween | frontend/src/components/Friends.jsx:113-126 | a block never starts one hour after the end of the block before it |
| Friends.FreeBlocksSpec | frontend/src/components/Friends.jsx:102-127 | no blocks when today is absent; the blocks, joined, are today's "No class" slots sorted by hour, slots of the same hour in the day's key order |
| Friends.FreeBlocksRuns | frontend/src/components/Friends.jsx:102-127 | each free block climbs one hour at a time, and neighbouring blocks are not consecutive |
| Friends.HoldsHourAt | frontend/src/components/Friends.jsx:177-179 | `block.some(...)` holds iff some slot of the block starts at the hour |
| Friends.CurrentBlock | frontend/src/components/Friends.jsx:177-179 | `find` returns the first block holding the hour, or nothing iff no block does |
| Friends.UpcomingBlock | frontend/src/components/Friends.jsx:194-196 | `find` returns the first block that starts after the hour, or nothing iff none does |
| Friends.DecideFree | frontend/src/components/Friends.jsx:177-209 | the last rules give priority 0 or 4; yellow and an upcoming start come exactly with priority 4, and the upcoming start lies after now |
| Friends.Decide | frontend/src/components/Friends.jsx:151-209 | priority at most 4; the dot is yellow exactly for priority 4, which alone carries an upcoming start |
| Friends.Classify | frontend/src/components/Friends.jsx:145-209 | each produced status has priority at most 4, and it has a yellow dot, and an upcoming start, exactly when its priority is 4 |
| Friends.ClassHours | frontend/src/components/Friends.jsx:157-167 | comparing the hour with the first and last class tells whether all classes lie ahead or all are over |
| Friends.CurrentBlockFlat | frontend/src/components/Friends.jsx:177-179 | some block holds the hour iff some slot of the blocks starts then |
| Friends.CurrentBlockFree | frontend/src/components/Friends.jsx:177-181 | a free block holds the hour iff some free slot of today starts then |
| Friends.UpcomingToSlot | frontend/src/components/Friends.jsx:194-196 | the upcoming block starts with a slot that starts after now |
| Friends.UpcomingFromSlot | frontend/src/components/Friends.jsx:194-198 | with no slot at now, any later slot means some block starts later |
| Friends.UpcomingBlockFree | frontend/src/components/Friends.jsx:194-198 | with no free slot at now, a block starts later iff a free slot of today does |
| Friends.NoClassesSpec | frontend/src/components/Friends.jsx:62-66 | no first and last class iff no canonical slot holds a class |
| Friends.ClassifyFreeAllDay | frontend/src/components/Friends.jsx:152-154 | priority 3 iff no canonical slot of today holds a class |
| Friends.ClassifyBeforeClasses | frontend/src/components/Friends.jsx:157-164 | priority 2 iff today has classes and all of them lie ahead |
| Friends.OverNotAhead | frontend/src/components/Friends.jsx:157-174 | a day with classes cannot have them all ahead and all over at once |
| Friends.ClassifyClassesOver | frontend/src/components/Friends.jsx:167-174 | priority 1 iff today has classes, not all ahead, and all of them over |
| Friends.ClassifyFreeNow | frontend/src/components/Friends.jsx:177-192 | priority 0 iff classes are in progress and a free slot starts at this hour; the text runs from the first hour of the free block holding it to the end of the block's last slot, as `formatHourEnd` renders it |
| Friends.ClassifyFreeLater | frontend/src/components/Friends.jsx:194-207 | priority 4 iff classes are in progress, nothing is free now and a free slot starts later; that slot is the upcoming start |
| Friends.ClassifyBusy | frontend/src/components/Friends.jsx:209 | `null` iff classes are in progress and no free slot starts now or later |
| Friends.Classified | frontend/src/components/Friends.jsx:210-211 | after `filter(Boolean)` exactly the friends with a status remain, in the friend list's order and once per listing, each with its own status |
| Friends.ClassifiedTies | frontend/src/components/Friends.jsx:210-211 | the classified entries of one sort key are the classification of exactly the friends with that key, in list order |
| Friends.CompareWithAgrees | frontend/src/components/Friends.jsx:212-217 | the comparator never yields `NaN` and orders by priority, then by upcoming start when both have one |
| Friends.ClassifyProduced | frontend/src/components/Friends.jsx:195-205 | every upcoming start is a non-empty label that reads as an hour |
| Friends.CompareAgrees | frontend/src/components/Friends.jsx:212-217 | on produced statuses the comparator agrees with the key order |
| Friends.SortedEntries | frontend/src/components/Friends.jsx:212-217 | sorted entries come by non-decreasing priority, and by non-decreasing start hour among those with an upcoming start |
| Friends.AvailableSpec | frontend/src/components/Friends.jsx:143-219 | the panel lists exactly the friends with a status, by priority, then by upcoming start hour; friends the comparator ties keep the order in which the classified list holds them |
| Friends.AvailableTies | frontend/src/components/Friends.jsx:210-217 | the panel's entries of each sort key are exactly the friends whose status has that key, in the friend list's order and once per listing |
| Friends.SortedSlots | frontend/src/components/Friends.jsx:242-246 | no timetable gives no rows; otherwise the distinct labels of all days, sorted by start hour, labels of the same hour in first-seen order (`Calendar.SlotLabelsOrder`) |
| Friends.SortedSlotsMembers | frontend/src/components/Friends.jsx:242-246 | each slot label of any day appears exactly once |
| Header.ParseSlotTimeLabel | frontend/src/components/Header.jsx:19-23 | PM starts other than 12 gain 12; AM starts, 12 AM included, are returned unchanged |
| Header.ParseSlotTimeCanonical | frontend/src/components/Header.jsx:6-23 | the nine slots start at 9..17 |
| Header.Today | frontend/src/components/Header.jsx:29-30 | `days[getDay()]` is the Monday-first day list shifted by one: Sunday first |
| Header.FindNextWith | frontend/src/components/Header.jsx:34-43 | the chosen slot is one of the nine, and the card shows its entry |
| Header.FindNext | frontend/src/components/Header.jsx:34-43 | the chosen slot holds a class, and the card shows that class |
| Header.FindNextWithSpec | frontend/src/components/Header.jsx:34-43 | with increasing slot hours, the loop picks the earliest slot that has a class and starts no earlier than now; it picks nothing iff there is none |
| Header.FindNextSpec | frontend/src/components/Header.jsx:6-43 | the next class is the earliest canonical slot that holds a class at or after the current hour, and none iff there is none |
| Header.RunEffect | frontend/src/components/Header.jsx:25-45 | the state changes only when today's timetable exists and a slot qualifies |
| Header.CardText | frontend/src/components/Header.jsx:84-91 | one line ("No more classes today") iff there is no next class |
| Header.RunEffectSpec | frontend/src/components/Header.jsx:33-44 | a run that finds a slot shows it; a run that finds none keeps the earlier state |
| Header.FirstRunCard | frontend/src/components/Header.jsx:33-91 | from `null`, the card reads "No more classes today" iff today is absent or no slot qualifies |
| SlotAgreement.CanonicalAgree | frontend/src/components/Header.jsx:19-23 | on the nine canonical labels, `parseHour`, `parseSlotTime` and `parseTime` all give start 9 + i, in minutes for `parseTime` |
| SlotAgreement.CanonicalIncreasing | frontend/src/components/Friends.jsx:39-46 | all three readers order the canonical labels as listed |
| SlotAgreement.LabelAgree | frontend/src/components/ProfilePage.jsx:342-353 | on well-formed labels the readers agree, except at 12 AM, where `parseSlotTime` gives 12 and the others 0 |
| ProfilePage.StoredValue | frontend/src/components/ProfilePage.jsx:285 | a value that is blank after trimming is stored as "No class"; any other value is stored untrimmed |
| ProfilePage.ManualEdit | frontend/src/components/ProfilePage.jsx:279-288 | the edited cell holds the stored value |
| ProfilePage.ManualEditSpec | frontend/src/components/ProfilePage.jsx:279-288 | only the one cell changes; a missing day is created at the end; the grid stays well formed |
| ProfilePage.WithSunday | frontend/src/components/ProfilePage.jsx:249-261 | Sunday is present afterwards |
| ProfilePage.WithSundayPresent | frontend/src/components/ProfilePage.jsx:249 | an existing Sunday is never overwritten |
| ProfilePage.WithSundayAdded | frontend/src/components/ProfilePage.jsx:249-261 | a missing Sunday is added last, with the nine slots all "No class" |
| ProfilePage.WithSundayOthers | frontend/src/components/ProfilePage.jsx:249-261 | every other day is kept as it is |
| ProfilePage.WithSundayWellFormed | frontend/src/components/ProfilePage.jsx:295-307 | the fill keeps a well-formed timetable well formed |
| ProfilePage.WithSundayIdempotent | frontend/src/components/ProfilePage.jsx:295-307 | filling Sunday a second time changes nothing |
| ProfilePage.PeriodHour | frontend/src/components/ProfilePage.jsx:349-350 | the period rules are the 12-hour rule shared with `parseHour` |
| ProfilePage.LabelMeridian | frontend/src/components/ProfilePage.jsx:347 | a well-formed label contains "AM" iff it is an AM label |
| ProfilePage.ParseTimeLabel | frontend/src/components/ProfilePage.jsx:342-353 | a well-formed label reads as its 24-hour start times 60 |
| ProfilePage.ParseTimeCanonical | frontend/src/components/ProfilePage.jsx:342-353 | the canonical labels read as (9 + i) * 60 minutes |
| ProfilePage.SortedTimeSlots | frontend/src/components/ProfilePage.jsx:334-355 | the rows are a rearrangement of the union of all days' slot keys, sorted by start minute, labels of the same minute in first-seen order |
| ProfilePage.SortedTimeSlotsMembers | frontend/src/components/ProfilePage.jsx:334-340 | every slot key of any day appears exactly once |
| ProfilePage.SortedTimeSlotsOrder | frontend/src/components/ProfilePage.jsx:341-355 | the rows come by non-decreasing minutes since midnight |
| ProfilePage.DayIndex | frontend/src/components/ProfilePage.jsx:358-359 | the position in the Monday-first list, -1 iff the name is not a day |
| ProfilePage.OrderedDays | frontend/src/components/ProfilePage.jsx:357-360 | the day keys rearranged into Monday-first order; the sort is stable, so names sharing a position (every name outside the list sits at -1) keep their insertion order |
| ProfilePage.OrderedDaysKnown | frontend/src/components/ProfilePage.jsx:357-360 | when every key is a day, the columns are exactly the days present, Monday to Sunday |
| ProfilePage.FilteredDays | frontend/src/components/ProfilePage.jsx:362 | the ordered days without Sunday: a day is listed iff it is a key other than Sunday, and the list is in Monday-first order |
| ProfilePage.FilteredDaysStable | frontend/src/components/ProfilePage.jsx:357-362 | names sharing a position in the Monday-first list keep their insertion order among the columns |
| ProfilePage.FilteredDaysKnown | frontend/src/components/ProfilePage.jsx:357-362 | when every key is a day, the columns are exactly the days present other than Sunday, Monday to Saturday |
| ProfilePage.IsTimetableEmptySpec | frontend/src/components/ProfilePage.jsx:364-365 | empty iff no cell exists anywhere, and iff there is no slot label at all |
| ProfilePage.DisplayCell | frontend/src/components/ProfilePage.jsx:983 | a missing or empty cell shows "No class"; otherwise the cell shows its class |
| ProfilePage.InputValue | frontend/src/components/ProfilePage.jsx:994 | the edit input is empty exactly for a free cell |
| ProfilePage.EditThenDisplay | frontend/src/components/ProfilePage.jsx:279-288 | after an edit the cell shows the stored value, and what was typed when that is not blank |
| ProfilePage.EditRoundTrip | frontend/src/components/ProfilePage.jsx:983-995 | typing back what the input shows leaves the displayed cell unchanged |
| Sorting.SortBy | frontend/src/components/Friends.jsx:109 | `sort` by a numeric key: a rearrangement of its input in non-decreasing key order, stable, so elements with equal keys keep their input order |
| Sorting.SortedUnique | frontend/src/components/ProfilePage.jsx:357-360 | when keys are distinct, a sorted rearrangement is unique |
| Notifications.Fresh | backend/models/userModel.js:21-41 | a new entry is unread, with the given message, sender and meeting |
| Notifications.PushCapped | backend/controllers/meetingController.js:55-60 | the new entry comes first, followed by a prefix of the old list, at most 10 in all |
| Notifications.PushAllNewest | backend/controllers/meetingController.js:55-60 | after any run of pushes, the list holds the newest entries, newest first |
| Notifications.PushAllHead | backend/controllers/meetingController.js:55-60 | the entry pushed last is at the head |
| Notifications.SetRead | backend/controllers/userController.js:534 | entry `i` becomes read and every other entry stays as it was |
| Notifications.MarkRead | backend/controllers/userController.js:529-534 | an index that is `NaN`, negative or at least the length is rejected; otherwise only that entry is marked read |
| Notifications.BadgeIffCount | frontend/src/components/Navbar.jsx:358-360 | some entry is unread iff the unread count is positive |
| Notifications.SetReadCount | backend/controllers/userController.js:534 | marking an unread entry lowers the unread count by one; marking a read entry leaves it |
| Notifications.PushCappedCount | backend/controllers/meetingController.js:55-60 | after a push the unread count is the new entry's plus that of the old entries still under the cap; below the cap, a push raises the count by one exactly when the new entry is unread |
| Meetings.EndText | backend/controllers/meetingController.js:7-8 | throws (`trim` of `undefined`) exactly when the slot has no " - ", that is when splitting on it gives fewer than two pieces |
| Meetings.SetHours | backend/controllers/meetingController.js:14-15 | the expiry is a valid date iff the date, the hour and the minutes are all defined |
| Meetings.ComputeExpiresAt | backend/controllers/meetingController.js:6-17 | throws iff the slot has no " - "; otherwise a valid or invalid date |
| Meetings.EndTextAfterDash | backend/controllers/meetingController.js:7-8 | for a start without spaces, the end text is what follows " - " |
| Meetings.ClockSplits | backend/controllers/meetingController.js:9-10 | "HH:MM" splits at ':' into its hour and minute digits, has no space to split at, contains no " - " and is already trimmed |
| Meetings.Clock12Splits | backend/controllers/meetingController.js:9-10 | "HH:MM AM/PM" splits at ':' into the hour digits and the rest, and at the space into the clock and the meridian; it contains no " - " and is already trimmed |
| Meetings.ExpiresAtClockWith | backend/controllers/meetingController.js:6-17 | with no suffix, the meeting expires at the written hour and minute, whatever reads the numbers |
| Meetings.ExpiresAtClock12With | backend/controllers/meetingController.js:6-17 | with AM or PM, it expires at the 12-hour rule's hour and the written minute |
| Meetings.ExpiresAtClock | backend/controllers/meetingController.js:6-17 | a 24-hour end "HH:MM" expires at hour HH and minute MM of the chosen day |
| Meetings.ExpiresAtClock12 | backend/controllers/meetingController.js:6-17 | "HH:MM PM" adds 12 unless HH is 12; "12:MM AM" becomes hour 0 |
| Meetings.NoDashThrows | backend/controllers/meetingController.js:7-8 | a slot without " - " makes the computation throw |
| Meetings.DisplayTitle | backend/controllers/meetingController.js:56 | the title, or "Untitled Meeting" when it is missing or empty |
| Meetings.NotifyEach | backend/controllers/meetingController.js:52-63 | only listed users with a list receive anything; no list is created |
| Meetings.NotifyEachSpec | backend/controllers/meetingController.js:52-63 | each user receives the entry once for every time they are listed, newest first, capped at 10 |
| Meetings.NotifyOnce | backend/controllers/meetingController.js:52-63 | a user listed once gets the entry at the head, the older entries after it |
| Meetings.CreateMeeting | backend/controllers/meetingController.js:19-76 | a missing field gives 400 before the cooldown is consulted; then a cooldown gives 429 with the timestamp kept; otherwise the timestamp is set to now and the answer is 500 iff the end time throws or is an Invalid Date; on 201 exactly one meeting is added under the new id, with the creator, title, location, description and slot as sent, the invitees as sent, no answers and the computed end time, and every listed invitee gets the invitation; nothing is stored otherwise |
| Meetings.CooldownBlocksSecond | backend/controllers/meetingController.js:29-33 | a second creation less than 10000 ms later gets 429 and changes nothing |
| Meetings.CreateSucceeds | backend/controllers/meetingController.js:24-71 | a complete request that is not cooling down and has a valid end time gets 201, and each inbox receives one invitation for every time its owner is listed among the friends |
| Meetings.Accept | backend/controllers/meetingController.js:130-133 | the user leaves the invitees entirely, is in `accepted` exactly once, and `rejected` is unchanged |
| Meetings.AcceptIdempotent | backend/controllers/meetingController.js:130-133 | accepting twice is accepting once |
| Meetings.Reject | backend/controllers/meetingController.js:167-168 | the user leaves the invitees and one more rejection is appended on every call; `accepted` is unchanged |
| Meetings.NotifyOne | backend/controllers/meetingController.js:137-144 | only the creator's list changes, and only if the creator exists |
| Meetings.AcceptMeeting | backend/controllers/meetingController.js:122-156 | 404 with nothing changed iff the meeting is unknown; otherwise 200, the meeting replaced by its accepted form, the cooldowns kept, and the creator's inbox given the acceptance notice |
| Meetings.RejectMeeting | backend/controllers/meetingController.js:158-191 | 404 with nothing changed iff the meeting is unknown; otherwise 200, the meeting replaced by its rejected form with the message, the cooldowns kept, and the creator's inbox given the rejection notice |
| Meetings.RejectedUsers | backend/controllers/meetingController.js:203 | the users of the rejections, in order |
| Meetings.Participants | backend/controllers/meetingController.js:203 | someone is a participant iff they are invited, have accepted, or are among the rejecting users |
| Meetings.CancelMeeting | backend/controllers/meetingController.js:193-229 | 404 for an unknown meeting; 403 with nothing changed for a non-creator; otherwise deleted with the participants notified |
| Meetings.CancelNotifies | backend/controllers/meetingController.js:200-220 | only the creator's cancel changes anything; then every participant with a list is notified once per listing |
| Meetings.MyMeetings | backend/controllers/meetingController.js:78-98 | a meeting is in created, pending, accepted or rejected iff the user is its creator, an invitee, accepted, or among the rejecting users |
| Meetings.ListedSomewhere | backend/controllers/meetingController.js:83-96 | every meeting the query returns lands in at least one of the four lists |
| Meetings.AcceptMovesListing | backend/controllers/meetingController.js:93-96 | accepting moves a meeting from pending to accepted |
| Users.NewUser | backend/models/userModel.js:16-21 | a new user has no friends, requests or notifications, an empty code and is unverified |
| Users.Modify | backend/controllers/userController.js:308 | `updateOne` changes the user with that id if it exists, and nothing else |
| Users.RelationOf | backend/controllers/userController.js:304-305 | friends as the requester's list records it, else a request as the target's pending list records it |
| Users.SendFriendRequest | backend/controllers/userController.js:288-322 | 400 iff to oneself and 404 iff a user is missing, both with no change; otherwise 200 with the same user ids and no notifications touched |
| Users.UnfriendBoth | backend/controllers/userController.js:307-310 | between friends, each is removed from the other's friends list and no pending list changes |
| Users.CancelRequest | backend/controllers/userController.js:311-313 | a pending request is withdrawn, and nothing else changes |
| Users.SendRequest | backend/controllers/userController.js:314-316 | the requester is appended to the target's pending list, and nothing else changes |
| Users.ToggleTwice | backend/controllers/userController.js:311-316 | two toggles between strangers restore the collection |
| Users.AcceptRejectRequest | backend/controllers/userController.js:324-341 | a literal `false` rejects with 400; anything else accepts with 200 |
| Users.AcceptAppends | backend/controllers/userController.js:332-336 | accept appends each user to the other's friends and drops the request, without checking that one existed |
| Users.AcceptTwiceDuplicates | backend/controllers/userController.js:332-336 | accepting twice lists each friend twice: nothing de-duplicates |
| Users.RequestThenAccept | backend/controllers/userController.js:314-336 | a request from strangers, accepted by its target, makes them friends both ways and leaves no request |
| Users.SendReminder | backend/controllers/userController.js:490-516 | 404 iff a user is missing; otherwise the reminder heads the recipient's list, capped at 10, and nothing else changes |
| Users.MarkNotificationAsRead | backend/controllers/userController.js:525-542 | a `NaN` or negative index gives 400 before the lookup; a missing user gives 500; otherwise 200 iff the index is in range, with only that entry marked |
| Users.MarkLowersCount | backend/controllers/userController.js:534 | a successful mark lowers the unread count by one exactly when the entry was unread |
| Users.Spend | backend/controllers/userController.js:180-182 | success clears the code, zeroes the expiry and sets verified |
| Users.VerifyChangePasswordOtp | backend/controllers/userController.js:168-189 | success iff a code was given and equals the stored one exactly, and then only that user is spent; a missing user makes the lookup throw (500); nothing changes otherwise |
| Users.VerifyNewEmail | backend/controllers/userController.js:240-262 | success iff an address was given, the same code check passes and no other user holds the address (the unique index on `email`, backend/models/userModel.js:4, makes `save` throw, which answers 500 with nothing stored); then the user is spent, the address stored and no other user has it |
| Users.NoReplay | backend/controllers/userController.js:176-183 | a spent code cannot be used again |
| Users.FreshUserCannotVerify | backend/controllers/userController.js:176-179 | with the default empty code stored, both checks fail |
| Users.ExpiryIgnored | backend/controllers/userController.js:176-183 | users that differ only in expiry get the same answer |
| Users.EmailCheckExtends | backend/controllers/userController.js:240-262 | the two checks agree on a request carrying an address no other user holds; with a taken address a matching code ends in 500 and nothing changes |
| MeetingDetails.Ids | frontend/src/components/MeetingDetails.jsx:93-95 | the ids of the populated people, in order |
| MeetingDetails.Unpopulate | frontend/src/components/MeetingDetails.jsx:96 | the stored rejections the populated entries stand for |
| MeetingDetails.RolesMatchServer | frontend/src/components/MeetingDetails.jsx:93-96 | the dialog's four roles are id tests equal to the server's four listing categories |
| MeetingDetails.DropPerson | frontend/src/components/MeetingDetails.jsx:38 | exactly the people with another id, in order and with their multiplicity; their ids are the id list with that id removed |
| MeetingDetails.LocalAccept | frontend/src/components/MeetingDetails.jsx:36-40 | the user leaves the invitees and is appended to accepted as "You", without de-duplication |
| MeetingDetails.LocalReject | frontend/src/components/MeetingDetails.jsx:57-65 | the user leaves the invitees, the rejection with the typed message is appended and the box is cleared |
| MeetingDetails.AnswerHidesRsvp | frontend/src/components/MeetingDetails.jsx:190 | after either answer, the Accept/Reject controls are gone |
| MeetingDetails.LocalAcceptMirrorsServer | frontend/src/components/MeetingDetails.jsx:36-40 | for a user who had not accepted, the local accept shows what the server stored |
| MeetingDetails.LocalAcceptDuplicates | frontend/src/components/MeetingDetails.jsx:36-40 | for a user who had accepted already, the local copy lists them twice and differs from the server |
| MeetingDetails.LocalRejectMirrorsServer | frontend/src/components/MeetingDetails.jsx:57-65 | the local reject always shows what the server stored |
| MeetingPopup.Select | frontend/src/components/MeetingPopup.jsx:52-58 | the id is appended iff it is non-empty and not chosen yet; the selection stays duplicate-free |
| MeetingPopup.Remove | frontend/src/components/MeetingPopup.jsx:60-62 | exactly the other ids, in order: every occurrence of the id is gone and every other id keeps its count |
| MeetingPopup.SelectRemove | frontend/src/components/MeetingPopup.jsx:52-62 | removing what was just chosen gives the selection back |
| MeetingPopup.RemoveDistinct | frontend/src/components/MeetingPopup.jsx:60-62 | removing keeps the selection duplicate-free |
| MeetingPopup.Options | frontend/src/components/MeetingPopup.jsx:141-142 | the dropdown lists exactly the friends not yet chosen |
| MeetingPopup.ChooseOffered | frontend/src/components/MeetingPopup.jsx:52-58 | choosing an offered friend appends them and removes only them from the dropdown |
| MeetingPopup.TimeSlot | frontend/src/components/MeetingPopup.jsx:76 | the start, " - ", then the end |
| MeetingPopup.RequestOf | frontend/src/components/MeetingPopup.jsx:76-79 | the request carries every field of the form as typed |
| MeetingPopup.Submit | frontend/src/components/MeetingPopup.jsx:64-80 | a request is sent iff no cooldown is active and the form is complete; an incomplete form gets the error |
| MeetingPopup.SentPassesServerCheck | frontend/src/components/MeetingPopup.jsx:71-74 | every request the dialog sends passes the server's missing-field check |
| MeetingPopup.TimeInputsExpire | frontend/src/components/MeetingPopup.jsx:76 | from two 24-hour time inputs, the server reads back the end's hour and minute as the expiry |
| MeetingPopup.Created | frontend/src/components/MeetingPopup.jsx:83-97 | after a creation the form is cleared and the cooldown starts at 10 |
| MeetingPopup.CreatedBlocks | frontend/src/components/MeetingPopup.jsx:65-68 | a submission right after a creation sends nothing |
| MeetingPopup.Tick | frontend/src/components/MeetingPopup.jsx:21-36 | one second: at 1 or less the countdown ends at 0 with the cooldown off; otherwise it loses one |
| MeetingPopup.CountdownEnds | frontend/src/components/MeetingPopup.jsx:21-36 | from n seconds the cooldown stays on for n - 1 ticks and is off, at zero, from the n-th tick on |
| MeetingPopup.CooldownLastsTenSeconds | frontend/src/components/MeetingPopup.jsx:21-97 | after a creation nothing is sent for nine seconds, and a complete form is sent from the tenth |
| Navbar.ButtonFor | frontend/src/components/Navbar.jsx:268-296 | first match wins: Unfriend, else Cancel, else Accept, else Send Request, each with its list test |
| Navbar.CallOf | frontend/src/components/Navbar.jsx:270-291 | Accept answers `true`; the other three call the toggle; all target the card's user |
| Navbar.ButtonMatchesServer | frontend/src/components/Navbar.jsx:268-296 | on the stored records, each button's call takes the server branch its label names and ends in the promised state |
| Navbar.SelfCardRefused | backend/controllers/userController.js:293-295 | the viewer's own search card never offers Accept, and its button's call is refused with 400 "You cannot send request to yourself", changing nothing |
| Navbar.Badge | frontend/src/components/Navbar.jsx:358-361 | the badge appears iff some notification is unread |
| Navbar.BadgeCounts | frontend/src/components/Navbar.jsx:358-361 | a shown badge counts the unread notifications and is never zero |
| Navbar.LocalMarkRead | frontend/src/components/Navbar.jsx:123-130 | only entry `i` becomes read |
| Navbar.IndexRoundTrip | frontend/src/components/Navbar.jsx:124 | the index sent in the route reads back as the index |
| Navbar.LocalMatchesServer | frontend/src/components/Navbar.jsx:123-130 | the local copy after a mark equals the list the server stored |
| Navbar.ToggleSearch | frontend/src/components/Navbar.jsx:9-13 | the box flips, and the term and results are cleared |
| Navbar.ToggleTwiceEmpties | frontend/src/components/Navbar.jsx:9-13 | toggling twice returns the box to where it was, emptied |
| Navbar.SearchChange | frontend/src/components/Navbar.jsx:15-19 | the term is stored; a blank term clears the results and sends no query; any other term is sent as typed |
| JsCore.Without | backend/controllers/userController.js:308-309 | `$pull` removes every occurrence and keeps the other elements in order |
| JsCore.WithoutFilter | backend/controllers/userController.js:308-309 | removing `x` is filtering by `y !== x`: the other elements keep their order and their counts, and `x` has none |
| JsCore.WithoutAppended | backend/controllers/userController.js:312-315 | pulling an id that was just pushed, and was absent before, restores the list |
| JsCore.Trim | frontend/src/components/Navbar.jsx:19 | `trim()`: empty iff the text is all white space; otherwise it neither starts nor ends with white space |
| JsCore.TrimInfix | frontend/src/components/Navbar.jsx:19 | `trim()` returns an infix of the text and cuts off nothing but white space at either end |
| JsCore.SplitPieces | frontend/src/components/Friends.jsx:40 | a one-character split gives more than one piece iff the character occurs |
| JsCore.JoinSplitOn | backend/controllers/meetingController.js:7 | `split` loses nothing: joining the pieces gives the text back |
| JsCore.ParseDigits | frontend/src/components/ProfilePage.jsx:345 | `parseInt` of a digit run followed by a non-digit is the run's value |
| JsCore.Filter | frontend/src/components/Navbar.jsx:360 | `filter` keeps exactly the elements passing the test |
| JsCore.FilterPartition | frontend/src/components/Friends.jsx:106-107 | the kept and the dropped elements together are the original elements |
| JsCore.FilterEnds | frontend/src/components/Friends.jsx:63-69 | a filter is empty iff nothing passes; otherwise its first and last elements are the first and last passing ones |

## Left out

- Reading the files themselves is left out: multer, `fs`, `XLSX.readFile`/`sheet_to_json` and pdfjs text extraction. The model starts from what they produce: the 2-D array of cell values and the list of `{text, x, y}` fragments.
  - A cell value is a hole, a string, a number or a boolean (`ExcelParser.Cell`). Dates arrive as serial numbers.
  - A number is a real, so `NaN` is not modelled. It is falsy, so such a cell would be skipped rather than throw.
- PDF coordinates are floating point in the source. They are whole numbers here, so distances are integers.
- `Number()` is modelled only on decimal integers with surrounding white space. Decimals, exponents, hex/octal/binary prefixes and `Infinity` are not modelled. The labels the code reads never contain them.
- The day check `timetable[day]` in `parseExcel` (backend/routes/timetableRoutes.js:81) is also truthy for names inherited from `Object.prototype`, such as "constructor". The model treats a header as a day only when it is one of the seven weekday names.
- Friends.Classify: the lemmas about the classification require every free slot label of today to read as an hour (`FreeHoursKnown`). With an unreadable label the JavaScript comparator returns `NaN` and the resulting order is engine-defined. The model sorts such a label as hour 0.
- ProfilePage.SortedTimeSlots requires every label to read as a number of minutes, for the same `NaN` reason.
- Friends.SortedSlots requires the same, for the same reason.
- `getCurrentSlot` and `getChillingStatus` in frontend/src/components/Friends.jsx are never called and are not modelled.
- The wall clock is a parameter: the current hour, the weekday index and `Date.now()`.
  - `new Date(date)` becomes the parameter `dayStart`: the epoch milliseconds of the chosen day's midnight, or `None` for an Invalid Date.
  - Time zones and daylight saving are left out.
- Meetings.ExpiresAtClock takes the end's hour and minute as parameters `h` and `m`, tied to the text by a precondition.
- Mongoose is left out: id casting, `populate`, `select`, timestamps and the TTL index that deletes expired meetings.
  - Ids are strings.
  - A populated reference to a deleted user, which is `null` in the source, is not modelled.
  - `getMyMeetings` filters the stored meetings directly.
- Socket.io emits (`req.io`), toasts, spinners and all rendering outside the listed components are left out.
- The upload route's 500 for a user deleted before the upload is left out. `User.findById` then gives `null` and `user.timetable = …` throws, but `Upload.UploadTimetable` takes no user store and answers 200 after a successful parse.
- The `TypeError` when `creator.username`, `acceptingUser.username` or `rejectingUser.username` is read for a user who no longer exists is left out. `Meetings.AcceptMeeting` and `Meetings.RejectMeeting` take the answering user's name as a parameter. The model always has a name to print.
- Request bodies are read as `Option` values.
  - A JSON `otp` or `result` of another type (a number, an object) is not distinguished.
  - `result` is `Some(true)`, `Some(false)` or `None`.
- OTP generation (`Math.random`), nodemailer, bcrypt, JWT authentication and cloudinary are left out.
- The user-supplied regular expression in `searchUsers`/`searchFriends` is left out. The search box model records the query sent, not its results.
- Client functions that call the server (axios) are modelled as running after the request succeeded. Error paths only show toasts.
- Navbar.ButtonMatchesServer assumes the card shows the users as stored. A stale copy can show a button whose call takes another branch.
- Navbar.ButtonMatchesServer also requires the card to be another user's. `searchUsers` does not leave the viewer out, so the viewer's own card can appear. Its button is refused with 400 (`Navbar.SelfCardRefused`).
- backend/server.js:43-45 mounts no router at `/api/meeting`, although MeetingPopup.jsx and MeetingDetails.jsx call `/api/meeting/*`. The model follows the handlers in backend/controllers/meetingController.js, as though they were reachable there.
- Navbar.LocalMarkRead requires an in-range index, because it is only called with the position of a rendered row.
- Pure database wrappers are not part of this model: backend/controllers/messageController.js and backend/controllers/conversationController.js.
- `uploadTimeTable` in backend/controllers/userController.js destructures `userId` from a string. This broken code is not modelled.
- `deleteUser` in the same file uses an unimported `Message`. This broken code is not modelled.
- The response message "Eamil verified" is modelled verbatim.

## Findings

| source | as written | input that shows it | evidently intended | confidence | as-written member | corrected member |
|---|---|---|---|---|---|---|
| frontend/src/components/Friends.jsx:24-35 | `formatHourEnd` applies the slot's own meridian to the end hour, so 12 AM becomes hour 0 | the slot "11-12 AM" ends at "12 AM" (midnight) although it runs from 11 to noon; a free block ending with it reads "Free … to 12 AM" | the end of a slot is the first clock hour after its start: "12 PM" | not executed | Friends.EndOfElevenSlot | Friends.FormatHourEndFixedCanonical |

The status texts elsewhere in the model render a block's end as written (`Friends.FreeRangeText`). The corrected text is `Friends.FreeRangeTextFixed`. `Friends.FreeRangeTextDiffers` shows that, among blocks ending in one of the nine canonical slots, the two texts differ only for a block ending in "11-12 AM". Non-canonical labels that a spreadsheet can store are outside that lemma. `Friends.AmNoonEndDiffers` covers one family of them: every well-formed AM label whose end field is 12, such as "10-12 AM", ends "12 AM" as written and in the afternoon once corrected, so the two texts differ there too.

=== FILE: assoc.dfy ===
/**
 A plain JavaScript object used as a dictionary: an association list with unique keys.
 `Object.keys`, `Object.values`, `Object.entries` and `for..in` enumerate it in insertion
 order, and assigning to a key that is already present keeps that key's position.
 */
module Assoc {
  import opened JsCore

  type Assoc<K, V> = seq<(K, V)>

  /** `Object.keys(a)`. */
  function Keys<K, V>(a: Assoc<K, V>): (ks: seq<K>)
    ensures |ks| == |a|
    ensures forall i :: 0 <= i < |a| ==> ks[i] == a[i].0
  {
    seq(|a|, i requires 0 <= i < |a| => a[i].0)
  }

  /** `Object.values(a)`. */
  function Values<K, V>(a: Assoc<K, V>): (vs: seq<V>)
    ensures |vs| == |a|
    ensures forall i :: 0 <= i < |a| ==> vs[i] == a[i].1
  {
    seq(|a|, i requires 0 <= i < |a| => a[i].1)
  }

  /** No key is listed twice: what every JavaScript object satisfies. */
  predicate UniqueKeys<K(==), V>(a: Assoc<K, V>) {
    forall i, j :: 0 <= i < j < |a| ==> a[i].0 != a[j].0
  }

  /** `a[k]`, `None` for a missing key. */
  function Get<K(==), V>(a: Assoc<K, V>, k: K): (r: Option<V>)
    ensures r.Some? <==> k in Keys(a)
  {
    if |a| == 0 then None
    else if a[0].0 == k then Some(a[0].1)
    else
      assert Keys(a) == [a[0].0] + Keys(a[1..]);
      Get(a[1..], k)
  }

  /** A value found under a key is the value of some entry with that key. */
  lemma {:induction false} GetFound<K, V>(a: Assoc<K, V>, k: K)
    requires Get(a, k).Some?
    ensures exists i :: 0 <= i < |a| && a[i] == (k, Get(a, k).value)
  {
    if a[0].0 != k {
      GetFound(a[1..], k);
      var i :| 0 <= i < |a[1..]| && a[1..][i] == (k, Get(a[1..], k).value);
      assert a[i + 1] == a[1..][i];
    }
  }

  /** With unique keys, looking up the key at position `i` finds the value at position `i`. */
  lemma {:induction false} GetAt<K, V>(a: Assoc<K, V>, i: nat)
    requires UniqueKeys(a) && i < |a|
    ensures Get(a, a[i].0) == Some(a[i].1)
  {
    if i > 0 {
      assert a[0].0 != a[i].0;
      assert a[1..][i - 1] == a[i];
      GetAt(a[1..], i - 1);
    }
  }

  /** `a[k] = v`: overwrite in place, or append a new key at the end. */
  function Put<K(==), V>(a: Assoc<K, V>, k: K, v: V): (r: Assoc<K, V>)
    ensures Get(r, k) == Some(v)
    ensures |r| == if k in Keys(a) then |a| else |a| + 1
  {
    if |a| == 0 then [(k, v)]
    else if a[0].0 == k then [(k, v)] + a[1..]
    else
      var t := Put(a[1..], k, v);
      assert Keys(a) == [a[0].0] + Keys(a[1..]);
      assert ([a[0]] + t)[1..] == t;
      [a[0]] + t
  }

  /** Assigning one key leaves every other key's value alone. */
  lemma {:induction false} PutGet<K, V>(a: Assoc<K, V>, k: K, v: V, k': K)
    ensures Get(Put(a, k, v), k') == if k' == k then Some(v) else Get(a, k')
  {
    if |a| > 0 && a[0].0 != k {
      PutGet(a[1..], k, v, k');
      assert ([a[0]] + Put(a[1..], k, v))[1..] == Put(a[1..], k, v);
    }
  }

  /** An existing key keeps its position; a new key goes last. */
  lemma {:induction false} PutKeys<K, V>(a: Assoc<K, V>, k: K, v: V)
    ensures Keys(Put(a, k, v)) == if k in Keys(a) then Keys(a) else Keys(a) + [k]
  {
    if |a| > 0 {
      assert Keys(a) == [a[0].0] + Keys(a[1..]);
      if a[0].0 != k {
        PutKeys(a[1..], k, v);
        ConsKeys(a[0], Put(a[1..], k, v));
      }
    }
  }

  /** Assignment keeps the keys unique. */
  lemma PutUnique<K, V>(a: Assoc<K, V>, k: K, v: V)
    requires UniqueKeys(a)
    ensures UniqueKeys(Put(a, k, v))
  {
    var r := Put(a, k, v);
    PutKeys(a, k, v);
    forall i, j | 0 <= i < j < |r| ensures r[i].0 != r[j].0 {
      assert Keys(r)[i] == r[i].0 && Keys(r)[j] == r[j].0;
      if k in Keys(a) {
        assert Keys(a)[i] == a[i].0 && Keys(a)[j] == a[j].0;
      } else if j < |a| {
        assert Keys(a)[i] == a[i].0 && Keys(a)[j] == a[j].0;
      } else {
        assert Keys(a)[i] == a[i].0;
      }
    }
  }

  /** Assignment adds the one entry `(k, v)` and otherwise keeps entries of `a`. */
  lemma {:induction false} PutEntries<K, V>(a: Assoc<K, V>, k: K, v: V)
    ensures forall e :: e in Put(a, k, v) ==> e in a || e == (k, v)
  {
    if |a| > 0 && a[0].0 != k {
      PutEntries(a[1..], k, v);
      forall e | e in Put(a, k, v) ensures e in a || e == (k, v) {
        if e != a[0] {
          assert e in Put(a[1..], k, v);
        }
      }
    } else if |a| > 0 {
      forall e | e in Put(a, k, v) ensures e in a || e == (k, v) {
        if e != (k, v) {
          assert e in a[1..];
        }
      }
    }
  }

  lemma ConsKeys<K, V>(x: (K, V), t: Assoc<K, V>)
    ensures Keys([x] + t) == [x.0] + Keys(t)
  {
    var l, r := Keys([x] + t), [x.0] + Keys(t);
    forall i | 0 <= i < |l| ensures l[i] == r[i] {
      if i > 0 {
        assert ([x] + t)[i] == t[i - 1];
      }
    }
  }
}

=== FILE: calendar.dfy ===
/**
 The weekly timetable grid shared by the server and the client: a map from day name to
 a map from slot label to occupant, where the occupant is a course code, free text, or
 the sentinel "No class". The fixed day and slot vocabularies are written out identically
 in backend/routes/timetableRoutes.js, Friends.jsx, Header.jsx and ProfilePage.jsx; they
 are stated once here.
 */
module Calendar {
  import opened JsCore
  import opened Assoc

  const NoClass: string := "No class"

  /** Monday-first, as in `emptyTimetable` and the ProfilePage day order. */
  const Days: seq<string> :=
    ["Monday", "Tuesday", "Wednesday", "Thursday", "Friday", "Saturday", "Sunday"]

  /** The nine canonical one-hour slots from 09:00 to 18:00, in time order. */
  const SlotOrder: seq<string> :=
    ["09-10 AM", "10-11 AM", "11-12 AM", "12-01 PM", "01-02 PM",
     "02-03 PM", "03-04 PM", "04-05 PM", "05-06 PM"]

  type Cells = Assoc<string, string>
  type Grid = Assoc<string, Cells>

  predicate Distinct(s: seq<string>) {
    forall i, j :: 0 <= i < j < |s| ==> s[i] != s[j]
  }

  /** No element of a list without repeats occurs twice in it. */
  lemma {:induction false} DistinctCount(s: seq<string>, x: string)
    requires Distinct(s)
    ensures multiset(s)[x] <= 1
  {
    if |s| > 0 {
      DistinctTail(s);
      DistinctCount(s[1..], x);
      assert s == [s[0]] + s[1..];
    }
  }

  /** A rearrangement of a list without repeats has none either. */
  lemma DistinctPermutation(a: seq<string>, b: seq<string>)
    requires multiset(a) == multiset(b) && Distinct(a)
    ensures Distinct(b)
  {
    forall i, j | 0 <= i < j < |b| ensures b[i] != b[j] {
      if b[i] == b[j] {
        assert b == b[..j] + b[j..];
        assert b[i] in b[..j];
        assert b[j..] == [b[j]] + b[j + 1..];
        assert multiset(b)[b[i]] >= 2;
        DistinctCount(a, b[i]);
      }
    }
  }

  /** A rearrangement holds the same elements, and none twice when the original does not. */
  lemma PermutationMembers(a: seq<string>, b: seq<string>)
    requires multiset(a) == multiset(b) && Distinct(a)
    ensures Distinct(b)
    ensures forall x :: x in b <==> x in a
  {
    DistinctPermutation(a, b);
    forall x ensures x in b <==> x in a {
      assert x in b <==> x in multiset(b);
      assert x in a <==> x in multiset(a);
    }
  }

  /** Every object in the grid has unique keys, as JavaScript objects do. */
  predicate WellFormed(g: Grid) {
    UniqueKeys(g) && forall i :: 0 <= i < |g| ==> UniqueKeys(g[i].1)
  }

  lemma VocabularyDistinct()
    ensures Distinct(Days) && Distinct(SlotOrder)
  {
  }

  /** `ks.forEach(k => obj[k] = v)`. */
  function PutEach<V>(a: Assoc<string, V>, ks: seq<string>, v: V): Assoc<string, V>
    decreases |ks|
  {
    if |ks| == 0 then a else PutEach(Put(a, ks[0], v), ks[1..], v)
  }

  /** Every listed key ends up holding `v`; the other keys keep their values. */
  lemma {:induction false} PutEachGet<V>(a: Assoc<string, V>, ks: seq<string>, v: V, k: string)
    ensures Get(PutEach(a, ks, v), k) == if k in ks then Some(v) else Get(a, k)
    decreases |ks|
  {
    if |ks| > 0 {
      PutEachGet(Put(a, ks[0], v), ks[1..], v, k);
      PutGet(a, ks[0], v, k);
      assert k in ks <==> k == ks[0] || k in ks[1..];
    }
  }

  /** Fresh, distinct keys are appended in the order given. */
  lemma {:induction false} PutEachKeys<V>(a: Assoc<string, V>, ks: seq<string>, v: V)
    requires Distinct(ks)
    requires forall k :: k in ks ==> k !in Keys(a)
    ensures Keys(PutEach(a, ks, v)) == Keys(a) + ks
    decreases |ks|
  {
    if |ks| > 0 {
      var a', t := Put(a, ks[0], v), ks[1..];
      PutKeys(a, ks[0], v);
      DistinctTail(ks);
      assert forall k :: k in t ==> k in ks && k != ks[0];
      PutEachKeys(a', t, v);
      HeadTail(ks);
      SeqAssoc(Keys(a), [ks[0]], t);
    }
  }

  /** Assigning keys one by one keeps them unique. */
  lemma {:induction false} PutEachUnique<V>(a: Assoc<string, V>, ks: seq<string>, v: V)
    requires UniqueKeys(a)
    ensures UniqueKeys(PutEach(a, ks, v))
    decreases |ks|
  {
    if |ks| > 0 {
      PutUnique(a, ks[0], v);
      PutEachUnique(Put(a, ks[0], v), ks[1..], v);
    }
  }

  lemma DistinctTail(ks: seq<string>)
    requires |ks| > 0 && Distinct(ks)
    ensures Distinct(ks[1..]) && ks[0] !in ks[1..]
  {
    forall i, j | 0 <= i < j < |ks[1..]| ensures ks[1..][i] != ks[1..][j] {
      assert ks[1..][i] == ks[i + 1] && ks[1..][j] == ks[j + 1];
    }
  }

  /** One day with every canonical slot free. */
  function EmptyDay(): Cells {
    PutEach([], SlotOrder, NoClass)
  }

  /** `emptyTimetable()` (backend/routes/timetableRoutes.js). */
  function EmptyTimetable(): Grid {
    PutEach([], Days, EmptyDay())
  }

  /** The empty day has exactly the nine canonical slots, in order, all "No class". */
  lemma EmptyDayShape()
    ensures Keys(EmptyDay()) == SlotOrder
    ensures UniqueKeys(EmptyDay())
    ensures forall s :: Get(EmptyDay(), s) == if s in SlotOrder then Some(NoClass) else None
  {
    VocabularyDistinct();
    PutEachKeys([], SlotOrder, NoClass);
    PutEachUnique([], SlotOrder, NoClass);
    forall s ensures Get(EmptyDay(), s) == if s in SlotOrder then Some(NoClass) else None {
      PutEachGet([], SlotOrder, NoClass, s);
    }
  }

  /** The empty timetable has exactly the seven days, in order, each the empty day. */
  lemma EmptyTimetableShape()
    ensures Keys(EmptyTimetable()) == Days
    ensures forall d :: Get(EmptyTimetable(), d) == if d in Days then Some(EmptyDay()) else None
  {
    VocabularyDistinct();
    PutEachKeys([], Days, EmptyDay());
    forall d ensures Get(EmptyTimetable(), d) == if d in Days then Some(EmptyDay()) else None {
      PutEachGet([], Days, EmptyDay(), d);
    }
  }

  /** Every cell of the empty timetable is a canonical slot of a known day holding "No class". */
  lemma EmptyTimetableCells()
    ensures WellFormed(EmptyTimetable())
    ensures forall d, s ::
      CellOf(EmptyTimetable(), d, s) == if d in Days && s in SlotOrder then Some(NoClass) else None
  {
    EmptyDayShape();
    EmptyTimetableShape();
    var g := EmptyTimetable();
    PutEachUnique([], Days, EmptyDay());
    forall i | 0 <= i < |g| ensures UniqueKeys(g[i].1) {
      GetAt(g, i);
    }
  }

  /** `day[s] && day[s] !== "No class"`: the cell exists, is not the empty string (which
      JavaScript treats as false) and is not the free sentinel. */
  predicate HasClass(day: Cells, s: string) {
    Get(day, s).Some? && Get(day, s).value != "" && Get(day, s).value != NoClass
  }

  /** `g[d]?.[s]`. */
  function CellOf(g: Grid, d: string, s: string): Option<string> {
    match Get(g, d)
    case None => None
    case Some(cells) => Get(cells, s)
  }

  /** `g[d] = g[d] || {}; g[d][s] = v`. */
  function SetCell(g: Grid, d: string, s: string, v: string): (r: Grid)
    ensures CellOf(r, d, s) == Some(v)
  {
    Put(g, d, Put(Get(g, d).GetOr([]), s, v))
  }

  /** Setting one cell changes no other cell and no other day. */
  lemma SetCellOther(g: Grid, d: string, s: string, v: string, d': string, s': string)
    ensures CellOf(SetCell(g, d, s, v), d', s') ==
      if (d', s') == (d, s) then Some(v) else CellOf(g, d', s')
    ensures d' != d ==> Get(SetCell(g, d, s, v), d') == Get(g, d')
  {
    var cells := Get(g, d).GetOr([]);
    PutGet(g, d, Put(cells, s, v), d');
    PutGet(cells, s, v, s');
  }

  /** Setting a cell adds its day at the end if it was missing, and keeps the grid well formed. */
  lemma SetCellKeys(g: Grid, d: string, s: string, v: string)
    ensures Keys(SetCell(g, d, s, v)) == if d in Keys(g) then Keys(g) else Keys(g) + [d]
    ensures WellFormed(g) ==> WellFormed(SetCell(g, d, s, v))
  {
    var cells := Get(g, d).GetOr([]);
    var r := SetCell(g, d, s, v);
    PutKeys(g, d, Put(cells, s, v));
    if WellFormed(g) {
      PutUnique(g, d, Put(cells, s, v));
      assert UniqueKeys(cells) by {
        if d in Keys(g) {
          GetFound(g, d);
        }
      }
      PutUnique(cells, s, v);
      forall i | 0 <= i < |r| ensures UniqueKeys(r[i].1) {
        GetAt(r, i);
        PutGet(g, d, Put(cells, s, v), r[i].0);
        if r[i].0 != d {
          GetFound(g, r[i].0);
          var j :| 0 <= j < |g| && g[j] == (r[i].0, Get(g, r[i].0).value);
        }
      }
    }
  }

  /** One assignment `timetable[day][slot] = occupant` made by a parser. */
  datatype Write = Write(day: string, slot: string, occupant: string)

  /** The occupant of the last write to cell `(d, s)`, if any. */
  function LastWrite(ws: seq<Write>, d: string, s: string): (r: Option<string>)
    ensures r.None? <==> forall i :: 0 <= i < |ws| ==> (ws[i].day, ws[i].slot) != (d, s)
    ensures r.Some? ==> exists i :: (0 <= i < |ws| && ws[i] == Write(d, s, r.value)
      && forall j :: i < j < |ws| ==> (ws[j].day, ws[j].slot) != (d, s))
    decreases |ws|
  {
    if |ws| == 0 then None
    else
      var rest := LastWrite(ws[1..], d, s);
      assert forall i :: 0 < i < |ws| ==> ws[i] == ws[1..][i - 1];
      if rest.Some? then
        assert exists i :: (0 <= i < |ws| && ws[i] == Write(d, s, rest.value)
          && forall j :: i < j < |ws| ==> (ws[j].day, ws[j].slot) != (d, s)) by {
          var i :| 0 <= i < |ws[1..]| && ws[1..][i] == Write(d, s, rest.value)
            && forall j :: i < j < |ws[1..]| ==> (ws[1..][j].day, ws[1..][j].slot) != (d, s);
          assert ws[i + 1] == Write(d, s, rest.value);
        }
        rest
      else if (ws[0].day, ws[0].slot) == (d, s) then Some(ws[0].occupant)
      else None
  }

  /** Perform the writes in order. */
  function ApplyWrites(g: Grid, ws: seq<Write>): Grid
    decreases |ws|
  {
    if |ws| == 0 then g
    else ApplyWrites(SetCell(g, ws[0].day, ws[0].slot, ws[0].occupant), ws[1..])
  }

  /** Last write wins: a cell holds the occupant of the last write to it, and is untouched
      when nothing wrote to it. */
  lemma {:induction false} ApplyWritesCell(g: Grid, ws: seq<Write>, d: string, s: string)
    ensures CellOf(ApplyWrites(g, ws), d, s) ==
      if LastWrite(ws, d, s).Some? then LastWrite(ws, d, s) else CellOf(g, d, s)
    decreases |ws|
  {
    if |ws| > 0 {
      SetCellOther(g, ws[0].day, ws[0].slot, ws[0].occupant, d, s);
      ApplyWritesCell(SetCell(g, ws[0].day, ws[0].slot, ws[0].occupant), ws[1..], d, s);
    }
  }

  /** Writes to days already present keep the day keys and their order, and keep the grid
      well formed. */
  lemma {:induction false} ApplyWritesKeys(g: Grid, ws: seq<Write>)
    requires forall i :: 0 <= i < |ws| ==> ws[i].day in Keys(g)
    ensures Keys(ApplyWrites(g, ws)) == Keys(g)
    ensures WellFormed(g) ==> WellFormed(ApplyWrites(g, ws))
    decreases |ws|
  {
    if |ws| > 0 {
      var g' := SetCell(g, ws[0].day, ws[0].slot, ws[0].occupant);
      SetCellKeys(g, ws[0].day, ws[0].slot, ws[0].occupant);
      assert forall i :: 0 <= i < |ws[1..]| ==> ws[1..][i] == ws[i + 1];
      ApplyWritesKeys(g', ws[1..]);
    }
  }

  /** Add each label not yet present, keeping first-occurrence order (`Set.prototype.add`). */
  function AddNew(acc: seq<string>, ks: seq<string>): (r: seq<string>)
    requires Distinct(acc)
    ensures Distinct(r)
    ensures forall x :: x in r <==> x in acc || x in ks
    ensures |r| >= |acc| && r[..|acc|] == acc
    decreases |ks|
  {
    if |ks| == 0 then acc
    else if ks[0] in acc then AddNew(acc, ks[1..])
    else
      var r := AddNew(acc + [ks[0]], ks[1..]);
      assert r[..|acc|] == (acc + [ks[0]])[..|acc|];
      r
  }

  /** The distinct slot labels of all days, in first-seen order: `new Set()` filled from every
      day's keys (`getSortedSlots` in Friends.jsx, `allTimeSlots` in ProfilePage.jsx). */
  function SlotLabels(g: Grid): (r: seq<string>)
    ensures Distinct(r)
    ensures forall x :: x in r <==> exists i :: 0 <= i < |g| && x in Keys(g[i].1)
  {
    SlotLabelsFrom([], g)
  }

  function SlotLabelsFrom(acc: seq<string>, g: Grid): (r: seq<string>)
    requires Distinct(acc)
    ensures Distinct(r)
    ensures forall x :: x in r <==> x in acc || exists i :: 0 <= i < |g| && x in Keys(g[i].1)
    decreases |g|
  {
    if |g| == 0 then acc
    else
      var r := SlotLabelsFrom(AddNew(acc, Keys(g[0].1)), g[1..]);
      assert forall i :: 0 < i < |g| ==> g[i] == g[1..][i - 1];
      r
  }

  /** Every day's slot keys, day after day, repeats included. */
  function AllLabels(g: Grid): seq<string>
    decreases |g|
  {
    if |g| == 0 then [] else Keys(g[0].1) + AllLabels(g[1..])
  }

  /** `r` lists its elements in the order they are first seen in `all`: before any occurrence
      of a later element, every earlier one has already appeared. */
  predicate FirstSeenOrder(r: seq<string>, all: seq<string>) {
    forall i, j, k :: 0 <= i < j < |r| && 0 <= k < |all| && all[k] == r[j] ==> r[i] in all[..k]
  }

  /** The slot labels come in the order they are first met, scanning the days in order and each
      day's keys in order; together with `SlotLabels`' contract this fixes the list. */
  lemma SlotLabelsOrder(g: Grid)
    ensures FirstSeenOrder(SlotLabels(g), AllLabels(g))
  {
    SlotLabelsFromOrder([], [], g);
    assert [] + AllLabels(g) == AllLabels(g);
  }

  lemma {:induction false} SlotLabelsFromOrder(acc: seq<string>, pre: seq<string>, g: Grid)
    requires Distinct(acc)
    requires forall x :: x in acc <==> x in pre
    requires FirstSeenOrder(acc, pre)
    ensures FirstSeenOrder(SlotLabelsFrom(acc, g), pre + AllLabels(g))
    decreases |g|
  {
    if |g| == 0 {
      assert pre + AllLabels(g) == pre;
    } else {
      var ks := Keys(g[0].1);
      var acc' := AddNew(acc, ks);
      AddNewOrder(acc, pre, ks);
      assert forall x :: x in acc' <==> x in pre + ks;
      SlotLabelsFromOrder(acc', pre + ks, g[1..]);
      assert SlotLabelsFrom(acc, g) == SlotLabelsFrom(acc', g[1..]);
      assert AllLabels(g) == ks + AllLabels(g[1..]);
      SeqAssoc(pre, ks, AllLabels(g[1..]));
    }
  }

  /** `AddNew` extends the first-seen order of what was seen before by the new keys. */
  lemma {:induction false} AddNewOrder(acc: seq<string>, pre: seq<string>, ks: seq<string>)
    requires Distinct(acc)
    requires forall x :: x in acc <==> x in pre
    requires FirstSeenOrder(acc, pre)
    ensures FirstSeenOrder(AddNew(acc, ks), pre + ks)
    decreases |ks|
  {
    if |ks| == 0 {
      assert pre + ks == pre;
    } else {
      var x := ks[0];
      var pre' := pre + [x];
      assert pre' + ks[1..] == pre + ks;
      if x in acc {
        forall i, j, k | 0 <= i < j < |acc| && 0 <= k < |pre'| && pre'[k] == acc[j]
          ensures acc[i] in pre'[..k]
        {
          if k < |pre| {
            assert pre'[..k] == pre[..k];
          } else {
            assert pre'[..k] == pre;
          }
        }
        AddNewOrder(acc, pre', ks[1..]);
      } else {
        var acc' := acc + [x];
        forall i, j, k | 0 <= i < j < |acc'| && 0 <= k < |pre'| && pre'[k] == acc'[j]
          ensures acc'[i] in pre'[..k]
        {
          if j < |acc| {
            assert acc'[j] == acc[j] && acc'[i] == acc[i];
            assert acc[j] != x;
            assert k < |pre|;
            assert pre'[..k] == pre[..k];
          } else {
            assert forall m :: 0 <= m < |pre| ==> pre'[m] == pre[m] && pre[m] != x;
            assert k == |pre|;
            assert pre'[..k] == pre;
            assert acc'[i] == acc[i];
          }
        }
        AddNewOrder(acc', pre', ks[1..]);
      }
    }
  }
}

=== FILE: excel_parser.dfy ===
/**
 The cell loop of `parseExcel` (backend/routes/timetableRoutes.js), run over the rows that
 `XLSX.utils.sheet_to_json(sheet, { header: 1 })` produced. Row 2 holds the day names; every
 later non-blank cell whose column is headed by a day and whose text is "time line \n subject
 line" writes one cell of the empty timetable. A number or `true` in any of those rows is not a
 string, so `.trim()` throws on it and the whole parse fails.
 */
module ExcelParser {
  import opened JsCore
  import opened Assoc
  import opened Calendar
  import opened TimeSlot

  /** A value of a row as `sheet_to_json` leaves it: a hole (or an empty cell), a string, a
      number or a boolean. Dates arrive as serial numbers. */
  datatype Cell = Hole | Str(text: string) | Num(value: real) | Bool(flag: bool)
  type Row = seq<Cell>

  /** JavaScript truthiness of a cell value. */
  predicate Truthy(cell: Cell) {
    match cell
    case Hole => false
    case Str(t) => t != ""
    case Num(v) => v != 0.0
    case Bool(b) => b
  }

  /** `row[c] || ""`. */
  function OrEmpty(cell: Cell): Cell {
    if Truthy(cell) then cell else Str("")
  }

  /** `.trim()` is called on `row[c] || ""`, and throws when that is not a string. */
  predicate Throws(cell: Cell) {
    !OrEmpty(cell).Str?
  }

  /** What V8 throws for `(row[c] || "").trim()` on a number or a boolean. */
  const TrimError: string := "(row[c] || \"\").trim is not a function"

  /** The text of a cell, as `row[c] || ""` yields it whenever the cell does not throw. */
  function CellString(cell: Cell): (r: string)
    ensures !Throws(cell) ==> OrEmpty(cell) == Str(r)
    ensures Throws(cell) <==> (cell.Num? && cell.value != 0.0) || cell == Bool(true)
  {
    if cell.Str? then cell.text else ""
  }

  /** `[A-Z]{3}\d{3}` matches at `i`. */
  predicate CodeAt(s: string, i: nat) {
    i + 6 <= |s| && IsUpper(s[i]) && IsUpper(s[i + 1]) && IsUpper(s[i + 2])
      && IsDigit(s[i + 3]) && IsDigit(s[i + 4]) && IsDigit(s[i + 5])
  }

  function CodeMatch(s: string, i: nat): Option<string> {
    if CodeAt(s, i) then Some(s[i..i + 6]) else None
  }

  /** `s.match(/([A-Z]{3}\d{3})/)?.[1]`: the leftmost course code in `s`. */
  function CourseCode(s: string): (r: Option<string>)
    ensures r.None? <==> forall i :: 0 <= i < |s| ==> !CodeAt(s, i)
    ensures r.Some? ==> exists i :: (0 <= i < |s| && CodeAt(s, i) && r.value == s[i..i + 6]
      && forall j :: 0 <= j < i ==> !CodeAt(s, j))
  {
    var f := (i: nat) => CodeMatch(s, i);
    var r := FirstFrom(f, 0, |s|);
    assert forall i :: 0 <= i < |s| ==> (f(i).None? <==> !CodeAt(s, i));
    r
  }

  /** The occupant written for a subject line: its first course code, else the line itself, and
      "No class" for an empty line (`lines[1] || "No class"`). */
  function Occupant(line: string): (r: string)
    ensures r != ""
    ensures CourseCode(line).None? ==> r == if line == "" then NoClass else line
    ensures CourseCode(line).Some? ==> r == CourseCode(line).value
    ensures CourseCode(line).Some? ==> |r| == 6 && exists i :: 0 <= i && CodeAt(line, i) && r == line[i..i + 6]
  {
    var subject := if line == "" then NoClass else line;
    assert CourseCode(NoClass).None? by {
      forall i | 0 <= i < |NoClass| ensures !CodeAt(NoClass, i) {
        assert i + 6 > |NoClass| || !IsDigit(NoClass[i + 3]);
      }
    }
    match CourseCode(subject)
    case Some(code) => code
    case None => subject
  }

  /** `cell.split("\n").map(line => line.trim())`. */
  function Lines(text: string): (r: seq<string>)
    ensures |r| == |Split(text, '\n')|
    ensures forall i :: 0 <= i < |r| ==> r[i] == Trim(Split(text, '\n')[i])
  {
    var parts := Split(text, '\n');
    seq(|parts|, i requires 0 <= i < |parts| => Trim(parts[i]))
  }

  /** `headers[c]`. */
  function HeaderAt(headers: Row, c: nat): Cell {
    if c < |headers| then headers[c] else Hole
  }

  /** `headers[c]` passes `!day || !timetable[day]`: it is the name of one of the grid's days. A
      number or a boolean names no key of the timetable, and the day keys never change
      (`ExcelGridDays`). */
  predicate DayHeader(header: Cell) {
    header.Str? && header.text in Days
  }

  /** What one cell that does not throw contributes, given its column's header. */
  function CellWrite(header: Cell, cell: Cell): Option<Write> {
    var text := Trim(CellString(cell));
    if text == "" then None
    else if !DayHeader(header) then None
    else LinesWrite(header.text, Lines(text))
  }

  /** The time line and subject line of a non-blank cell under day `day`. */
  function LinesWrite(day: string, lines: seq<string>): Option<Write> {
    if |lines| < 2 then None
    else
      match NormalizeTimeSlot(lines[0])
      case None => None
      case Some(slot) => Some(Write(day, slot, Occupant(lines[1])))
  }

  /** A cell writes exactly when it is non-blank, its header is a day, it has a second line and
      its first line normalises. */
  lemma CellWriteChecks(header: Cell, cell: Cell)
    ensures var text := Trim(CellString(cell));
      CellWrite(header, cell).Some? <==>
        text != "" && header.Str? && header.text in Days && '\n' in text
        && NormalizeTimeSlot(Lines(text)[0]).Some?
  {
    var text := Trim(CellString(cell));
    if text != "" && DayHeader(header) {
      assert CellWrite(header, cell) == LinesWrite(header.text, Lines(text));
      LinesWriteSome(header.text, Lines(text));
      SplitPieces(text, '\n');
    }
  }

  lemma LinesWriteSome(day: string, lines: seq<string>)
    ensures LinesWrite(day, lines).Some? <==> |lines| >= 2 && NormalizeTimeSlot(lines[0]).Some?
  {
  }

  /** The write goes to the header's day and the normalised first line, with the occupant taken
      from the second line. */
  lemma CellWriteFields(header: Cell, cell: Cell)
    requires CellWrite(header, cell).Some?
    ensures var lines := Lines(Trim(CellString(cell)));
      var w := CellWrite(header, cell).value;
      |lines| >= 2 && header.Str? && w.day == header.text && Some(w.slot) == NormalizeTimeSlot(lines[0])
        && w.occupant == Occupant(lines[1])
  {
    var text := Trim(CellString(cell));
    assert text != "" && DayHeader(header);
    assert CellWrite(header, cell) == LinesWrite(header.text, Lines(text));
  }

  /** Every write names one of the seven days. */
  lemma CellWriteDay(header: Cell, cell: Cell)
    ensures CellWrite(header, cell).Some? ==> CellWrite(header, cell).value.day in Days
  {
    if CellWrite(header, cell).Some? {
      CellWriteFields(header, cell);
    }
  }

  /** `row[c]` with its header, as seen by the loop body. */
  function CellAt(headers: Row, row: Row, c: nat): Option<Write> {
    if c < |row| then CellWrite(HeaderAt(headers, c), row[c]) else None
  }

  /** The writes of one row, left to right. */
  function RowWrites(headers: Row, row: Row): seq<Write> {
    Collect((c: nat) => CellAt(headers, row, c), 0, |row|)
  }

  /** `data[2] || []`: the header row. */
  function Headers(data: seq<Row>): Row {
    if |data| > 2 then data[2] else []
  }

  function RowAt(data: seq<Row>, r: nat): seq<Write> {
    if r < |data| then RowWrites(Headers(data), data[r]) else []
  }

  /** Every write the sheet makes, in row-major order, starting at row 3. */
  function ExcelWrites(data: seq<Row>): seq<Write> {
    Concat((r: nat) => RowAt(data, r), 3, |data|)
  }

  /** The timetable the loop builds when no cell throws. */
  function ExcelGrid(data: seq<Row>): Grid {
    ApplyWrites(EmptyTimetable(), ExcelWrites(data))
  }

  /** Some cell of row 3 or later throws at `.trim()`. The headers are never trimmed. */
  predicate SheetThrows(data: seq<Row>) {
    exists r, c :: 3 <= r < |data| && 0 <= c < |data[r]| && Throws(data[r][c])
  }

  /** `parseExcel` after the workbook has been read: the first cell that throws abandons the
      timetable built so far, so the outcome does not depend on where that cell is. */
  function ParseExcel(data: seq<Row>): Result<Grid> {
    if SheetThrows(data) then Failure(TrimError) else Success(ExcelGrid(data))
  }

  /** Parsing fails exactly when some cell of row 3 or later is a non-zero number or `true`, and
      then with the TypeError of `.trim()`; otherwise it yields the timetable the writes build. */
  lemma ParseExcelThrows(data: seq<Row>)
    ensures ParseExcel(data).Failure? <==> exists r, c :: (3 <= r < |data| && 0 <= c < |data[r]|
      && ((data[r][c].Num? && data[r][c].value != 0.0) || data[r][c] == Bool(true)))
    ensures ParseExcel(data).Failure? ==> ParseExcel(data).error == TrimError
    ensures ParseExcel(data).Success? ==> ParseExcel(data).value == ExcelGrid(data)
  {
    if SheetThrows(data) {
      var r, c :| 3 <= r < |data| && 0 <= c < |data[r]| && Throws(data[r][c]);
      var _ := CellString(data[r][c]);
    }
    if exists r, c :: (3 <= r < |data| && 0 <= c < |data[r]|
      && ((data[r][c].Num? && data[r][c].value != 0.0) || data[r][c] == Bool(true))) {
      var r, c :| (3 <= r < |data| && 0 <= c < |data[r]|
        && ((data[r][c].Num? && data[r][c].value != 0.0) || data[r][c] == Bool(true)));
      var _ := CellString(data[r][c]);
    }
  }

  /** A row writes exactly what its passing cells write. */
  lemma RowWritesFrom(headers: Row, row: Row, w: Write)
    ensures w in RowWrites(headers, row) <==> exists c :: 0 <= c < |row| && CellAt(headers, row, c) == Some(w)
  {
    var f := (c: nat) => CellAt(headers, row, c);
    assert forall c :: f(c) == CellAt(headers, row, c);
  }

  /** Only cells of rows 3 onwards that pass every check write, and each such cell writes. */
  lemma ExcelWritesFrom(data: seq<Row>, w: Write)
    ensures w in ExcelWrites(data) <==> exists r, c :: (3 <= r < |data| && 0 <= c < |data[r]|
      && CellAt(Headers(data), data[r], c) == Some(w))
  {
    var f := (r: nat) => RowAt(data, r);
    assert forall r :: f(r) == RowAt(data, r);
    if w in ExcelWrites(data) {
      var r :| 3 <= r < |data| && w in RowAt(data, r);
      RowWritesFrom(Headers(data), data[r], w);
      var c :| 0 <= c < |data[r]| && CellAt(Headers(data), data[r], c) == Some(w);
      assert 3 <= r < |data| && 0 <= c < |data[r]| && CellAt(Headers(data), data[r], c) == Some(w);
    }
    if exists r, c :: (3 <= r < |data| && 0 <= c < |data[r]|
      && CellAt(Headers(data), data[r], c) == Some(w)) {
      var r, c :| 3 <= r < |data| && 0 <= c < |data[r]| && CellAt(Headers(data), data[r], c) == Some(w);
      RowWritesFrom(Headers(data), data[r], w);
      assert w in f(r);
    }
  }

  /** Parsing keeps exactly the seven day keys, in order, and yields a well-formed grid. */
  lemma ExcelGridDays(data: seq<Row>)
    ensures Keys(ExcelGrid(data)) == Days
    ensures WellFormed(ExcelGrid(data))
  {
    var ws := ExcelWrites(data);
    EmptyTimetableShape();
    EmptyTimetableCells();
    forall i | 0 <= i < |ws| ensures ws[i].day in Days {
      assert ws[i] in ws;
      ExcelWritesFrom(data, ws[i]);
      var r, c :| 3 <= r < |data| && 0 <= c < |data[r]| && CellAt(Headers(data), data[r], c) == Some(ws[i]);
      CellWriteDay(HeaderAt(Headers(data), c), data[r][c]);
    }
    ApplyWritesKeys(EmptyTimetable(), ws);
  }

  /** Each cell of the result holds the last write to it, or "No class" for a canonical slot
      nothing wrote; a later row overwrites an earlier one. */
  lemma ExcelGridCell(data: seq<Row>, d: string, s: string)
    ensures CellOf(ExcelGrid(data), d, s) ==
      if LastWrite(ExcelWrites(data), d, s).Some? then LastWrite(ExcelWrites(data), d, s)
      else if d in Days && s in SlotOrder then Some(NoClass)
      else None
  {
    ApplyWritesCell(EmptyTimetable(), ExcelWrites(data), d, s);
    EmptyTimetableCells();
  }

  /** A cell "HH:MM - HH:MM\nsubject" under a day column writes the normalised range with the
      subject's occupant: the time line is read back exactly as the spreadsheet wrote it. */
  lemma CellWriteRange(d: string, t: TimeRange, line: string)
    requires d in Days && TwoDigitFields(t)
    requires |line| > 0 && !IsSpace(line[0]) && !IsSpace(line[|line| - 1])
    requires '\n' !in line
    ensures CellWrite(Str(d), Str(RangeText(t) + "\n" + line)) == Some(Write(d, FormatSlot(t), Occupant(line)))
  {
    var text := RangeText(t) + "\n" + line;
    RangeCellText(t, line);
    NormalizeRangeText(t);
    assert CellWrite(Str(d), Str(text)) == LinesWrite(d, [RangeText(t), line]);
  }

  /** The cell text is already trimmed and splits into the time line and the subject line. */
  lemma RangeCellText(t: TimeRange, line: string)
    requires TwoDigitFields(t)
    requires |line| > 0 && !IsSpace(line[0]) && !IsSpace(line[|line| - 1])
    requires '\n' !in line
    ensures var text := RangeText(t) + "\n" + line;
      Trim(text) == text && Lines(text) == [RangeText(t), line]
  {
    var head := RangeText(t);
    var text := head + "\n" + line;
    RangeTextShape(t);
    assert text[0] == head[0] && text[|text| - 1] == line[|line| - 1];
    SplitOnFirst(head, "\n", line);
    SplitOnNone(line, "\n");
    assert Split(text, '\n') == [head, line];
  }

  /** A subject line that starts with a course code, such as "PSY291 Lecture", yields that code. */
  lemma OccupantLeadingCode(line: string)
    requires CodeAt(line, 0)
    ensures Occupant(line) == line[..6]
  {
    var f := (i: nat) => CodeMatch(line, i);
    assert f(0) == Some(line[..6]);
    assert FirstFrom(f, 0, |line|) == f(0);
  }

  /** A whole-hour cell "h:00 - (h+1):00\nsubject" from 09:00 to 18:00 fills the matching
      canonical slot of its day. */
  lemma CanonicalCell(d: string, h: nat, line: string)
    requires d in Days && 9 <= h <= 17
    requires |line| > 0 && !IsSpace(line[0]) && !IsSpace(line[|line| - 1])
    requires '\n' !in line
    ensures CellWrite(Str(d), Str(RangeText(TimeRange(h, 0, h + 1, 0)) + "\n" + line))
      == Some(Write(d, SlotOrder[h - 9], Occupant(line)))
  {
    CellWriteRange(d, TimeRange(h, 0, h + 1, 0), line);
    CanonicalSlots(h);
  }

  /** A range with a non-zero start minute, such as "09:30 - 10:30", normalises to a label outside
      the canonical slots, which therefore becomes a new slot key of its day. */
  lemma OffHourLabel(t: TimeRange)
    requires TwoDigitFields(t) && t.startMinute != 0
    ensures NormalizeTimeSlot(RangeText(t)).Some?
    ensures NormalizeTimeSlot(RangeText(t)).value !in SlotOrder
  {
    NormalizeRangeText(t);
    MinuteColon(t);
    CanonicalDash();
  }
}

=== FILE: friends.dfy ===
/**
 The availability logic of the friends panel (frontend/src/components/Friends.jsx): reading
 slot labels as hours, rendering hours, the first and last class of a day, the free blocks
 of a day, and the status, dot and ordering given to each friend. The current weekday name
 and hour are parameters instead of readings of the clock.
 */
module Friends {
  import opened JsCore
  import opened Assoc
  import opened Calendar
  import opened Sorting
  import opened SlotLabel

  // ---------------------------------------------------------------------------
  // Hours of a slot label
  // ---------------------------------------------------------------------------

  /** `const [range, meridian] = slot.split(" ")`: the part before the first space. */
  function Range(slot: string): string {
    Split(slot, ' ')[0]
  }

  /** The part after the first space, undefined when there is none. */
  function Meridian(slot: string): Option<string> {
    var parts := Split(slot, ' ');
    if |parts| > 1 then Some(parts[1]) else None
  }

  /** The two conversions `parseHour`, `formatHour` and `formatHourEnd` share: PM adds 12
      unless the hour is 12, then 12 AM becomes 0. `NaN` stays `NaN`. */
  function ToDayHour(hour: Option<int>, meridian: Option<string>): (r: Option<int>)
    ensures r.Some? <==> hour.Some?
  {
    match hour
    case None => None
    case Some(h) =>
      var h1 := if meridian == Some("PM") && h != 12 then h + 12 else h;
      Some(if meridian == Some("AM") && h1 == 12 then 0 else h1)
  }

  /** `parseHour(slot)`: the start of the range, on the 24-hour clock. */
  function ParseHour(slot: string): Option<int> {
    ToDayHour(ParseInt(Split(Range(slot), '-')[0]), Meridian(slot))
  }

  /** `parseInt(range.split("-")[1])`: `NaN` when the range has no '-'. */
  function EndHour(slot: string): Option<int> {
    var parts := Split(Range(slot), '-');
    if |parts| > 1 then ParseInt(parts[1]) else None
  }

  /** `${((hour + 11) % 12) + 1} ${hour >= 12 ? "PM" : "AM"}`; `NaN` prints as "NaN" and is not
      `>= 12`. */
  function Display(hour: Option<int>): string {
    match hour
    case None => "NaN AM"
    case Some(h) => IntToString(JsRem(h + 11, 12) + 1) + " " + (if h >= 12 then "PM" else "AM")
  }

  /** `formatHour(slot)`: the start of the slot. */
  function FormatHour(slot: string): string {
    Display(ParseHour(slot))
  }

  /** `formatHourEnd(slot)` as written: the end hour is read with the slot's own meridian. */
  function FormatHourEnd(slot: string): string {
    Display(ToDayHour(EndHour(slot), Meridian(slot)))
  }

  /** `formatHourEnd` as evidently intended: the end of a slot is the first matching clock hour
      after its start, so an end that reads as earlier than the start lies 12 hours later. */
  function FormatHourEndFixed(slot: string): string {
    var start := ParseHour(slot);
    var end := ToDayHour(EndHour(slot), Meridian(slot));
    if start.Some? && end.Some? && end.value <= start.value then Display(Some(end.value + 12))
    else Display(end)
  }

  /** The 12-hour clock face: 1 to 12, congruent to the hour modulo 12, PM from noon on. */
  lemma DisplayClock(h: nat)
    ensures exists c :: (1 <= c <= 12 && c % 12 == h % 12
      && Display(Some(h)) == IntToString(c) + " " + (if h >= 12 then "PM" else "AM"))
  {
    var c := (h + 11) % 12 + 1;
    ClockNumber(h, c);
    DisplayNumber(h, c);
  }

  lemma ClockNumber(h: nat, c: int)
    requires c == (h + 11) % 12 + 1
    ensures 1 <= c <= 12 && c % 12 == h % 12
  {
  }

  lemma DisplayNumber(h: nat, c: int)
    requires c == (h + 11) % 12 + 1
    ensures Display(Some(h)) == IntToString(c) + " " + (if h >= 12 then "PM" else "AM")
  {
    assert JsRem(h + 11, 12) + 1 == c;
  }

  /** A well-formed label reads as its start hour under the 12-hour rule. */
  lemma ParseHourLabel(s: string)
    requires IsSlotLabel(s)
    ensures ParseHour(s) == Some(To24(StartOf(s), IsPm(s)))
    ensures ToDayHour(EndHour(s), Meridian(s)) == Some(To24(EndOf(s), IsPm(s)))
  {
    LabelParts(s);
    MeridianRule(StartOf(s), IsPm(s));
    MeridianRule(EndOf(s), IsPm(s));
  }

  lemma LabelParts(s: string)
    requires IsSlotLabel(s)
    ensures Meridian(s) == Some(if IsPm(s) then "PM" else "AM")
    ensures ParseInt(Split(Range(s), '-')[0]) == Some(StartOf(s))
    ensures EndHour(s) == Some(EndOf(s))
  {
    LabelPieces(s);
    LabelHours(s);
    assert Range(s) == s[..5];
  }

  lemma MeridianRule(h: int, pm: bool)
    ensures ToDayHour(Some(h), Some(if pm then "PM" else "AM")) == Some(To24(h, pm))
  {
  }

  /** The nine `SLOT_ORDER` labels read as 9 to 17, strictly increasing. */
  lemma ParseHourCanonical(i: nat)
    requires i < |SlotOrder|
    ensures ParseHour(SlotOrder[i]) == Some(9 + i)
  {
    CanonicalLabel(i);
    ParseHourLabel(SlotOrder[i]);
  }

  /** The am/pm suffix of a rendered hour. */
  lemma DisplaySuffix(h: nat)
    ensures EndsWith(Display(Some(h)), "PM") <==> h >= 12
  {
    var d := Display(Some(h));
    var face := IntToString(JsRem(h + 11, 12) + 1);
    assert d == face + " " + (if h >= 12 then "PM" else "AM");
    assert d[|d| - 2..] == if h >= 12 then "PM" else "AM";
  }

  /** As written, the end of `SlotOrder[2]`, "11-12 AM", renders as "12 AM" (midnight) although the slot ends
      at noon: the label's AM is applied to the end hour 12. */
  lemma EndOfElevenSlot()
    ensures ParseHour(SlotOrder[2]) == Some(11)
    ensures FormatHourEnd(SlotOrder[2]) == Display(Some(0))
    ensures !EndsWith(FormatHourEnd(SlotOrder[2]), "PM")
  {
    CanonicalLabel(2);
    ParseHourLabel(SlotOrder[2]);
    DisplaySuffix(0);
  }

  /** The corrected rendering gives every canonical slot the hour after its start, so it ends
      in PM from "11-12 AM" on. */
  lemma FormatHourEndFixedCanonical(i: nat)
    requires i < |SlotOrder|
    ensures FormatHourEndFixed(SlotOrder[i]) == Display(Some(10 + i))
    ensures EndsWith(FormatHourEndFixed(SlotOrder[i]), "PM") <==> i >= 2
  {
    CanonicalLabel(i);
    ParseHourLabel(SlotOrder[i]);
    FixedEnd(SlotOrder[i], 9 + i, if i == 2 then 0 else 10 + i);
    DisplaySuffix(10 + i);
  }

  lemma FixedEnd(s: string, start: int, end: int)
    requires ParseHour(s) == Some(start)
    requires ToDayHour(EndHour(s), Meridian(s)) == Some(end)
    ensures FormatHourEndFixed(s) == Display(Some(if end <= start then end + 12 else end))
  {
  }

  /** As written, every canonical slot but "11-12 AM" already ends an hour after its start. */
  lemma FormatHourEndCanonical(i: nat)
    requires i < |SlotOrder| && i != 2
    ensures FormatHourEnd(SlotOrder[i]) == Display(Some(10 + i))
  {
    CanonicalLabel(i);
    ParseHourLabel(SlotOrder[i]);
  }

  // ---------------------------------------------------------------------------
  // First and last class, free blocks
  // ---------------------------------------------------------------------------

  /** The test `daySlots[slot] !== "No class"` as a function of the slot. */
  function HoldsClass(day: Cells): string -> bool {
    (s: string) => HasClass(day, s)
  }

  /** The first and last of `slots` holding a class, `None` when none does. */
  function FirstAndLastIn(slots: seq<string>, day: Cells): Option<(string, string)> {
    var classSlots := Filter(slots, HoldsClass(day));
    if |classSlots| == 0 then None else Some((classSlots[0], classSlots[|classSlots| - 1]))
  }

  /** `getFirstAndLastClass(daySlots)`, with `{first: null, last: null}` as `None`. */
  function FirstAndLastClass(day: Cells): Option<(string, string)> {
    FirstAndLastIn(SlotOrder, day)
  }

  /** Both are null exactly when no listed slot holds a class; otherwise they are the
      earliest and the latest listed slot holding one. */
  lemma FirstAndLastSpec(slots: seq<string>, day: Cells)
    ensures FirstAndLastIn(slots, day).None? <==> forall i :: 0 <= i < |slots| ==> !HasClass(day, slots[i])
    ensures FirstAndLastIn(slots, day).Some? ==> exists i {:trigger FirstPassingAt(slots, HoldsClass(day), i)} ::
      FirstPassingAt(slots, HoldsClass(day), i) && FirstAndLastIn(slots, day).value.0 == slots[i]
    ensures FirstAndLastIn(slots, day).Some? ==> exists k {:trigger LastPassingAt(slots, HoldsClass(day), k)} ::
      LastPassingAt(slots, HoldsClass(day), k) && FirstAndLastIn(slots, day).value.1 == slots[k]
  {
    FilterEnds(slots, HoldsClass(day));
  }

  /** `timetable?.[today] || {}`. */
  function TodayCells(timetable: Option<Grid>, today: string): Cells {
    if timetable.Some? then Get(timetable.value, today).GetOr([]) else []
  }

  function IsFreeEntry(e: (string, string)): bool {
    e.1 == NoClass
  }

  /** The slots of a day marked "No class", in the day's key order. */
  function FreeSlots(day: Cells): (r: seq<string>)
    ensures forall s :: s in r <==> (s, NoClass) in day
  {
    var free := Filter(day, IsFreeEntry);
    var r := Keys(free);
    assert forall s :: s in r <==> (s, NoClass) in free by {
      forall s ensures s in r <==> (s, NoClass) in free {
        if s in r {
          var i :| 0 <= i < |free| && r[i] == s;
          assert free[i] == (s, NoClass);
        }
        if (s, NoClass) in free {
          var i :| 0 <= i < |free| && free[i] == (s, NoClass);
          assert r[i] == s;
        }
      }
    }
    r
  }

  /** Every slot of `xs` reads as an hour (not `NaN`), so sorting by hour is well defined. */
  predicate HoursKnown(xs: seq<string>) {
    forall i :: 0 <= i < |xs| ==> ParseHour(xs[i]).Some?
  }

  /** The hour of a slot whose hour is known. */
  function Hour(s: string): int {
    ParseHour(s).GetOr(0)
  }

  function HourKey(s: string): Key {
    Key(Hour(s), 0)
  }

  /** The free slots of today, when today's entry exists, read as hours. */
  predicate FreeHoursKnown(timetable: Option<Grid>, today: string) {
    HoursKnown(FreeSlots(TodayCells(timetable, today)))
  }

  /** Split a sequence into maximal runs of consecutive hours: a new run starts wherever an
      element's hour is not one more than the previous one's. */
  function Runs<T>(xs: seq<T>, h: T -> int): (r: seq<seq<T>>)
    ensures |r| == 0 <==> |xs| == 0
    ensures |xs| > 0 ==> |r[0]| > 0 && r[0][0] == xs[0]
    decreases |xs|
  {
    if |xs| == 0 then []
    else
      var rest := Runs(xs[1..], h);
      if |rest| > 0 && h(xs[1]) == h(xs[0]) + 1 then [[xs[0]] + rest[0]] + rest[1..]
      else [[xs[0]]] + rest
  }

  /** `getFreeBlocks(timetable)`: today's free slots sorted by hour, grouped into runs. */
  function FreeBlocks(timetable: Option<Grid>, today: string): seq<seq<string>> {
    if timetable.None? || Get(timetable.value, today).None? then []
    else Runs(SortBy(FreeSlots(TodayCells(timetable, today)), HourKey), Hour)
  }

  /** The runs put back together are the sequence. */
  lemma {:induction false} RunsFlatten<T>(xs: seq<T>, h: T -> int)
    ensures Flatten(Runs(xs, h)) == xs
    decreases |xs|
  {
    if |xs| > 0 {
      var rest := Runs(xs[1..], h);
      RunsFlatten(xs[1..], h);
      if |rest| > 0 && h(xs[1]) == h(xs[0]) + 1 {
        assert Flatten(rest) == rest[0] + Flatten(rest[1..]);
        SeqAssoc([xs[0]], rest[0], Flatten(rest[1..]));
        assert ([[xs[0]] + rest[0]] + rest[1..])[1..] == rest[1..];
      } else {
        assert ([[xs[0]]] + rest)[1..] == rest;
      }
      HeadTail(xs);
    }
  }

  /** Each element of `b` is one hour after the one before it. */
  predicate Climbs<T>(b: seq<T>, h: T -> int) {
    forall j :: 0 < j < |b| ==> h(b[j]) == h(b[j - 1]) + 1
  }

  /** The first element of `b` is not one hour after the last element of `a`. */
  predicate Apart<T>(a: seq<T>, b: seq<T>, h: T -> int) {
    |a| > 0 && |b| > 0 && h(b[0]) != h(a[|a| - 1]) + 1
  }

  lemma ClimbsCons<T>(x: T, b: seq<T>, h: T -> int)
    requires Climbs(b, h) && |b| > 0 && h(b[0]) == h(x) + 1
    ensures Climbs([x] + b, h)
  {
    var c := [x] + b;
    forall j | 0 < j < |c| ensures h(c[j]) == h(c[j - 1]) + 1 {
      assert c[j] == b[j - 1];
      if j > 1 { assert c[j - 1] == b[j - 2]; }
    }
  }

  /** Every run is non-empty and climbs one hour at a time. */
  lemma {:induction false} RunsInside<T>(xs: seq<T>, h: T -> int)
    ensures forall k :: 0 <= k < |Runs(xs, h)| ==> |Runs(xs, h)[k]| > 0 && Climbs(Runs(xs, h)[k], h)
    decreases |xs|
  {
    if |xs| > 0 {
      var rest := Runs(xs[1..], h);
      var r := Runs(xs, h);
      RunsInside(xs[1..], h);
      if |rest| > 0 && h(xs[1]) == h(xs[0]) + 1 {
        assert r == [[xs[0]] + rest[0]] + rest[1..];
        assert rest[0][0] == xs[1..][0] == xs[1];
        ClimbsCons(xs[0], rest[0], h);
        forall k | 0 <= k < |r| ensures |r[k]| > 0 && Climbs(r[k], h) {
          if k > 0 { assert r[k] == rest[k]; }
        }
      } else {
        assert r == [[xs[0]]] + rest;
        forall k | 0 <= k < |r| ensures |r[k]| > 0 && Climbs(r[k], h) {
          if k > 0 { assert r[k] == rest[k - 1]; }
        }
      }
    }
  }

  /** Two neighbouring runs are not consecutive: the later one starts at an hour other than
      one past the end of the earlier one. */
  lemma {:induction false} RunsBetween<T>(xs: seq<T>, h: T -> int)
    ensures forall i, j :: 0 <= i && j == i + 1 && j < |Runs(xs, h)| ==> Apart(Runs(xs, h)[i], Runs(xs, h)[j], h)
    decreases |xs|
  {
    if |xs| > 0 {
      var rest := Runs(xs[1..], h);
      var r := Runs(xs, h);
      RunsBetween(xs[1..], h);
      RunsInside(xs[1..], h);
      if |rest| > 0 && h(xs[1]) == h(xs[0]) + 1 {
        assert r == [[xs[0]] + rest[0]] + rest[1..];
        forall i, j | 0 <= i && j == i + 1 && j < |r| ensures Apart(r[i], r[j], h) {
          assert r[j] == rest[j];
          if i > 0 {
            assert r[i] == rest[i];
          } else {
            assert |rest[0]| > 0;
            assert r[0][|r[0]| - 1] == rest[0][|rest[0]| - 1];
            assert Apart(rest[0], rest[1], h);
          }
        }
      } else {
        assert r == [[xs[0]]] + rest;
        forall i, j | 0 <= i && j == i + 1 && j < |r| ensures Apart(r[i], r[j], h) {
          assert r[j] == rest[j - 1];
          if i > 0 {
            assert r[i] == rest[i - 1];
          } else {
            assert rest[0][0] == xs[1..][0] == xs[1];
          }
        }
      }
    }
  }

  /** No blocks when today has no entry. Otherwise the blocks, joined, are today's free slots
      sorted by hour. */
  lemma FreeBlocksSpec(timetable: Option<Grid>, today: string)
    requires FreeHoursKnown(timetable, today)
    ensures timetable.None? || Get(timetable.value, today).None? ==> FreeBlocks(timetable, today) == []
    ensures SortedBy(Flatten(FreeBlocks(timetable, today)), HourKey)
    ensures forall s :: s in Flatten(FreeBlocks(timetable, today)) <==> (s, NoClass) in TodayCells(timetable, today)
    ensures timetable.Some? && Get(timetable.value, today).Some? ==>
      forall k :: (Filter(Flatten(FreeBlocks(timetable, today)), HasKey(HourKey, k))
        == Filter(FreeSlots(TodayCells(timetable, today)), HasKey(HourKey, k)))
  {
    if timetable.Some? && Get(timetable.value, today).Some? {
      var sorted := SortBy(FreeSlots(TodayCells(timetable, today)), HourKey);
      RunsFlatten(sorted, Hour);
      forall s ensures s in sorted <==> s in FreeSlots(TodayCells(timetable, today)) {
        assert s in sorted <==> s in multiset(sorted);
      }
    }
  }

  /** Each free block is non-empty and climbs one hour at a time, and no block continues the
      hour where the block before it stops. */
  lemma FreeBlocksRuns(timetable: Option<Grid>, today: string)
    requires FreeHoursKnown(timetable, today)
    ensures forall k :: 0 <= k < |FreeBlocks(timetable, today)| ==>
      |FreeBlocks(timetable, today)[k]| > 0 && Climbs(FreeBlocks(timetable, today)[k], Hour)
    ensures forall i, j :: 0 <= i && j == i + 1 && j < |FreeBlocks(timetable, today)| ==>
      Apart(FreeBlocks(timetable, today)[i], FreeBlocks(timetable, today)[j], Hour)
  {
    if timetable.Some? && Get(timetable.value, today).Some? {
      var sorted := SortBy(FreeSlots(TodayCells(timetable, today)), HourKey);
      RunsInside(sorted, Hour);
      RunsBetween(sorted, Hour);
    }
  }

  // ---------------------------------------------------------------------------
  // Status of a friend
  // ---------------------------------------------------------------------------

  datatype Dot = Green | Yellow

  /** What the panel shows for a friend: the status text, the dot colour, the sort priority
      and, for a friend who is free later today, the slot where that begins. */
  datatype Status = Status(text: string, dot: Dot, priority: nat, upcomingStart: Option<string>)

  /** `a < b` where `b` may be `NaN`. */
  predicate HourBefore(a: int, b: Option<int>) {
    b.Some? && a < b.value
  }

  /** `a >= b + 1` where `b` may be `NaN`. */
  predicate HourReached(a: int, b: Option<int>) {
    b.Some? && a >= b.value + 1
  }

  /** `block.some(slot => parseHour(slot) === now)`. */
  predicate HoldsHour(hour: string -> Option<int>, block: seq<string>, now: int) {
    |block| > 0 && (hour(block[0]) == Some(now) || HoldsHour(hour, block[1..], now))
  }

  /** Some slot of the block starts at hour `now`. */
  lemma {:induction false} HoldsHourAt(hour: string -> Option<int>, block: seq<string>, now: int)
    ensures HoldsHour(hour, block, now) <==> exists j :: 0 <= j < |block| && hour(block[j]) == Some(now)
  {
    if |block| > 0 {
      HoldsHourAt(hour, block[1..], now);
      if exists j :: 0 <= j < |block| && hour(block[j]) == Some(now) {
        var j :| 0 <= j < |block| && hour(block[j]) == Some(now);
        if j > 0 { assert block[1..][j - 1] == block[j]; }
      }
      if HoldsHour(hour, block[1..], now) {
        var j :| 0 <= j < |block[1..]| && hour(block[1..][j]) == Some(now);
        assert block[j + 1] == block[1..][j];
      }
    }
  }


  /** `freeBlocks.find(block => block.some(slot => parseHour(slot) === nowHour))`, searching
      from position `k` on. */
  function CurrentBlock(hour: string -> Option<int>, blocks: seq<seq<string>>, now: int, k: nat := 0): (r: Option<seq<string>>)
    ensures r.None? <==> forall j :: k <= j < |blocks| ==> !HoldsHour(hour, blocks[j], now)
    ensures r.Some? ==> exists j :: k <= j < |blocks| && r.value == blocks[j] && HoldsHour(hour, blocks[j], now)
    ensures r.Some? ==> |r.value| > 0
    decreases |blocks| - k
  {
    if k >= |blocks| then None
    else if HoldsHour(hour, blocks[k], now) then Some(blocks[k])
    else CurrentBlock(hour, blocks, now, k + 1)
  }

  /** A block that starts after `now`. */
  predicate StartsAfter(hour: string -> Option<int>, block: seq<string>, now: int) {
    |block| > 0 && HourBefore(now, hour(block[0]))
  }

  /** `freeBlocks.find(block => parseHour(block[0]) > nowHour)`, searching from position `k`
      on. */
  function UpcomingBlock(hour: string -> Option<int>, blocks: seq<seq<string>>, now: int, k: nat := 0): (r: Option<seq<string>>)
    ensures r.None? <==> forall j :: k <= j < |blocks| ==> !StartsAfter(hour, blocks[j], now)
    ensures r.Some? ==> exists j :: k <= j < |blocks| && r.value == blocks[j] && StartsAfter(hour, blocks[j], now)
    decreases |blocks| - k
  {
    if k >= |blocks| then None
    else if StartsAfter(hour, blocks[k], now) then Some(blocks[k])
    else UpcomingBlock(hour, blocks, now, k + 1)
  }

  /** The text of a current free block: its first hour to the end of its last slot, the end
      rendered by `formatHourEnd` as written. */
  function FreeRangeText(b: seq<string>): string
    requires |b| > 0
  {
    "Free " + FormatHour(b[0]) + " to " + FormatHourEnd(b[|b| - 1])
  }

  /** The same text with the corrected end-hour rendering. */
  function FreeRangeTextFixed(b: seq<string>): string
    requires |b| > 0
  {
    "Free " + FormatHour(b[0]) + " to " + FormatHourEndFixed(b[|b| - 1])
  }

  /** For a block whose last slot is a canonical label, the text as written and the corrected
      text differ exactly when that slot is "11-12 AM". */
  lemma FreeRangeTextDiffers(b: seq<string>, i: nat)
    requires |b| > 0 && i < |SlotOrder| && b[|b| - 1] == SlotOrder[i]
    ensures FreeRangeText(b) == FreeRangeTextFixed(b) <==> i != 2
  {
    FormatHourEndFixedCanonical(i);
    if i != 2 {
      FormatHourEndCanonical(i);
    } else {
      EndOfElevenSlot();
      var pre := "Free " + FormatHour(b[0]) + " to ";
      var asWritten := FormatHourEnd(b[|b| - 1]);
      var fixed := FormatHourEndFixed(b[|b| - 1]);
      assert asWritten != fixed;
      assert (pre + asWritten)[|pre|..] == asWritten;
      assert (pre + fixed)[|pre|..] == fixed;
    }
  }

  /** Beyond the canonical slots: a block ending in any well-formed AM label whose end field
      is 12 (such as "10-12 AM") ends "12 AM" as written but in the afternoon once corrected,
      so the two texts differ. */
  lemma AmNoonEndDiffers(b: seq<string>)
    requires |b| > 0 && IsSlotLabel(b[|b| - 1]) && !IsPm(b[|b| - 1]) && EndOf(b[|b| - 1]) == 12
    ensures FormatHourEnd(b[|b| - 1]) == Display(Some(0))
    ensures EndsWith(FormatHourEndFixed(b[|b| - 1]), "PM")
    ensures FreeRangeText(b) != FreeRangeTextFixed(b)
  {
    var last := b[|b| - 1];
    AmNoonEnd(last);
    var pre := "Free " + FormatHour(b[0]) + " to ";
    var asWritten, fixed := FormatHourEnd(last), FormatHourEndFixed(last);
    assert asWritten != fixed;
    assert (pre + asWritten)[|pre|..] == asWritten;
    assert (pre + fixed)[|pre|..] == fixed;
  }

  /** An AM label ending at 12 ends at hour 0 as written, and in the afternoon once
      corrected. */
  lemma AmNoonEnd(s: string)
    requires IsSlotLabel(s) && !IsPm(s) && EndOf(s) == 12
    ensures FormatHourEnd(s) == Display(Some(0))
    ensures !EndsWith(FormatHourEnd(s), "PM")
    ensures EndsWith(FormatHourEndFixed(s), "PM")
  {
    ParseHourLabel(s);
    var start, end := To24(StartOf(s), IsPm(s)), To24(EndOf(s), IsPm(s));
    assert end == 0 <= start;
    FixedEnd(s, start, end);
    DisplaySuffix(0);
    DisplaySuffix(end + 12);
  }

  /** The text of a free block that starts later. */
  function FreeAtText(start: string): string {
    "Free at " + FormatHour(start)
  }

  /** The last two rules of the decision: free now, free later, or busy. */
  function DecideFree(hour: string -> Option<int>, blocks: seq<seq<string>>, now: int): (r: Option<Status>)
    ensures r.Some? ==> r.value.priority == 0 || r.value.priority == 4
    ensures r.Some? ==> (r.value.dot == Yellow <==> r.value.priority == 4)
    ensures r.Some? ==> (r.value.upcomingStart.Some? <==> r.value.priority == 4)
    ensures r.Some? && r.value.upcomingStart.Some? ==> HourBefore(now, hour(r.value.upcomingStart.value))
  {
    match CurrentBlock(hour, blocks, now)
    case Some(b) =>
      Some(Status(FreeRangeText(b), Green, 0, None))
    case None =>
      match UpcomingBlock(hour, blocks, now)
      case Some(b) => Some(Status(FreeAtText(b[0]), Yellow, 4, Some(b[0])))
      case None => None
  }

  /** The rules of `DecideFree`, first match wins. */
  lemma DecideFreeRules(hour: string -> Option<int>, blocks: seq<seq<string>>, now: int)
    ensures CurrentBlock(hour, blocks, now).Some? ==>
      DecideFree(hour, blocks, now) == Some(Status(FreeRangeText(CurrentBlock(hour, blocks, now).value), Green, 0, None))
    ensures CurrentBlock(hour, blocks, now).None? && UpcomingBlock(hour, blocks, now).Some? ==>
      DecideFree(hour, blocks, now) == Some(Status(FreeAtText(UpcomingBlock(hour, blocks, now).value[0]), Yellow, 4, Some(UpcomingBlock(hour, blocks, now).value[0])))
    ensures CurrentBlock(hour, blocks, now).None? && UpcomingBlock(hour, blocks, now).None? ==> DecideFree(hour, blocks, now).None?
  {
  }

  /** The decision the `friendData.map` callback of the panel's effect makes, given the first
      and last class of the day and its free blocks; `None` is the `null` of a friend busy for
      the rest of the day. */
  function Decide(hour: string -> Option<int>, classes: Option<(string, string)>, blocks: seq<seq<string>>, now: int): (r: Option<Status>)
    ensures r.Some? ==> r.value.priority <= 4
    ensures r.Some? ==> (r.value.dot == Yellow <==> r.value.priority == 4)
    ensures r.Some? ==> (r.value.upcomingStart.Some? <==> r.value.priority == 4)
    ensures r.Some? && r.value.upcomingStart.Some? ==> HourBefore(now, hour(r.value.upcomingStart.value))
  {
    match classes
    case None => Some(Status("Free all day", Green, 3, None))
    case Some((first, last)) =>
      if HourBefore(now, hour(first)) then
        Some(Status("Chilling before " + FormatHour(first), Green, 2, None))
      else if HourReached(now, hour(last)) then
        Some(Status("Free now (classes over)", Green, 1, None))
      else DecideFree(hour, blocks, now)
  }

  /** The status of one friend at hour `now` of the weekday `today`. */
  function Classify(timetable: Option<Grid>, today: string, now: int): (r: Option<Status>)
    ensures r.Some? ==> r.value.priority <= 4
    ensures r.Some? ==> (r.value.dot == Yellow <==> r.value.priority == 4)
    ensures r.Some? ==> (r.value.upcomingStart.Some? <==> r.value.priority == 4)
  {
    Decide(ParseHour, FirstAndLastClass(TodayCells(timetable, today)), FreeBlocks(timetable, today), now)
  }

  // ---------------------------------------------------------------------------
  // What each status means
  // ---------------------------------------------------------------------------

  /** No canonical slot of the day holds a class. */
  predicate NoClasses(day: Cells) {
    forall i :: 0 <= i < |SlotOrder| ==> !HasClass(day, SlotOrder[i])
  }

  /** Every class of the day starts after hour `now`. */
  predicate ClassesAhead(day: Cells, now: int) {
    forall i :: 0 <= i < |SlotOrder| && HasClass(day, SlotOrder[i]) ==> now < 9 + i
  }

  /** Every class of the day has ended by hour `now`. */
  predicate ClassesOver(day: Cells, now: int) {
    forall i :: 0 <= i < |SlotOrder| && HasClass(day, SlotOrder[i]) ==> now >= 10 + i
  }

  /** Some slot of the day marked "No class" starts at hour `now`. */
  ghost predicate FreeAt(day: Cells, now: int) {
    exists s :: (s, NoClass) in day && ParseHour(s) == Some(now)
  }

  /** Some slot of the day marked "No class" starts after hour `now`. */
  ghost predicate FreeAfter(day: Cells, now: int) {
    exists s :: (s, NoClass) in day && HourBefore(now, ParseHour(s))
  }

  /** The first and last class of a day that has one, read as hours, decide whether all of
      its classes lie ahead or are over. */
  lemma ClassHours(day: Cells, now: int)
    requires !NoClasses(day)
    ensures FirstAndLastClass(day).Some?
    ensures HourBefore(now, ParseHour(FirstAndLastClass(day).value.0)) <==> ClassesAhead(day, now)
    ensures HourReached(now, ParseHour(FirstAndLastClass(day).value.1)) <==> ClassesOver(day, now)
  {
    FirstAndLastSpec(SlotOrder, day);
    var fl := FirstAndLastClass(day).value;
    var lo :| FirstPassingAt(SlotOrder, HoldsClass(day), lo) && fl.0 == SlotOrder[lo];
    var hi :| LastPassingAt(SlotOrder, HoldsClass(day), hi) && fl.1 == SlotOrder[hi];
    ParseHourCanonical(lo);
    ParseHourCanonical(hi);
    FirstClassAhead(day, now, lo);
    LastClassOver(day, now, hi);
  }

  /** Classes all lie ahead exactly when the first one does. */
  lemma FirstClassAhead(day: Cells, now: int, lo: int)
    requires FirstPassingAt(SlotOrder, HoldsClass(day), lo)
    ensures now < 9 + lo <==> ClassesAhead(day, now)
  {
    assert HasClass(day, SlotOrder[lo]);
  }

  /** Classes are all over exactly when the last one is. */
  lemma LastClassOver(day: Cells, now: int, hi: int)
    requires LastPassingAt(SlotOrder, HoldsClass(day), hi)
    ensures now >= 10 + hi <==> ClassesOver(day, now)
  {
    assert HasClass(day, SlotOrder[hi]);
  }

  /** A free slot known to read as an hour. */
  lemma FreeSlotHour(timetable: Option<Grid>, today: string, s: string)
    requires FreeHoursKnown(timetable, today)
    requires (s, NoClass) in TodayCells(timetable, today)
    ensures ParseHour(s) == Some(Hour(s))
  {
    var free := FreeSlots(TodayCells(timetable, today));
    var i :| 0 <= i < |free| && free[i] == s;
  }

  /** A block that climbs an hour at a time and skips hour `n` lies wholly above `n` once any
      element of it does. */
  lemma {:induction false} NoGap(b: seq<string>, h: string -> int, n: int, j: nat)
    requires Climbs(b, h) && j < |b| && h(b[j]) > n
    requires forall m :: 0 <= m < |b| ==> h(b[m]) != n
    ensures h(b[0]) > n
  {
    if j > 0 {
      assert h(b[j]) == h(b[j - 1]) + 1;
      NoGap(b, h, n, j - 1);
    }
  }

  /** Some block holds a slot at hour `now` exactly when some slot of the blocks starts then. */
  lemma CurrentBlockFlat(hour: string -> Option<int>, blocks: seq<seq<string>>, now: int)
    ensures CurrentBlock(hour, blocks, now).Some? <==> exists s :: s in Flatten(blocks) && hour(s) == Some(now)
  {
    if CurrentBlock(hour, blocks, now).Some? {
      var k :| 0 <= k < |blocks| && HoldsHour(hour, blocks[k], now);
      HoldsHourAt(hour, blocks[k], now);
      var j :| 0 <= j < |blocks[k]| && hour(blocks[k][j]) == Some(now);
      FlattenMember(blocks, blocks[k][j]);
    }
    if exists s :: s in Flatten(blocks) && hour(s) == Some(now) {
      var s :| s in Flatten(blocks) && hour(s) == Some(now);
      FlattenMember(blocks, s);
      var k :| 0 <= k < |blocks| && s in blocks[k];
      var j :| 0 <= j < |blocks[k]| && blocks[k][j] == s;
      HoldsHourAt(hour, blocks[k], now);
    }
  }

  /** A free block holds hour `now` exactly when a free slot of the day starts then. */
  lemma CurrentBlockFree(timetable: Option<Grid>, today: string, now: int)
    requires FreeHoursKnown(timetable, today)
    ensures CurrentBlock(ParseHour, FreeBlocks(timetable, today), now).Some? <==> FreeAt(TodayCells(timetable, today), now)
  {
    FreeBlocksSpec(timetable, today);
    CurrentBlockFlat(ParseHour, FreeBlocks(timetable, today), now);
  }

  /** The block found to start after `now` starts with one of the slots. */
  lemma UpcomingToSlot(hour: string -> Option<int>, blocks: seq<seq<string>>, now: int)
    requires UpcomingBlock(hour, blocks, now).Some?
    ensures UpcomingBlock(hour, blocks, now).value[0] in Flatten(blocks)
    ensures HourBefore(now, hour(UpcomingBlock(hour, blocks, now).value[0]))
  {
    var k :| 0 <= k < |blocks| && UpcomingBlock(hour, blocks, now).value == blocks[k] && StartsAfter(hour, blocks[k], now);
    FlattenMember(blocks, blocks[k][0]);
  }

  /** When the blocks climb an hour at a time and no slot starts at hour `now`, a slot
      starting after `now` puts its whole block after `now`, so some block starts later. */
  lemma UpcomingFromSlot(hour: string -> Option<int>, blocks: seq<seq<string>>, now: int, s: string, h: string -> int)
    requires s in Flatten(blocks) && HourBefore(now, hour(s))
    requires forall k :: 0 <= k < |blocks| ==> |blocks[k]| > 0 && Climbs(blocks[k], h)
    requires forall x :: x in Flatten(blocks) ==> hour(x) == Some(h(x)) && h(x) != now
    ensures UpcomingBlock(hour, blocks, now).Some?
  {
    FlattenMember(blocks, s);
    var k :| 0 <= k < |blocks| && s in blocks[k];
    var b := blocks[k];
    var j :| 0 <= j < |b| && b[j] == s;
    forall m | 0 <= m < |b| ensures hour(b[m]) == Some(h(b[m])) && h(b[m]) != now {
      FlattenMember(blocks, b[m]);
    }
    NoGap(b, h, now, j);
    assert StartsAfter(hour, blocks[k], now);
  }

  /** With no free slot at hour `now`, a free block starts later exactly when a free slot of
      the day does, and the block found starts at a free slot. */
  lemma UpcomingBlockFree(timetable: Option<Grid>, today: string, now: int)
    requires FreeHoursKnown(timetable, today)
    requires !FreeAt(TodayCells(timetable, today), now)
    ensures UpcomingBlock(ParseHour, FreeBlocks(timetable, today), now).Some? <==> FreeAfter(TodayCells(timetable, today), now)
    ensures UpcomingBlock(ParseHour, FreeBlocks(timetable, today), now).Some? ==>
      (UpcomingBlock(ParseHour, FreeBlocks(timetable, today), now).value[0], NoClass) in TodayCells(timetable, today)
  {
    var blocks := FreeBlocks(timetable, today);
    var day := TodayCells(timetable, today);
    FreeBlocksSpec(timetable, today);
    if UpcomingBlock(ParseHour, blocks, now).Some? {
      UpcomingToSlot(ParseHour, blocks, now);
    }
    if FreeAfter(day, now) {
      var s :| (s, NoClass) in day && HourBefore(now, ParseHour(s));
      FreeBlocksRuns(timetable, today);
      forall x | x in Flatten(blocks) ensures ParseHour(x) == Some(Hour(x)) && Hour(x) != now {
        FreeSlotHour(timetable, today, x);
      }
      UpcomingFromSlot(ParseHour, blocks, now, s, Hour);
    }
  }

  /** No first and last class exactly when no canonical slot holds a class. */
  lemma NoClassesSpec(day: Cells)
    ensures FirstAndLastClass(day).None? <==> NoClasses(day)
  {
    FirstAndLastSpec(SlotOrder, day);
  }

  /** The rules of the decision, first match wins. */
  lemma DecideRules(hour: string -> Option<int>, classes: Option<(string, string)>, blocks: seq<seq<string>>, now: int)
    ensures classes.None? ==> Decide(hour, classes, blocks, now) == Some(Status("Free all day", Green, 3, None))
    ensures classes.Some? && HourBefore(now, hour(classes.value.0)) ==>
      Decide(hour, classes, blocks, now) == Some(Status("Chilling before " + FormatHour(classes.value.0), Green, 2, None))
    ensures classes.Some? && !HourBefore(now, hour(classes.value.0)) && HourReached(now, hour(classes.value.1)) ==>
      Decide(hour, classes, blocks, now) == Some(Status("Free now (classes over)", Green, 1, None))
    ensures classes.Some? && !HourBefore(now, hour(classes.value.0)) && !HourReached(now, hour(classes.value.1)) ==>
      Decide(hour, classes, blocks, now) == DecideFree(hour, blocks, now)
  {
  }

  /** Priority 3, "Free all day", exactly when no canonical slot of today holds a class. */
  lemma ClassifyFreeAllDay(timetable: Option<Grid>, today: string, now: int)
    ensures (Classify(timetable, today, now).Some? && Classify(timetable, today, now).value.priority == 3)
      <==> NoClasses(TodayCells(timetable, today))
    ensures NoClasses(TodayCells(timetable, today)) ==>
      Classify(timetable, today, now) == Some(Status("Free all day", Green, 3, None))
  {
    var day := TodayCells(timetable, today);
    var classes := FirstAndLastClass(day);
    var blocks := FreeBlocks(timetable, today);
    assert Classify(timetable, today, now) == Decide(ParseHour, classes, blocks, now);
    NoClassesSpec(day);
    DecideRules(ParseHour, classes, blocks, now);
    DecideFreeRules(ParseHour, blocks, now);
  }

  /** Priority 2 exactly when today has classes and all of them lie ahead. */
  lemma ClassifyBeforeClasses(timetable: Option<Grid>, today: string, now: int)
    ensures (Classify(timetable, today, now).Some? && Classify(timetable, today, now).value.priority == 2)
      <==> (!NoClasses(TodayCells(timetable, today)) && ClassesAhead(TodayCells(timetable, today), now))
  {
    var day := TodayCells(timetable, today);
    var classes := FirstAndLastClass(day);
    var blocks := FreeBlocks(timetable, today);
    assert Classify(timetable, today, now) == Decide(ParseHour, classes, blocks, now);
    NoClassesSpec(day);
    DecideRules(ParseHour, classes, blocks, now);
    DecideFreeRules(ParseHour, blocks, now);
    if !NoClasses(day) {
      ClassHours(day, now);
    }
  }

  /** A day with classes cannot have them all ahead and all over at once. */
  lemma OverNotAhead(day: Cells, now: int)
    requires !NoClasses(day)
    ensures !(ClassesAhead(day, now) && ClassesOver(day, now))
  {
    var i :| 0 <= i < |SlotOrder| && HasClass(day, SlotOrder[i]);
  }

  /** Priority 1 exactly when today has classes and all of them are over. */
  lemma ClassifyClassesOver(timetable: Option<Grid>, today: string, now: int)
    ensures (Classify(timetable, today, now).Some? && Classify(timetable, today, now).value.priority == 1)
      <==> (!NoClasses(TodayCells(timetable, today)) && ClassesOver(TodayCells(timetable, today), now))
  {
    var day := TodayCells(timetable, today);
    var classes := FirstAndLastClass(day);
    var blocks := FreeBlocks(timetable, today);
    assert Classify(timetable, today, now) == Decide(ParseHour, classes, blocks, now);
    NoClassesSpec(day);
    DecideRules(ParseHour, classes, blocks, now);
    DecideFreeRules(ParseHour, blocks, now);
    if !NoClasses(day) {
      ClassHours(day, now);
      OverNotAhead(day, now);
    }
  }

  /** Between the first class and the end of the last, a friend is shown as free (priority 0)
      exactly when a free slot starts at hour `now`, and the text names the free block holding
      it. */
  lemma ClassifyFreeNow(timetable: Option<Grid>, today: string, now: int)
    requires FreeHoursKnown(timetable, today)
    ensures (Classify(timetable, today, now).Some? && Classify(timetable, today, now).value.priority == 0)
      <==> (!NoClasses(TodayCells(timetable, today)) && !ClassesAhead(TodayCells(timetable, today), now)
        && !ClassesOver(TodayCells(timetable, today), now) && FreeAt(TodayCells(timetable, today), now))
    ensures Classify(timetable, today, now).Some? && Classify(timetable, today, now).value.priority == 0 ==>
      exists b :: b in FreeBlocks(timetable, today) && HoldsHour(ParseHour, b, now) && |b| > 0
        && Classify(timetable, today, now).value.text == FreeRangeText(b)
  {
    var day := TodayCells(timetable, today);
    var classes := FirstAndLastClass(day);
    var blocks := FreeBlocks(timetable, today);
    assert Classify(timetable, today, now) == Decide(ParseHour, classes, blocks, now);
    NoClassesSpec(day);
    DecideRules(ParseHour, classes, blocks, now);
    DecideFreeRules(ParseHour, blocks, now);
    CurrentBlockFree(timetable, today, now);
    if !NoClasses(day) {
      ClassHours(day, now);
    }
    if CurrentBlock(ParseHour, blocks, now).Some? {
      var k :| 0 <= k < |blocks| && CurrentBlock(ParseHour, blocks, now).value == blocks[k] && HoldsHour(ParseHour, blocks[k], now);
      assert CurrentBlock(ParseHour, blocks, now).value in blocks;
    }
  }

  /** A friend not free now but free later in the day gets the yellow priority 4, and the slot
      where that begins is a free slot after hour `now`. */
  lemma ClassifyFreeLater(timetable: Option<Grid>, today: string, now: int)
    requires FreeHoursKnown(timetable, today)
    ensures (Classify(timetable, today, now).Some? && Classify(timetable, today, now).value.priority == 4)
      <==> (!NoClasses(TodayCells(timetable, today)) && !ClassesAhead(TodayCells(timetable, today), now)
        && !ClassesOver(TodayCells(timetable, today), now) && !FreeAt(TodayCells(timetable, today), now)
        && FreeAfter(TodayCells(timetable, today), now))
    ensures Classify(timetable, today, now).Some? && Classify(timetable, today, now).value.priority == 4 ==>
      (Classify(timetable, today, now).value.upcomingStart.value, NoClass) in TodayCells(timetable, today)
        && HourBefore(now, ParseHour(Classify(timetable, today, now).value.upcomingStart.value))
        && Classify(timetable, today, now).value.text == FreeAtText(Classify(timetable, today, now).value.upcomingStart.value)
  {
    var day := TodayCells(timetable, today);
    var classes := FirstAndLastClass(day);
    var blocks := FreeBlocks(timetable, today);
    assert Classify(timetable, today, now) == Decide(ParseHour, classes, blocks, now);
    NoClassesSpec(day);
    DecideRules(ParseHour, classes, blocks, now);
    DecideFreeRules(ParseHour, blocks, now);
    CurrentBlockFree(timetable, today, now);
    if !NoClasses(day) {
      ClassHours(day, now);
      if !FreeAt(day, now) {
        UpcomingBlockFree(timetable, today, now);
      }
    }
  }

  /** A friend is left out (`null`) exactly when today has classes, hour `now` lies between the
      first and the end of the last, and no free slot starts now or later. */
  lemma ClassifyBusy(timetable: Option<Grid>, today: string, now: int)
    requires FreeHoursKnown(timetable, today)
    ensures Classify(timetable, today, now).None?
      <==> (!NoClasses(TodayCells(timetable, today)) && !ClassesAhead(TodayCells(timetable, today), now)
        && !ClassesOver(TodayCells(timetable, today), now) && !FreeAt(TodayCells(timetable, today), now)
        && !FreeAfter(TodayCells(timetable, today), now))
  {
    var day := TodayCells(timetable, today);
    var classes := FirstAndLastClass(day);
    var blocks := FreeBlocks(timetable, today);
    assert Classify(timetable, today, now) == Decide(ParseHour, classes, blocks, now);
    NoClassesSpec(day);
    DecideRules(ParseHour, classes, blocks, now);
    DecideFreeRules(ParseHour, blocks, now);
    CurrentBlockFree(timetable, today, now);
    if !NoClasses(day) {
      ClassHours(day, now);
      if !FreeAt(day, now) {
        UpcomingBlockFree(timetable, today, now);
      }
    }
  }

  // ---------------------------------------------------------------------------
  // The list of available friends
  // ---------------------------------------------------------------------------

  /** A friend as fetched: an id and a timetable that may be missing. */
  datatype Friend = Friend(id: string, timetable: Option<Grid>)

  /** `{ ...friend, status, dot, priority, upcomingStart }`. */
  datatype Entry = Entry(friend: Friend, status: Status)

  /** The test `classify(f)` passes: the friend gets a status. */
  function HasStatus(classify: Friend -> Option<Status>): Friend -> bool {
    f => classify(f).Some?
  }

  /** The friends of a list of entries, in order. */
  function FriendsOf(es: seq<Entry>): (r: seq<Friend>)
    ensures |r| == |es|
    ensures forall k :: 0 <= k < |r| ==> r[k] == es[k].friend
  {
    if |es| == 0 then [] else [es[0].friend] + FriendsOf(es[1..])
  }

  /** `friends.map(classify).filter(Boolean)`: the friends the classifier gives a status, in
      their order and once per listing, each with its status. */
  function Classified(friends: seq<Friend>, classify: Friend -> Option<Status>): (r: seq<Entry>)
    ensures |r| <= |friends|
    ensures forall k :: 0 <= k < |r| ==> r[k].friend in friends && classify(r[k].friend) == Some(r[k].status)
    ensures forall f :: f in friends && classify(f).Some? ==> Entry(f, classify(f).value) in r
    ensures FriendsOf(r) == Filter(friends, HasStatus(classify))
  {
    if |friends| == 0 then []
    else
      var rest := Classified(friends[1..], classify);
      var kept := Filter(friends[1..], HasStatus(classify));
      match classify(friends[0])
      case None =>
        assert Filter(friends, HasStatus(classify)) == kept;
        rest
      case Some(st) =>
        var r := [Entry(friends[0], st)] + rest;
        assert Filter(friends, HasStatus(classify)) == [friends[0]] + kept;
        assert forall k :: 0 < k < |r| ==> r[k] == rest[k - 1];
        assert r[1..] == rest;
        r
  }

  /** The test that a friend gets a status whose sort key is `k`. */
  function TiedAt(classify: Friend -> Option<Status>, k: Key): Friend -> bool {
    f => classify(f).Some? && EntryKey(Entry(f, classify(f).value)) == k
  }

  /** The classified entries of one sort key are the classification of exactly the friends
      whose status has that key, in the friend list's order. */
  lemma {:induction false} ClassifiedTies(friends: seq<Friend>, classify: Friend -> Option<Status>, k: Key)
    ensures Filter(Classified(friends, classify), HasKey(EntryKey, k))
      == Classified(Filter(friends, TiedAt(classify, k)), classify)
  {
    if |friends| > 0 {
      var f := friends[0];
      var rest := Classified(friends[1..], classify);
      var tied := Filter(friends[1..], TiedAt(classify, k));
      ClassifiedTies(friends[1..], classify, k);
      match classify(f)
      case None =>
        assert Classified(friends, classify) == rest;
        assert Filter(friends, TiedAt(classify, k)) == tied;
      case Some(st) =>
        assert Classified(friends, classify) == [Entry(f, st)] + rest;
        FilterAppend([Entry(f, st)], rest, HasKey(EntryKey, k));
        if EntryKey(Entry(f, st)) == k {
          assert Filter(friends, TiedAt(classify, k)) == [f] + tied;
          assert ([f] + tied)[1..] == tied;
        } else {
          assert Filter(friends, TiedAt(classify, k)) == tied;
        }
    }
  }

  /** The status of a friend at hour `now` of the weekday `today`. */
  function StatusAt(today: string, now: int): Friend -> Option<Status> {
    (f: Friend) => Classify(f.timetable, today, now)
  }

  /** The hour of a status's upcoming start, 0 when it has none. */
  function UpcomingHour(st: Status): int {
    if st.upcomingStart.Some? then Hour(st.upcomingStart.value) else 0
  }

  /** The order the panel's sort comparator induces: priority first, then, between two
      entries with an upcoming start, its hour. */
  function EntryKey(e: Entry): Key {
    Key(e.status.priority, UpcomingHour(e.status))
  }

  /** The panel's sort comparator as written, reading hours with `hour` and with `NaN` as
      `None`: the priorities' difference, else the difference of the upcoming starts' hours when
      both are set (a non-empty string), else 0. */
  function CompareWith(hour: string -> Option<int>, a: Entry, b: Entry): Option<int> {
    var x, y := a.status, b.status;
    if x.priority != y.priority then Some(x.priority - y.priority)
    else if x.upcomingStart.Some? && |x.upcomingStart.value| > 0 && y.upcomingStart.Some? && |y.upcomingStart.value| > 0 then
      var h1, h2 := hour(x.upcomingStart.value), hour(y.upcomingStart.value);
      if h1.Some? && h2.Some? then Some(h1.value - h2.value) else None
    else Some(0)
  }

  /** The panel's sort comparator, reading hours with `parseHour`. */
  function Compare(a: Entry, b: Entry): Option<int> {
    CompareWith(ParseHour, a, b)
  }

  /** The key order with hours read by `hour`. */
  function KeyWith(hour: string -> Option<int>, e: Entry): Key {
    Key(e.status.priority, if e.status.upcomingStart.Some? then hour(e.status.upcomingStart.value).GetOr(0) else 0)
  }

  /** For any hour reading under which the empty string has no hour, the comparator on entries
      whose upcoming starts have hours never yields `NaN` and orders as the keys do. */
  lemma CompareWithAgrees(hour: string -> Option<int>, a: Entry, b: Entry)
    requires hour("") == None
    requires a.status.upcomingStart.Some? <==> a.status.priority == 4
    requires b.status.upcomingStart.Some? <==> b.status.priority == 4
    requires a.status.upcomingStart.Some? ==> hour(a.status.upcomingStart.value).Some?
    requires b.status.upcomingStart.Some? ==> hour(b.status.upcomingStart.value).Some?
    ensures CompareWith(hour, a, b).Some?
    ensures CompareWith(hour, a, b).value < 0 <==> KeyLt(KeyWith(hour, a), KeyWith(hour, b))
    ensures CompareWith(hour, a, b).value == 0 <==> KeyWith(hour, a) == KeyWith(hour, b)
  {
    if a.status.upcomingStart.Some? {
      assert a.status.upcomingStart.value != "";
    }
    if b.status.upcomingStart.Some? {
      assert b.status.upcomingStart.value != "";
    }
  }

  /** What a status produced by the classification looks like: an upcoming start, which reads
      as an hour, exactly on priority 4. */
  predicate Produced(st: Status) {
    (st.upcomingStart.Some? <==> st.priority == 4)
    && (st.upcomingStart.Some? ==> ParseHour(st.upcomingStart.value).Some?)
  }

  /** Every status the classification produces has that shape. */
  lemma ClassifyProduced(timetable: Option<Grid>, today: string, now: int)
    requires Classify(timetable, today, now).Some?
    ensures Produced(Classify(timetable, today, now).value)
  {
    var classes := FirstAndLastClass(TodayCells(timetable, today));
    var blocks := FreeBlocks(timetable, today);
    assert Classify(timetable, today, now) == Decide(ParseHour, classes, blocks, now);
  }

  /** An empty label has no hour. */
  lemma EmptyLabelNoHour()
    ensures ParseHour("") == None
  {
    assert Split("", ' ') == [""];
    assert Split("", '-') == [""];
  }

  /** On produced statuses the comparator never yields `NaN` and orders exactly as the keys
      do: negative iff the first key is smaller, zero iff the keys are equal. */
  lemma CompareAgrees(a: Entry, b: Entry)
    requires Produced(a.status) && Produced(b.status)
    ensures Compare(a, b).Some?
    ensures Compare(a, b).value < 0 <==> KeyLt(EntryKey(a), EntryKey(b))
    ensures Compare(a, b).value == 0 <==> EntryKey(a) == EntryKey(b)
  {
    EmptyLabelNoHour();
    CompareWithAgrees(ParseHour, a, b);
    assert EntryKey(a) == KeyWith(ParseHour, a);
    assert EntryKey(b) == KeyWith(ParseHour, b);
  }

  /** The panel's list: the classified friends sorted with the panel's comparator. */
  function Available(friends: seq<Friend>, today: string, now: int): seq<Entry> {
    SortBy(Classified(friends, StatusAt(today, now)), EntryKey)
  }

  /** Produced entries sorted by their keys come by non-decreasing priority and, among those
      free later, by non-decreasing start hour. */
  lemma SortedEntries(c: seq<Entry>)
    requires forall k :: 0 <= k < |c| ==> Produced(c[k].status)
    ensures forall i, j :: 0 <= i < j < |SortBy(c, EntryKey)| ==>
      SortBy(c, EntryKey)[i].status.priority <= SortBy(c, EntryKey)[j].status.priority
    ensures forall k :: 0 <= k < |SortBy(c, EntryKey)| ==> Produced(SortBy(c, EntryKey)[k].status)
    ensures forall i, j :: (0 <= i < j < |SortBy(c, EntryKey)| && SortBy(c, EntryKey)[i].status.upcomingStart.Some?
      && SortBy(c, EntryKey)[j].status.upcomingStart.Some?) ==>
      ParseHour(SortBy(c, EntryKey)[i].status.upcomingStart.value).Some?
      && ParseHour(SortBy(c, EntryKey)[j].status.upcomingStart.value).Some?
      && ParseHour(SortBy(c, EntryKey)[i].status.upcomingStart.value).value
        <= ParseHour(SortBy(c, EntryKey)[j].status.upcomingStart.value).value
  {
    var r := SortBy(c, EntryKey);
    forall k | 0 <= k < |r| ensures Produced(r[k].status) {
      assert r[k] in multiset(c);
    }
    forall i, j | 0 <= i < j < |r| ensures KeyLe(EntryKey(r[i]), EntryKey(r[j])) {
    }
  }

  /** The panel's list holds exactly the friends with a status, each with that status, as
      many times as the friend is listed; it is ordered by non-decreasing priority and, among
      friends free later, by non-decreasing start hour. The count per listing comes from
      `Classified`'s contract; the order of tied friends is `AvailableTies`. */
  lemma AvailableSpec(friends: seq<Friend>, today: string, now: int)
    ensures multiset(Available(friends, today, now)) == multiset(Classified(friends, StatusAt(today, now)))
    ensures forall e :: e in Available(friends, today, now) <==>
      e.friend in friends && Classify(e.friend.timetable, today, now) == Some(e.status)
    ensures forall i, j :: 0 <= i < j < |Available(friends, today, now)| ==>
      Available(friends, today, now)[i].status.priority <= Available(friends, today, now)[j].status.priority
    ensures forall k :: 0 <= k < |Available(friends, today, now)| ==> Produced(Available(friends, today, now)[k].status)
    ensures forall i, j :: (0 <= i < j < |Available(friends, today, now)|
      && Available(friends, today, now)[i].status.upcomingStart.Some? && Available(friends, today, now)[j].status.upcomingStart.Some?) ==>
      ParseHour(Available(friends, today, now)[i].status.upcomingStart.value).Some?
      && ParseHour(Available(friends, today, now)[j].status.upcomingStart.value).Some?
      && ParseHour(Available(friends, today, now)[i].status.upcomingStart.value).value
        <= ParseHour(Available(friends, today, now)[j].status.upcomingStart.value).value
    ensures forall k :: (Filter(Available(friends, today, now), HasKey(EntryKey, k))
      == Filter(Classified(friends, StatusAt(today, now)), HasKey(EntryKey, k)))
  {
    var cl := StatusAt(today, now);
    var c := Classified(friends, cl);
    var r := Available(friends, today, now);
    forall f ensures cl(f) == Classify(f.timetable, today, now) {
    }
    forall k | 0 <= k < |c| ensures Produced(c[k].status) {
      ClassifyProduced(c[k].friend.timetable, today, now);
    }
    SortedEntries(c);
    forall e ensures e in r <==> e.friend in friends && Classify(e.friend.timetable, today, now) == Some(e.status) {
      assert e in r <==> e in multiset(c);
      if e.friend in friends && Classify(e.friend.timetable, today, now) == Some(e.status) {
        assert Entry(e.friend, cl(e.friend).value) in c;
      }
    }
  }

  /** Friends whose statuses tie under the comparator keep the friend list's order in the
      panel: the entries of each sort key are the classification of exactly the friends with
      that key, in list order and once per listing. */
  lemma AvailableTies(friends: seq<Friend>, today: string, now: int, k: Key)
    ensures Filter(Available(friends, today, now), HasKey(EntryKey, k))
      == Classified(Filter(friends, TiedAt(StatusAt(today, now), k)), StatusAt(today, now))
  {
    ClassifiedTies(friends, StatusAt(today, now), k);
  }

  /** `getSortedSlots(timetable)`: the distinct slot labels of all days, sorted by start hour;
      `[]` without a timetable. */
  function SortedSlots(timetable: Option<Grid>): (r: seq<string>)
    requires timetable.Some? ==> HoursKnown(SlotLabels(timetable.value))
    ensures timetable.None? ==> r == []
    ensures timetable.Some? ==> SortedBy(r, HourKey) && multiset(r) == multiset(SlotLabels(timetable.value))
    ensures timetable.Some? ==> forall k :: Filter(r, HasKey(HourKey, k)) == Filter(SlotLabels(timetable.value), HasKey(HourKey, k))
  {
    if timetable.None? then [] else SortBy(SlotLabels(timetable.value), HourKey)
  }

  /** The sorted slots are the slot labels of all days, each listed once. */
  lemma SortedSlotsMembers(g: Grid)
    requires HoursKnown(SlotLabels(g))
    ensures Distinct(SortedSlots(Some(g)))
    ensures forall x :: x in SortedSlots(Some(g)) <==> exists i :: 0 <= i < |g| && x in Keys(g[i].1)
  {
    PermutationMembers(SlotLabels(g), SortedSlots(Some(g)));
  }
}

=== FILE: header.dfy ===
/**
 The "next class" card of the profile header (frontend/src/components/Header.jsx): the
 slot-start reader `parseSlotTime`, today's name from a Sunday-first list, and the search
 for the first canonical slot at or after the current hour that holds a class. The weekday
 index and the hour are parameters instead of readings of the clock, and the React state
 the effect writes is passed in and returned.
 */
module Header {
  import opened JsCore
  import opened Assoc
  import opened Calendar
  import opened SlotLabel

  /** `days`, indexed by `Date.prototype.getDay()`. */
  const DaysSundayFirst: seq<string> :=
    ["Sunday", "Monday", "Tuesday", "Wednesday", "Thursday", "Friday", "Saturday"]

  /** `parseSlotTime(slot)`: `Number` of the text before the first '-' of the part before the
      first space, plus 12 when the part after it is "PM" and the hour is not 12. There is no
      12 AM rule, and `NaN + 12` stays `NaN`. */
  function ParseSlotTime(slot: string): Option<int> {
    var parts := Split(slot, ' ');
    var pm := |parts| > 1 && parts[1] == "PM";
    match ToNumber(Split(parts[0], '-')[0])
    case None => None
    case Some(h) => Some(if pm && h != 12 then h + 12 else h)
  }

  /** On a well-formed label the reader adds 12 to a PM start other than 12 and returns an AM
      start unchanged; it agrees with the 12-hour rule everywhere but at 12 AM. */
  lemma ParseSlotTimeLabel(s: string)
    requires IsSlotLabel(s)
    ensures ParseSlotTime(s) == Some(if IsPm(s) && StartOf(s) != 12 then StartOf(s) + 12 else StartOf(s))
    ensures !IsPm(s) ==> ParseSlotTime(s) == Some(StartOf(s))
    ensures IsPm(s) || StartOf(s) != 12 ==> ParseSlotTime(s) == Some(To24(StartOf(s), IsPm(s)))
  {
    LabelPieces(s);
    LabelHours(s);
    var parts := Split(s, ' ');
    assert parts[0] == s[..5];
    assert Split(parts[0], '-')[0] == s[..2];
    assert (|parts| > 1 && parts[1] == "PM") == IsPm(s);
  }

  /** The nine canonical slots start at 9 + i o'clock. */
  lemma ParseSlotTimeCanonical(i: nat)
    requires i < |SlotOrder|
    ensures ParseSlotTime(SlotOrder[i]) == Some(9 + i)
  {
    CanonicalLabel(i);
    ParseSlotTimeLabel(SlotOrder[i]);
  }

  /** `days[getDay()]`: the same day as the Monday-first list, shifted by one. */
  function Today(weekday: nat): (r: string)
    requires weekday < 7
    ensures r == Days[(weekday + 6) % 7]
    ensures r in Days
  {
    DaysSundayFirst[weekday]
  }

  /** The card's state: `{subject, slot}`, or `null`. */
  datatype NextClass = NextClass(subject: string, slot: string)

  /** `slotHour >= hour && timetable[slot] && timetable[slot] !== "No class"`, with the slot
      read by `hour`. `NaN >= hour` is false. */
  predicate Qualifies(hour: string -> Option<int>, day: Cells, now: int, slot: string) {
    hour(slot).Some? && hour(slot).value >= now && HasClass(day, slot)
  }

  /** The loop over `slots`, reading each with `hour`: the first qualifying slot, with the
      cell it holds. */
  function FindNextWith(hour: string -> Option<int>, day: Cells, now: int): (r: Option<NextClass>)
    ensures r.Some? ==> r.value.slot in SlotOrder && Get(day, r.value.slot) == Some(r.value.subject)
  {
    match FirstIndex(SlotOrder, (s: string) => Qualifies(hour, day, now, s))
    case None => None
    case Some(j) => Some(NextClass(Get(day, SlotOrder[j]).value, SlotOrder[j]))
  }

  /** The `for` loop over the slots in `Header`'s effect. */
  function FindNext(day: Cells, now: int): (r: Option<NextClass>)
    ensures r.Some? ==> r.value.slot in SlotOrder && HasClass(day, r.value.slot)
    ensures r.Some? ==> Get(day, r.value.slot) == Some(r.value.subject)
  {
    FindNextWith(ParseSlotTime, day, now)
  }

  /** When the slots read as increasing hours, the loop picks the earliest slot at or after
      `now` holding a class, and finds nothing exactly when there is none. */
  lemma FindNextWithSpec(hour: string -> Option<int>, day: Cells, now: int)
    requires forall i :: 0 <= i < |SlotOrder| ==> hour(SlotOrder[i]) == Some(9 + i)
    ensures FindNextWith(hour, day, now).None? <==>
      forall i :: 0 <= i < |SlotOrder| ==> !(HasClass(day, SlotOrder[i]) && 9 + i >= now)
    ensures FindNextWith(hour, day, now).Some? ==> exists j :: (0 <= j < |SlotOrder|
      && FindNextWith(hour, day, now).value.slot == SlotOrder[j]
      && HasClass(day, SlotOrder[j]) && 9 + j >= now
      && forall i :: 0 <= i < |SlotOrder| && HasClass(day, SlotOrder[i]) && 9 + i >= now ==> j <= i)
  {
    var p := (s: string) => Qualifies(hour, day, now, s);
    assert forall i :: 0 <= i < |SlotOrder| ==> (p(SlotOrder[i]) <==> HasClass(day, SlotOrder[i]) && 9 + i >= now);
    match FirstIndex(SlotOrder, p)
    case None =>
    case Some(j) =>
      assert FindNextWith(hour, day, now).value.slot == SlotOrder[j];
  }

  /** The next class is the earliest canonical slot, by start hour, that is at or after `now`
      and holds a class; there is none exactly when no such slot exists. */
  lemma FindNextSpec(day: Cells, now: int)
    ensures FindNext(day, now).None? <==>
      forall i :: 0 <= i < |SlotOrder| ==> !(HasClass(day, SlotOrder[i]) && 9 + i >= now)
    ensures FindNext(day, now).Some? ==> exists j :: (0 <= j < |SlotOrder|
      && FindNext(day, now).value.slot == SlotOrder[j]
      && ParseSlotTime(SlotOrder[j]) == Some(9 + j) && 9 + j >= now
      && forall i :: 0 <= i < |SlotOrder| && HasClass(day, SlotOrder[i]) && 9 + i >= now ==> j <= i)
  {
    forall i | 0 <= i < |SlotOrder| ensures ParseSlotTime(SlotOrder[i]) == Some(9 + i) {
      ParseSlotTimeCanonical(i);
    }
    FindNextWithSpec(ParseSlotTime, day, now);
  }

  /** `userData?.timetable?.[today]`. */
  function TodayCells(timetable: Option<Grid>, weekday: nat): Option<Cells>
    requires weekday < 7
  {
    match timetable
    case None => None
    case Some(g) => Get(g, Today(weekday))
  }

  /** One run of the effect from state `prev`: the state is set only when a slot qualifies,
      and is never reset to `null`. */
  function RunEffect(timetable: Option<Grid>, weekday: nat, now: int, prev: Option<NextClass>): (r: Option<NextClass>)
    requires weekday < 7
    ensures r != prev ==> r.Some? && TodayCells(timetable, weekday).Some?
  {
    match TodayCells(timetable, weekday)
    case None => prev
    case Some(day) =>
      match FindNext(day, now)
      case None => prev
      case Some(n) => Some(n)
  }

  /** The card's lines: the subject and the slot, or the fallback message. */
  function CardText(next: Option<NextClass>): (r: seq<string>)
    ensures |r| == 1 <==> next.None?
  {
    match next
    case None => ["No more classes today"]
    case Some(n) => [n.subject, n.slot]
  }

  /** A run that finds a slot shows it whatever the state before; a run that finds none
      leaves the state as it was, stale value included. */
  lemma RunEffectSpec(timetable: Option<Grid>, weekday: nat, now: int, prev: Option<NextClass>)
    requires weekday < 7
    ensures TodayCells(timetable, weekday).Some? && FindNext(TodayCells(timetable, weekday).value, now).Some? ==>
      RunEffect(timetable, weekday, now, prev) == FindNext(TodayCells(timetable, weekday).value, now)
    ensures TodayCells(timetable, weekday).None? || FindNext(TodayCells(timetable, weekday).value, now).None? ==>
      RunEffect(timetable, weekday, now, prev) == prev
  {
  }

  /** From the initial `null` state, the card reads "No more classes today" exactly when today
      has no timetable or no canonical slot at or after `now` holds a class. */
  lemma FirstRunCard(timetable: Option<Grid>, weekday: nat, now: int)
    requires weekday < 7
    ensures CardText(RunEffect(timetable, weekday, now, None)) == ["No more classes today"] <==>
      TodayCells(timetable, weekday).None? ||
      forall i :: 0 <= i < |SlotOrder| ==> !(HasClass(TodayCells(timetable, weekday).value, SlotOrder[i]) && 9 + i >= now)
  {
    if TodayCells(timetable, weekday).Some? {
      FindNextSpec(TodayCells(timetable, weekday).value, now);
    }
  }
}

=== FILE: js_core.dfy ===
/**
 The pieces of the JavaScript runtime that the application's logic leans on, stated
 once: white space, `trim`, `split`, `includes`/`endsWith`, `parseInt`/`Number`,
 number printing with `padStart`, leftmost regex search, and array filtering.

 JavaScript's `undefined`/`null`, and `NaN` where a number is meant, are all `None`.
 */
module JsCore {

  datatype Option<+T> = None | Some(value: T) {
    /** `x || d` for a value that is falsy only when absent. */
    function GetOr(default: T): T {
      if Some? then value else default
    }
  }

  /** A present, non-empty string: JavaScript truthiness of a string field. */
  predicate Truthy(s: Option<string>) {
    s.Some? && s.value != ""
  }

  /** The outcome of an operation that can throw: `Failure` carries the error's message. */
  datatype Result<+T> = Success(value: T) | Failure(error: string)

  /** `Math.abs(n)`. */
  function Abs(n: int): (r: nat)
    ensures r == n || r == -n
  {
    if n < 0 then -n else n
  }

  /** `a % b` for a positive divisor: JavaScript truncates, so the remainder takes the sign
      of `a`. */
  function JsRem(a: int, b: int): (r: int)
    requires b > 0
    ensures a >= 0 ==> r == a % b
    ensures a < 0 ==> r == -((-a) % b)
    ensures -b < r < b
  {
    if a >= 0 then a % b else -((-a) % b)
  }

  // ---------------------------------------------------------------------------
  // Characters
  // ---------------------------------------------------------------------------

  /** ECMAScript WhiteSpace and LineTerminator: what `trim()` strips and `\s` matches. */
  predicate IsSpace(c: char) {
    var n := c as int;
    n == 0x09 || n == 0x0A || n == 0x0B || n == 0x0C || n == 0x0D || n == 0x20
    || n == 0xA0 || n == 0x1680 || (0x2000 <= n <= 0x200A) || n == 0x2028
    || n == 0x2029 || n == 0x202F || n == 0x205F || n == 0x3000 || n == 0xFEFF
  }

  /** The regex class `\d` (ASCII digits only). */
  predicate IsDigit(c: char) {
    '0' <= c <= '9'
  }

  /** The regex class `[A-Z]`. */
  predicate IsUpper(c: char) {
    'A' <= c <= 'Z'
  }

  predicate AllDigits(s: string) {
    forall i :: 0 <= i < |s| ==> IsDigit(s[i])
  }

  function DigitChar(d: nat): (c: char)
    requires d < 10
    ensures IsDigit(c) && DigitValue(c) == d
  {
    (('0' as int) + d) as char
  }

  /** The value of `c` as a digit of any radix up to 36; 36 when `c` is no digit at all. */
  function DigitValue(c: char): (v: nat)
    ensures v <= 36
    ensures IsDigit(c) <==> v < 10
  {
    if '0' <= c <= '9' then (c as int) - ('0' as int)
    else if 'a' <= c <= 'z' then (c as int) - ('a' as int) + 10
    else if 'A' <= c <= 'Z' then (c as int) - ('A' as int) + 10
    else 36
  }

  // ---------------------------------------------------------------------------
  // Strings
  // ---------------------------------------------------------------------------

  function TrimStart(s: string): (r: string)
    ensures |r| <= |s| && r == s[|s| - |r|..]
    ensures |r| > 0 ==> !IsSpace(r[0])
    ensures forall i :: 0 <= i < |s| - |r| ==> IsSpace(s[i])
  {
    if |s| > 0 && IsSpace(s[0]) then TrimStart(s[1..]) else s
  }

  function TrimEnd(s: string): (r: string)
    ensures |r| <= |s| && r == s[..|r|]
    ensures |r| > 0 ==> !IsSpace(r[|r| - 1])
    ensures forall i :: |r| <= i < |s| ==> IsSpace(s[i])
  {
    if |s| > 0 && IsSpace(s[|s| - 1]) then TrimEnd(s[..|s| - 1]) else s
  }

  /** `s.trim()`: the longest infix of `s` that neither starts nor ends with white space. */
  function Trim(s: string): (r: string)
    ensures |r| <= |s|
    ensures |r| > 0 ==> !IsSpace(r[0]) && !IsSpace(r[|r| - 1])
    ensures r == "" <==> forall i :: 0 <= i < |s| ==> IsSpace(s[i])
    ensures |s| == 0 || (!IsSpace(s[0]) && !IsSpace(s[|s| - 1])) ==> r == s
    ensures forall c :: c in r ==> c in s
  {
    var t := TrimStart(s);
    assert forall c :: c in t ==> c in s;
    TrimEnd(t)
  }

  /** `s[a..b]` is `s` with only white space cut off at either end. */
  predicate SpaceBounded(s: string, a: nat, b: nat) {
    a <= b <= |s| && (forall i :: 0 <= i < a ==> IsSpace(s[i])) && (forall i :: b <= i < |s| ==> IsSpace(s[i]))
  }

  /** The trimmed string is the infix of `s` left once the white space at both ends is cut off,
      and no more is cut: it neither starts nor ends with white space. */
  lemma TrimInfix(s: string)
    ensures exists a: nat, b: nat {:trigger SpaceBounded(s, a, b)} :: SpaceBounded(s, a, b) && Trim(s) == s[a..b]
  {
    var t := TrimStart(s);
    var a := |s| - |t|;
    var u := TrimEnd(t);
    assert Trim(s) == u;
    assert t == s[a..];
    assert u == t[..|u|];
    assert t[..|u|] == s[a..a + |u|];
    forall i | a + |u| <= i < |s| ensures IsSpace(s[i]) {
      assert s[i] == t[i - a];
    }
    assert SpaceBounded(s, a, a + |u|);
  }

  /** `s` starts with `sub` at index `i`. */
  predicate OccursAt(s: string, i: nat, sub: string) {
    i + |sub| <= |s| && s[i..i + |sub|] == sub
  }

  /** `s.includes(sub)`. */
  predicate Includes(s: string, sub: string) {
    exists i :: 0 <= i <= |s| && OccursAt(s, i, sub)
  }

  /** `s.endsWith(suffix)`. */
  predicate EndsWith(s: string, suffix: string) {
    |suffix| <= |s| && s[|s| - |suffix|..] == suffix
  }

  /** `s.split(sep)` for a non-empty separator: the pieces between the occurrences of `sep`
      found scanning left to right. */
  function SplitOn(s: string, sep: string): (r: seq<string>)
    requires |sep| > 0
    ensures |r| >= 1
    decreases |s|
  {
    if |s| < |sep| then [s]
    else if s[..|sep|] == sep then [""] + SplitOn(s[|sep|..], sep)
    else
      var rest := SplitOn(s[1..], sep);
      [[s[0]] + rest[0]] + rest[1..]
  }

  /** `s.split(c)` for a one-character separator. */
  function Split(s: string, c: char): (r: seq<string>)
    ensures |r| >= 1
  {
    SplitOn(s, [c])
  }

  /** `parts.join(sep)`, the inverse of `SplitOn`. */
  function Join(parts: seq<string>, sep: string): string
    requires |parts| >= 1
  {
    if |parts| == 1 then parts[0] else parts[0] + sep + Join(parts[1..], sep)
  }

  /** Splitting and joining again gives back the string. */
  lemma {:induction false} JoinSplitOn(s: string, sep: string)
    requires |sep| > 0
    ensures Join(SplitOn(s, sep), sep) == s
    decreases |s|
  {
    if |s| < |sep| {
    } else if s[..|sep|] == sep {
      JoinSplitOn(s[|sep|..], sep);
      var rest := SplitOn(s[|sep|..], sep);
      assert SplitOn(s, sep) == [""] + rest;
      assert ([""] + rest)[1..] == rest;
      assert s == s[..|sep|] + s[|sep|..];
    } else {
      JoinSplitOn(s[1..], sep);
      var rest := SplitOn(s[1..], sep);
      var r := [[s[0]] + rest[0]] + rest[1..];
      assert SplitOn(s, sep) == r;
      if |rest| == 1 {
        assert Join(r, sep) == [s[0]] + rest[0];
      } else {
        assert r[1..] == rest[1..];
        assert Join(rest, sep) == rest[0] + sep + Join(rest[1..], sep);
        assert Join(r, sep) == [s[0]] + rest[0] + sep + Join(rest[1..], sep);
      }
      assert s == [s[0]] + s[1..];
    }
  }

  /** When no occurrence of `sep` can start inside `a`, the first piece of `a + sep + b` is `a`. */
  lemma {:induction false} SplitOnFirst(a: string, sep: string, b: string)
    requires |sep| > 0
    requires forall i :: 0 <= i < |a| ==> a[i] != sep[0]
    ensures SplitOn(a + sep + b, sep) == [a] + SplitOn(b, sep)
    decreases |a|
  {
    var s := a + sep + b;
    if |a| == 0 {
      assert s == sep + b;
      assert s[..|sep|] == sep;
      assert s[|sep|..] == b;
    } else {
      assert s[0] == a[0];
      assert s[..|sep|] != sep by { assert s[..|sep|][0] == a[0]; }
      assert s[1..] == a[1..] + sep + b;
      SplitOnFirst(a[1..], sep, b);
      assert [s[0]] + a[1..] == a;
    }
  }

  /** A string in which the separator's first character never occurs is one piece. */
  lemma {:induction false} SplitOnNone(s: string, sep: string)
    requires |sep| > 0
    requires forall i :: 0 <= i < |s| ==> s[i] != sep[0]
    ensures SplitOn(s, sep) == [s]
    decreases |s|
  {
    if |s| >= |sep| {
      assert s[..|sep|] != sep by { assert s[..|sep|][0] == s[0]; }
      SplitOnNone(s[1..], sep);
      assert [s[0]] + s[1..] == s;
    }
  }

  /** A string in which the separator never occurs is one piece. */
  lemma {:induction false} SplitOnAbsent(s: string, sep: string)
    requires |sep| > 0 && !Includes(s, sep)
    ensures SplitOn(s, sep) == [s]
    decreases |s|
  {
    if |s| >= |sep| {
      assert !OccursAt(s, 0, sep);
      assert !Includes(s[1..], sep) by {
        forall i | 0 <= i <= |s[1..]| ensures !OccursAt(s[1..], i, sep) {
          if OccursAt(s[1..], i, sep) {
            assert s[i + 1..i + 1 + |sep|] == s[1..][i..i + |sep|];
            assert OccursAt(s, i + 1, sep);
          }
        }
      }
      SplitOnAbsent(s[1..], sep);
      assert [s[0]] + s[1..] == s;
    }
  }

  /** A one-character split yields more than one piece exactly when the character occurs. */
  lemma {:induction false} SplitPieces(s: string, c: char)
    ensures |Split(s, c)| > 1 <==> c in s
    decreases |s|
  {
    if |s| >= 1 {
      SplitPieces(s[1..], c);
      assert c in s <==> s[0] == c || c in s[1..] by {
        assert s == [s[0]] + s[1..];
      }
      if s[0] == c {
        assert s[..1] == [c];
      }
    }
  }

  /** `s.replace(/:$/, "")`: drop one trailing colon. */
  function StripTrailingColon(s: string): (r: string)
    ensures |s| > 0 && s[|s| - 1] == ':' ==> r == s[..|s| - 1]
    ensures !(|s| > 0 && s[|s| - 1] == ':') ==> r == s
  {
    if |s| > 0 && s[|s| - 1] == ':' then s[..|s| - 1] else s
  }

  /** `s.replace(/x/g, "")` for a single character `x`. */
  function RemoveChar(s: string, x: char): (r: string)
    ensures x !in r
    ensures x !in s ==> r == s
    ensures forall c :: c != x ==> (c in r <==> c in s)
  {
    if |s| == 0 then ""
    else if s[0] == x then RemoveChar(s[1..], x)
    else [s[0]] + RemoveChar(s[1..], x)
  }

  // ---------------------------------------------------------------------------
  // Numbers
  // ---------------------------------------------------------------------------

  /** `n.toString()` for a non-negative integer. */
  function NatToString(n: nat): (r: string)
    ensures |r| >= 1 && AllDigits(r)
    ensures DigitsValue(r, 10) == n
    ensures n < 10 <==> |r| == 1
  {
    if n < 10 then [DigitChar(n)]
    else
      var r := NatToString(n / 10) + [DigitChar(n % 10)];
      assert r[..|r| - 1] == NatToString(n / 10);
      r
  }

  /** `i.toString()` / `${i}` for an integer. */
  function IntToString(i: int): string {
    if i < 0 then "-" + NatToString(-i) else NatToString(i)
  }

  /** `s.padStart(2, "0")`. */
  function PadStart2(s: string): (r: string)
    ensures |r| == if |s| < 2 then 2 else |s|
  {
    if |s| == 0 then "00" else if |s| == 1 then "0" + s else s
  }

  /** `n.toString().padStart(2, "0")`: for `n < 100`, exactly two digits worth `n`. */
  function Pad2(n: nat): (r: string)
    ensures n < 100 ==> |r| == 2 && AllDigits(r) && DigitValue(r[0]) * 10 + DigitValue(r[1]) == n
    ensures n < 100 ==> r == [DigitChar(n / 10), DigitChar(n % 10)]
  {
    var r := PadStart2(NatToString(n));
    assert n < 100 ==> r == [DigitChar(n / 10), DigitChar(n % 10)] by {
      if n >= 10 && n < 100 {
        assert NatToString(n / 10) == [DigitChar(n / 10)];
      }
    }
    r
  }

  /** The value of a run of radix-`radix` digits, most significant first. */
  function DigitsValue(ds: string, radix: nat): nat
    requires forall i :: 0 <= i < |ds| ==> DigitValue(ds[i]) < radix
  {
    if |ds| == 0 then 0
    else DigitsValue(ds[..|ds| - 1], radix) * radix + DigitValue(ds[|ds| - 1])
  }

  /** The length of the longest prefix of `s` made of radix-`radix` digits. */
  function DigitRun(s: string, radix: nat): (n: nat)
    ensures n <= |s|
    ensures forall i :: 0 <= i < n ==> DigitValue(s[i]) < radix
    ensures n < |s| ==> DigitValue(s[n]) >= radix
  {
    if |s| == 0 || DigitValue(s[0]) >= radix then 0 else 1 + DigitRun(s[1..], radix)
  }

  /** The value of the longest radix-`radix` digit run at the start of `v`; `NaN` when
      there is none. */
  function LeadingValue(v: string, radix: nat): Option<int> {
    var n := DigitRun(v, radix);
    if n == 0 then None else Some(DigitsValue(v[..n], radix))
  }

  /** The unsigned part of `parseInt`: with `hexPrefix`, a leading "0x" or "0X" selects
      radix 16, and otherwise the radix is 10. */
  function ParseUnsigned(u: string, hexPrefix: bool): Option<int> {
    if hexPrefix && |u| >= 2 && u[0] == '0' && (u[1] == 'x' || u[1] == 'X') then LeadingValue(u[2..], 16)
    else LeadingValue(u, 10)
  }

  /** The shared algorithm of `parseInt(s)` (`hexPrefix`, radix inferred) and `parseInt(s, 10)`:
      skip leading white space, take a sign, take the longest digit run; no digits is `NaN`. */
  function ParseIntWith(s: string, hexPrefix: bool): Option<int> {
    var t := TrimStart(s);
    if |t| > 0 && t[0] == '-' then
      match ParseUnsigned(t[1..], hexPrefix)
      case None => None
      case Some(m) => Some(-m)
    else if |t| > 0 && t[0] == '+' then ParseUnsigned(t[1..], hexPrefix)
    else ParseUnsigned(t, hexPrefix)
  }

  /** `parseInt(s)` with no radix. */
  function ParseInt(s: string): Option<int> {
    ParseIntWith(s, true)
  }

  /** `parseInt(s, 10)`. */
  function ParseInt10(s: string): Option<int> {
    ParseIntWith(s, false)
  }

  /** `Number(s)` for the decimal-integer subset of numeric strings: surrounding white space is
      ignored, the empty string is 0, and anything but an optionally signed digit run is `NaN`. */
  function ToNumber(s: string): Option<int> {
    var t := Trim(s);
    if t == "" then Some(0)
    else
      var neg := t[0] == '-';
      var u := if t[0] == '-' || t[0] == '+' then t[1..] else t;
      if |u| > 0 && AllDigits(u) then
        var m: int := DigitsValue(u, 10);
        Some(if neg then -m else m)
      else None
  }

  /** A digit run followed by a non-digit parses to its value, under all three parsers. */
  lemma ParseDigits(ds: string, rest: string)
    requires |ds| > 0 && AllDigits(ds)
    requires |rest| == 0 || !IsDigit(rest[0])
    requires |ds| > 1 || |rest| == 0 || (rest[0] != 'x' && rest[0] != 'X')
    ensures ParseInt(ds + rest) == Some(DigitsValue(ds, 10))
    ensures ParseInt10(ds + rest) == Some(DigitsValue(ds, 10))
  {
    var s := ds + rest;
    assert s[0] == ds[0];
    assert !(|s| >= 2 && s[0] == '0' && (s[1] == 'x' || s[1] == 'X')) by {
      if |ds| > 1 { assert s[1] == ds[1]; }
      else if |rest| > 0 { assert s[1] == rest[0]; }
    }
    DigitRunStops(ds, rest, 10);
    assert s[..|ds|] == ds;
    ParseUnsignedDecimal(s, true);
    ParseUnsignedDecimal(s, false);
  }

  /** Text that starts with a digit and not with "0x" is read as its leading decimal digit
      run, whether or not a hex prefix would be recognised. */
  lemma ParseUnsignedDecimal(s: string, hexPrefix: bool)
    requires |s| > 0 && IsDigit(s[0])
    requires !(|s| >= 2 && s[0] == '0' && (s[1] == 'x' || s[1] == 'X'))
    ensures ParseIntWith(s, hexPrefix) == Some(DigitsValue(s[..DigitRun(s, 10)], 10))
  {
    NoSpaceDigit(s[0]);
    assert TrimStart(s) == s;
  }

  lemma NoSpaceDigit(c: char)
    requires IsDigit(c)
    ensures !IsSpace(c)
  {
  }

  /** `Number` reads a bare digit run as its value. */
  lemma NumberOfDigits(ds: string)
    requires |ds| > 0 && AllDigits(ds)
    ensures ToNumber(ds) == Some(DigitsValue(ds, 10))
  {
    NoSpaceDigit(ds[0]);
    NoSpaceDigit(ds[|ds| - 1]);
    assert Trim(ds) == ds;
    assert ds[0] != '-' && ds[0] != '+';
  }

  lemma {:induction false} DigitRunStops(ds: string, rest: string, radix: nat)
    requires forall i :: 0 <= i < |ds| ==> DigitValue(ds[i]) < radix
    requires |rest| == 0 || DigitValue(rest[0]) >= radix
    ensures DigitRun(ds + rest, radix) == |ds|
    decreases |ds|
  {
    if |ds| > 0 {
      assert (ds + rest)[1..] == ds[1..] + rest;
      DigitRunStops(ds[1..], rest, radix);
    } else {
      assert ds + rest == rest;
    }
  }

  // ---------------------------------------------------------------------------
  // Leftmost search and arrays
  // ---------------------------------------------------------------------------

  /** The value at the least position in `[i, n)` where the matcher `f` succeeds: how a regex
      without the `g` flag reports its leftmost match. */
  function FirstFrom<T>(f: nat -> Option<T>, i: nat, n: nat): (r: Option<T>)
    ensures r.None? <==> forall j :: i <= j < n ==> f(j).None?
    ensures r.Some? ==> exists j :: i <= j < n && f(j) == r && forall k :: i <= k < j ==> f(k).None?
    decreases if i < n then n - i else 0
  {
    if i >= n then None
    else if f(i).Some? then f(i)
    else FirstFrom(f, i + 1, n)
  }

  /** `j` is the least position in `[i, n)` where the matcher `f` succeeds. */
  predicate FirstSomeAt<T>(f: nat -> Option<T>, i: nat, n: nat, j: nat) {
    i <= j < n && f(j).Some? && forall k :: i <= k < j ==> f(k).None?
  }

  /** A match found by `FirstFrom` comes from the least succeeding position. */
  lemma {:induction false} FirstFromAt<T>(f: nat -> Option<T>, i: nat, n: nat)
    requires FirstFrom(f, i, n).Some?
    ensures exists j {:trigger FirstSomeAt(f, i, n, j)} :: FirstSomeAt(f, i, n, j) && f(j) == FirstFrom(f, i, n)
    decreases if i < n then n - i else 0
  {
    if f(i).Some? {
      assert FirstSomeAt(f, i, n, i);
    } else {
      FirstFromAt(f, i + 1, n);
      var j: nat :| FirstSomeAt(f, i + 1, n, j) && f(j) == FirstFrom(f, i + 1, n);
      assert FirstSomeAt(f, i, n, j);
    }
  }

  /** The least position from `k` on whose element passes `p`: a `for..of` loop that
      breaks at the first element passing its test. */
  function FirstIndex<T>(xs: seq<T>, p: T -> bool, k: nat := 0): (r: Option<nat>)
    ensures r.None? <==> forall j :: k <= j < |xs| ==> !p(xs[j])
    ensures r.Some? ==> k <= r.value < |xs| && p(xs[r.value])
    ensures r.Some? ==> forall j :: k <= j < r.value ==> !p(xs[j])
    decreases |xs| - k
  {
    if k >= |xs| then None
    else if p(xs[k]) then Some(k)
    else FirstIndex(xs, p, k + 1)
  }

  /** A loop over `xs` whose body may throw: the first error ends it, otherwise the present
      results are pushed in order. */
  function Gather<A, B>(xs: seq<A>, step: A -> Result<Option<B>>): Result<seq<B>>
    decreases |xs|
  {
    if |xs| == 0 then Success([])
    else
      match step(xs[0])
      case Failure(e) => Failure(e)
      case Success(w) =>
        match Gather(xs[1..], step)
        case Failure(e) => Failure(e)
        case Success(ws) => Success((if w.Some? then [w.value] else []) + ws)
  }

  /** On success the loop yields exactly the results of the single steps. */
  lemma {:induction false} GatherMembers<A, B>(xs: seq<A>, step: A -> Result<Option<B>>, w: B)
    requires Gather(xs, step).Success?
    ensures w in Gather(xs, step).value <==> exists i :: 0 <= i < |xs| && step(xs[i]) == Success(Some(w))
    decreases |xs|
  {
    if |xs| > 0 {
      var tail := Gather(xs[1..], step);
      GatherMembers(xs[1..], step, w);
      if exists i :: 0 <= i < |xs| && step(xs[i]) == Success(Some(w)) {
        var i :| 0 <= i < |xs| && step(xs[i]) == Success(Some(w));
        if i > 0 {
          assert xs[1..][i - 1] == xs[i];
        }
      }
      if w in tail.value {
        var i :| 0 <= i < |xs[1..]| && step(xs[1..][i]) == Success(Some(w));
        assert xs[i + 1] == xs[1..][i];
      }
    }
  }

  /** The defined values of `f` over `[lo, hi)`, in order: a loop that pushes when its checks
      pass. */
  function Collect<T(!new)>(f: nat -> Option<T>, lo: nat, hi: nat): (r: seq<T>)
    ensures forall x :: x in r <==> exists k :: lo <= k < hi && f(k) == Some(x)
    decreases if lo < hi then hi - lo else 0
  {
    if lo >= hi then []
    else
      var rest := Collect(f, lo + 1, hi);
      match f(lo)
      case None => rest
      case Some(x) => [x] + rest
  }

  /** `f(lo) + f(lo + 1) + ... + f(hi - 1)`. */
  function Concat<T(!new)>(f: nat -> seq<T>, lo: nat, hi: nat): (r: seq<T>)
    ensures forall x :: x in r <==> exists k :: lo <= k < hi && x in f(k)
    decreases if lo < hi then hi - lo else 0
  {
    if lo >= hi then [] else f(lo) + Concat(f, lo + 1, hi)
  }

  /** `xs.filter(p)`. */
  function Filter<T(!new)>(xs: seq<T>, p: T -> bool): (r: seq<T>)
    ensures forall x :: x in r <==> x in xs && p(x)
    ensures forall i :: 0 <= i < |r| ==> p(r[i])
    ensures |r| <= |xs|
  {
    if |xs| == 0 then []
    else if p(xs[0]) then [xs[0]] + Filter(xs[1..], p)
    else Filter(xs[1..], p)
  }

  /** The elements passing a test and those failing it together are the original elements. */
  lemma {:induction false} FilterPartition<T(!new)>(xs: seq<T>, p: T -> bool, q: T -> bool)
    requires forall x :: q(x) == !p(x)
    ensures multiset(Filter(xs, p)) + multiset(Filter(xs, q)) == multiset(xs)
  {
    if |xs| > 0 {
      FilterPartition(xs[1..], p, q);
      HeadTail(xs);
    }
  }

  /** Position `k` holds the first element of `xs` that passes `p`. */
  predicate FirstPassingAt<T>(xs: seq<T>, p: T -> bool, k: int) {
    0 <= k < |xs| && p(xs[k]) && forall j :: 0 <= j < k ==> !p(xs[j])
  }

  /** Position `k` holds the last element of `xs` that passes `p`. */
  predicate LastPassingAt<T>(xs: seq<T>, p: T -> bool, k: int) {
    0 <= k < |xs| && p(xs[k]) && forall j :: k < j < |xs| ==> !p(xs[j])
  }

  /** Some position passing a test gives a least such position. */
  lemma {:induction false} LeastWitness<T>(xs: seq<T>, p: T -> bool, i: nat)
    requires i < |xs| && p(xs[i])
    ensures exists k {:trigger FirstPassingAt(xs, p, k)} :: k <= i && FirstPassingAt(xs, p, k)
    decreases i
  {
    if exists j :: 0 <= j < i && p(xs[j]) {
      var j :| 0 <= j < i && p(xs[j]);
      LeastWitness(xs, p, j);
    } else {
      assert FirstPassingAt(xs, p, i);
    }
  }

  /** Some position passing a test gives a greatest such position. */
  lemma {:induction false} GreatestWitness<T>(xs: seq<T>, p: T -> bool, i: nat)
    requires i < |xs| && p(xs[i])
    ensures exists k {:trigger LastPassingAt(xs, p, k)} :: i <= k && LastPassingAt(xs, p, k)
    decreases |xs| - i
  {
    if exists j :: i < j < |xs| && p(xs[j]) {
      var j :| i < j < |xs| && p(xs[j]);
      GreatestWitness(xs, p, j);
    } else {
      assert LastPassingAt(xs, p, i);
    }
  }

  /** The first element a filter keeps is the first element passing the test. */
  lemma {:induction false} FilterFirst<T(!new)>(xs: seq<T>, p: T -> bool, k: nat)
    requires k < |xs| && p(xs[k])
    requires forall j :: 0 <= j < k ==> !p(xs[j])
    ensures |Filter(xs, p)| > 0 && Filter(xs, p)[0] == xs[k]
    decreases k
  {
    if k > 0 {
      assert !p(xs[0]);
      FilterFirst(xs[1..], p, k - 1);
    }
  }

  /** A filter keeps nothing exactly when no element passes; otherwise its first element is the
      earliest passing element and its last element the latest. */
  lemma {:induction false} FilterEnds<T(!new)>(xs: seq<T>, p: T -> bool)
    ensures |Filter(xs, p)| == 0 <==> forall i :: 0 <= i < |xs| ==> !p(xs[i])
    ensures |Filter(xs, p)| > 0 ==>
      exists i {:trigger FirstPassingAt(xs, p, i)} :: FirstPassingAt(xs, p, i) && Filter(xs, p)[0] == xs[i]
    ensures |Filter(xs, p)| > 0 ==>
      exists k {:trigger LastPassingAt(xs, p, k)} :: LastPassingAt(xs, p, k) && Filter(xs, p)[|Filter(xs, p)| - 1] == xs[k]
  {
    if exists i :: 0 <= i < |xs| && p(xs[i]) {
      var i :| 0 <= i < |xs| && p(xs[i]);
      LeastWitness(xs, p, i);
      var lo :| lo <= i && FirstPassingAt(xs, p, lo);
      FilterFirst(xs, p, lo);
      GreatestWitness(xs, p, i);
      var hi :| i <= hi && LastPassingAt(xs, p, hi);
      FilterLast(xs, p, hi);
    } else {
      FilterExtremes(xs, p);
    }
  }

  /** The last element a filter keeps is the last element passing the test. */
  lemma {:induction false} FilterLast<T(!new)>(xs: seq<T>, p: T -> bool, k: nat)
    requires k < |xs| && p(xs[k])
    requires forall j :: k < j < |xs| ==> !p(xs[j])
    ensures |Filter(xs, p)| > 0 && Filter(xs, p)[|Filter(xs, p)| - 1] == xs[k]
  {
    var pre, post := xs[..k + 1], xs[k + 1..];
    assert xs == pre + post;
    FilterAppend(pre, post, p);
    FilterExtremes(post, p);
    assert pre == pre[..k] + [xs[k]];
    FilterAppend(pre[..k], [xs[k]], p);
    assert Filter([xs[k]], p) == [xs[k]] by {
      assert [xs[k]][1..] == [];
    }
  }

  /** Filtering distributes over concatenation. */
  lemma {:induction false} FilterAppend<T(!new)>(xs: seq<T>, ys: seq<T>, p: T -> bool)
    ensures Filter(xs + ys, p) == Filter(xs, p) + Filter(ys, p)
  {
    if |xs| == 0 {
      assert xs + ys == ys;
    } else {
      FilterAppend(xs[1..], ys, p);
      assert (xs + ys)[0] == xs[0];
      assert (xs + ys)[1..] == xs[1..] + ys;
      SeqAssoc([xs[0]], Filter(xs[1..], p), Filter(ys, p));
    }
  }

  /** A filter every element passes keeps the sequence; one none passes empties it. */
  lemma {:induction false} FilterExtremes<T(!new)>(xs: seq<T>, p: T -> bool)
    ensures (forall i :: 0 <= i < |xs| ==> p(xs[i])) ==> Filter(xs, p) == xs
    ensures (forall i :: 0 <= i < |xs| ==> !p(xs[i])) ==> Filter(xs, p) == []
  {
    if |xs| > 0 {
      FilterExtremes(xs[1..], p);
      assert forall i :: 0 <= i < |xs[1..]| ==> xs[1..][i] == xs[i + 1];
      HeadTail(xs);
    }
  }

  /** Filtering by one test and then another keeps what passes both, in order. */
  lemma {:induction false} FilterBoth<T(!new)>(xs: seq<T>, p: T -> bool, q: T -> bool, pq: T -> bool)
    requires forall x :: pq(x) == (p(x) && q(x))
    ensures Filter(Filter(xs, p), q) == Filter(xs, pq)
  {
    if |xs| > 0 {
      FilterBoth(xs[1..], p, q, pq);
      if p(xs[0]) {
        var rest := Filter(xs[1..], p);
        assert ([xs[0]] + rest)[0] == xs[0] && ([xs[0]] + rest)[1..] == rest;
      }
    }
  }

  /** The test `y => y !== x`. */
  function Other<T(==)>(x: T): T -> bool {
    y => y != x
  }

  /** `xs.filter(y => y !== x)`. */
  function Without<T(==, !new)>(xs: seq<T>, x: T): (r: seq<T>)
    ensures x !in r
    ensures forall y :: y != x ==> (y in r <==> y in xs)
    ensures |r| <= |xs|
    ensures x !in xs ==> r == xs
  {
    if |xs| == 0 then []
    else if xs[0] == x then Without(xs[1..], x)
    else [xs[0]] + Without(xs[1..], x)
  }

  /** Removing `x` keeps every other element, in order and with its multiplicity. */
  lemma {:induction false} WithoutFilter<T(!new)>(xs: seq<T>, x: T)
    ensures Without(xs, x) == Filter(xs, Other(x))
    ensures multiset(Without(xs, x)) == multiset(xs)[x := 0]
  {
    if |xs| > 0 {
      WithoutFilter(xs[1..], x);
      HeadTail(xs);
    }
  }

  /** Removing an element just appended to a list that did not hold it gives the list back. */
  lemma {:induction false} WithoutAppended<T(!new)>(xs: seq<T>, x: T)
    requires x !in xs
    ensures Without(xs + [x], x) == xs
  {
    if |xs| > 0 {
      WithoutAppended(xs[1..], x);
      assert (xs + [x])[1..] == xs[1..] + [x];
    }
  }

  /** Number of occurrences of `x` in `xs`. */
  function Count<T(==)>(xs: seq<T>, x: T): nat {
    if |xs| == 0 then 0 else (if xs[0] == x then 1 else 0) + Count(xs[1..], x)
  }

  /** `blocks.flat()`. */
  function Flatten<T>(blocks: seq<seq<T>>): seq<T> {
    if |blocks| == 0 then [] else blocks[0] + Flatten(blocks[1..])
  }

  /** An element of the flattened blocks is an element of one of the blocks. */
  lemma {:induction false} FlattenMember<T>(blocks: seq<seq<T>>, x: T)
    ensures x in Flatten(blocks) <==> exists k :: 0 <= k < |blocks| && x in blocks[k]
  {
    if |blocks| > 0 {
      FlattenMember(blocks[1..], x);
      if x in Flatten(blocks[1..]) {
        var k :| 0 <= k < |blocks[1..]| && x in blocks[1..][k];
        assert x in blocks[k + 1];
      }
      if exists k :: 0 <= k < |blocks| && x in blocks[k] {
        var k :| 0 <= k < |blocks| && x in blocks[k];
        if k > 0 { assert blocks[1..][k - 1] == blocks[k]; }
      }
    }
  }

  lemma HeadTail<T>(s: seq<T>)
    requires |s| > 0
    ensures s == [s[0]] + s[1..]
  {
  }

  lemma SeqAssoc<T>(x: seq<T>, y: seq<T>, z: seq<T>)
    ensures x + y + z == x + (y + z)
  {
  }
}

=== FILE: meeting_details.dfy ===
/**
 The meeting details dialog (frontend/src/components/MeetingDetails.jsx): which controls it
 shows a user, and how it updates its copy of the meeting after the server accepted an RSVP,
 without fetching the meeting again.
 */
module MeetingDetails {
  import opened JsCore
  import opened Notifications
  import Meetings

  /** A populated user reference: the id and the name shown. */
  datatype Person = Person(id: Id, username: string)

  /** A populated entry of `rejected`. */
  datatype RejectionView = RejectionView(user: Person, message: string)

  /** The meeting as the dialog holds it, with its user references populated. */
  datatype MeetingView = MeetingView(
    creator: Person,
    invitees: seq<Person>,
    accepted: seq<Person>,
    rejected: seq<RejectionView>)

  /** The dialog's state: the meeting and the text of the rejection box. */
  datatype Details = Details(meeting: MeetingView, rejectMessage: string)

  /** The ids of a list of people, in order. */
  function Ids(ps: seq<Person>): (r: seq<Id>)
    ensures |r| == |ps|
    ensures forall i :: 0 <= i < |ps| ==> r[i] == ps[i].id
  {
    if |ps| == 0 then [] else [ps[0].id] + Ids(ps[1..])
  }

  /** The stored rejection an entry stands for. */
  function Unpopulate(rs: seq<RejectionView>): (r: seq<Meetings.Rejection>)
    ensures |r| == |rs|
    ensures forall i :: 0 <= i < |rs| ==> r[i] == Meetings.Rejection(rs[i].user.id, rs[i].message)
  {
    if |rs| == 0 then [] else [Meetings.Rejection(rs[0].user.id, rs[0].message)] + Unpopulate(rs[1..])
  }

  /** The dialog's copy shows the stored meeting: the same ids, in the same order. */
  predicate Shows(v: MeetingView, m: Meetings.Meeting) {
    v.creator.id == m.creator && Ids(v.invitees) == m.invitees && Ids(v.accepted) == m.accepted
      && Unpopulate(v.rejected) == m.rejected
  }

  /** `isInvitee`, `isAccepted`, `isRejected` and `isCreator`: the four roles are id tests on the lists and the creator. */
  predicate IsInvitee(v: MeetingView, u: Id) { exists i :: 0 <= i < |v.invitees| && v.invitees[i].id == u }
  predicate IsAccepted(v: MeetingView, u: Id) { exists i :: 0 <= i < |v.accepted| && v.accepted[i].id == u }
  predicate IsRejected(v: MeetingView, u: Id) { exists i :: 0 <= i < |v.rejected| && v.rejected[i].user.id == u }
  predicate IsCreator(v: MeetingView, u: Id) { v.creator.id == u }

  /** In the rendered view, the RSVP box is offered to an invitee who has not answered. */
  predicate ShowsRsvp(v: MeetingView, u: Id) {
    IsInvitee(v, u) && !IsAccepted(v, u) && !IsRejected(v, u)
  }

  /** In the rendered view, the cancel button is offered to the creator only. */
  predicate ShowsCancel(v: MeetingView, u: Id) {
    IsCreator(v, u)
  }

  /** The dialog's roles are the server's categories of the meeting it shows. */
  lemma RolesMatchServer(v: MeetingView, m: Meetings.Meeting, u: Id)
    requires Shows(v, m)
    ensures IsInvitee(v, u) <==> Meetings.IsPending(m, u)
    ensures IsAccepted(v, u) <==> Meetings.IsAccepted(m, u)
    ensures IsRejected(v, u) <==> Meetings.IsRejected(m, u)
    ensures IsCreator(v, u) <==> Meetings.IsCreator(m, u)
  {
    if Meetings.IsPending(m, u) {
      var i :| 0 <= i < |m.invitees| && m.invitees[i] == u;
      assert v.invitees[i].id == u;
    }
    if Meetings.IsAccepted(m, u) {
      var i :| 0 <= i < |m.accepted| && m.accepted[i] == u;
      assert v.accepted[i].id == u;
    }
    if IsInvitee(v, u) {
      var i :| 0 <= i < |v.invitees| && v.invitees[i].id == u;
      assert m.invitees[i] == u;
    }
    if IsAccepted(v, u) {
      var i :| 0 <= i < |v.accepted| && v.accepted[i].id == u;
      assert m.accepted[i] == u;
    }
    if IsRejected(v, u) {
      var i :| 0 <= i < |v.rejected| && v.rejected[i].user.id == u;
      assert m.rejected[i].user == u;
    }
    if Meetings.IsRejected(m, u) {
      var i :| 0 <= i < |m.rejected| && m.rejected[i].user == u;
      assert v.rejected[i].user.id == u;
    }
  }

  /** The test `u => u._id !== userId`. */
  function NotPerson(u: Id): Person -> bool {
    (p: Person) => p.id != u
  }

  /** `invitees.filter(u => u._id !== userId)`: dropping a person by id drops the id from the
      id list. */
  function DropPerson(ps: seq<Person>, u: Id): (r: seq<Person>)
    ensures forall i :: 0 <= i < |r| ==> r[i].id != u
    ensures r == Filter(ps, NotPerson(u))
    ensures Ids(r) == Without(Ids(ps), u)
  {
    if |ps| == 0 then []
    else
      assert Ids(ps)[1..] == Ids(ps[1..]);
      var rest := DropPerson(ps[1..], u);
      if ps[0].id == u then rest
      else
        assert Ids([ps[0]] + rest) == [ps[0].id] + Ids(rest);
        [ps[0]] + rest
  }

  /** The ids of a list with one more person at the end. */
  lemma IdsAppend(ps: seq<Person>, p: Person)
    ensures Ids(ps + [p]) == Ids(ps) + [p.id]
  {
    assert |Ids(ps + [p])| == |Ids(ps) + [p.id]|;
    forall i | 0 <= i < |ps| + 1 ensures Ids(ps + [p])[i] == (Ids(ps) + [p.id])[i] {
    }
  }

  /** `handleAccept`: after an accepted RSVP the user leaves the invitees and is appended to the
      accepted list as "You", without checking that they were there already. */
  function LocalAccept(d: Details, u: Id): (r: Details)
    ensures !IsInvitee(r.meeting, u) && IsAccepted(r.meeting, u)
    ensures r.meeting.accepted == d.meeting.accepted + [Person(u, "You")]
    ensures r.meeting.rejected == d.meeting.rejected && r.meeting.creator == d.meeting.creator
    ensures r.rejectMessage == d.rejectMessage
  {
    var v := d.meeting;
    var r := d.(meeting := v.(invitees := DropPerson(v.invitees, u), accepted := v.accepted + [Person(u, "You")]));
    assert r.meeting.accepted[|v.accepted|].id == u;
    r
  }

  /** `handleReject`: after an accepted rejection the user leaves the invitees, the rejection is
      appended with the message typed, and the box is cleared. */
  function LocalReject(d: Details, u: Id): (r: Details)
    ensures !IsInvitee(r.meeting, u) && IsRejected(r.meeting, u)
    ensures r.meeting.rejected == d.meeting.rejected + [RejectionView(Person(u, "You"), d.rejectMessage)]
    ensures r.meeting.accepted == d.meeting.accepted && r.meeting.creator == d.meeting.creator
    ensures r.rejectMessage == ""
  {
    var v := d.meeting;
    var rj := RejectionView(Person(u, "You"), d.rejectMessage);
    var r := Details(v.(invitees := DropPerson(v.invitees, u), rejected := v.rejected + [rj]), "");
    assert r.meeting.rejected[|v.rejected|].user.id == u;
    r
  }

  /** After either answer the RSVP box is gone. */
  lemma AnswerHidesRsvp(d: Details, u: Id)
    ensures !ShowsRsvp(LocalAccept(d, u).meeting, u)
    ensures !ShowsRsvp(LocalReject(d, u).meeting, u)
  {
  }

  /** The local accept shows what the server stored, as long as the user had not accepted
      before, which is the case whenever the RSVP box was offered. */
  lemma LocalAcceptMirrorsServer(d: Details, m: Meetings.Meeting, u: Id)
    requires Shows(d.meeting, m) && !Meetings.IsAccepted(m, u)
    ensures Shows(LocalAccept(d, u).meeting, Meetings.Accept(m, u))
  {
    IdsAppend(d.meeting.accepted, Person(u, "You"));
  }

  /** When the user had accepted already, the local copy lists them twice while the server
      keeps one entry: the two differ. */
  lemma LocalAcceptDuplicates(d: Details, m: Meetings.Meeting, u: Id)
    requires Shows(d.meeting, m) && Meetings.IsAccepted(m, u)
    ensures !Shows(LocalAccept(d, u).meeting, Meetings.Accept(m, u))
  {
    IdsAppend(d.meeting.accepted, Person(u, "You"));
    assert |Ids(LocalAccept(d, u).meeting.accepted)| == |m.accepted| + 1;
  }

  /** The local reject always shows what the server stored for the message sent. */
  lemma LocalRejectMirrorsServer(d: Details, m: Meetings.Meeting, u: Id)
    requires Shows(d.meeting, m)
    ensures Shows(LocalReject(d, u).meeting, Meetings.Reject(m, u, Some(d.rejectMessage)))
  {
    var rj := RejectionView(Person(u, "You"), d.rejectMessage);
    assert Unpopulate(d.meeting.rejected + [rj]) == Unpopulate(d.meeting.rejected) + [Meetings.Rejection(u, d.rejectMessage)];
  }
}

=== FILE: meeting_popup.dfy ===
/**
 The meeting creation dialog (frontend/src/components/MeetingPopup.jsx): choosing friends,
 checking the form, building the request the server's `createMeeting` receives, and the
 ten-second countdown that blocks a second submission.
 */
module MeetingPopup {
  import opened JsCore
  import opened Notifications
  import opened SlotLabel
  import Meetings

  /** A friend as the dropdown lists them. */
  datatype Friend = Friend(id: Id, username: string)

  /** The cooldown flag and the seconds left on the countdown. */
  datatype Cooldown = Cooldown(active: bool, timeLeft: int)

  /** The dialog's state. `startTime` and `endTime` are the values of the two time inputs. */
  datatype Form = Form(
    selected: seq<Id>,
    title: string,
    location: string,
    description: string,
    date: string,
    startTime: string,
    endTime: string,
    error: string,
    cooldown: Cooldown)

  /** No id is listed twice. */
  predicate Distinct(s: seq<Id>) {
    forall i, j :: 0 <= i < j < |s| ==> s[i] != s[j]
  }

  // ---------------------------------------------------------------------------
  // Choosing friends
  // ---------------------------------------------------------------------------

  /** `handleFriendSelect`: a chosen id is appended when it is non-empty and not chosen yet. */
  function Select(s: seq<Id>, id: Id): (r: seq<Id>)
    ensures forall x :: x in r <==> x in s || (x == id && id != "")
    ensures Distinct(s) ==> Distinct(r)
    ensures id != "" && id !in s ==> r == s + [id]
    ensures id == "" || id in s ==> r == s
  {
    if id != "" && id !in s then s + [id] else s
  }

  /** `handleRemoveFriend`: removing an id keeps every other id, in order. */
  function Remove(s: seq<Id>, id: Id): (r: seq<Id>)
    ensures id !in r
    ensures forall x :: x != id ==> (x in r <==> x in s)
    ensures id !in s ==> r == s
    ensures r == Filter(s, Other(id))
    ensures multiset(r) == multiset(s)[id := 0]
  {
    WithoutFilter(s, id);
    Without(s, id)
  }

  /** Removing what was just chosen gives the selection back. */
  lemma SelectRemove(s: seq<Id>, id: Id)
    requires id !in s
    ensures Remove(Select(s, id), id) == s
  {
    if id != "" {
      WithoutAppended(s, id);
    }
  }

  /** A subsequence of a duplicate-free list is duplicate-free: removing keeps the selection
      free of duplicates. */
  lemma {:induction false} RemoveDistinct(s: seq<Id>, id: Id)
    requires Distinct(s)
    ensures Distinct(Remove(s, id))
  {
    if |s| > 0 {
      assert Distinct(s[1..]) by {
        forall i, j | 0 <= i < j < |s[1..]| ensures s[1..][i] != s[1..][j] {
          assert s[1..][i] == s[i + 1] && s[1..][j] == s[j + 1];
        }
      }
      RemoveDistinct(s[1..], id);
      if s[0] != id {
        var t := Remove(s[1..], id);
        assert s[0] !in s[1..];
        assert s[0] !in t;
        assert Remove(s, id) == [s[0]] + t;
      }
    }
  }

  /** The rendered dropdown offers exactly the friends not chosen yet. */
  function Options(friends: seq<Friend>, selected: seq<Id>): (r: seq<Friend>)
    ensures forall f :: f in r <==> f in friends && f.id !in selected
  {
    Filter(friends, (f: Friend) => f.id !in selected)
  }

  /** Choosing an offered friend grows the selection by that friend and takes them off the
      dropdown; nobody else's offer changes. */
  lemma ChooseOffered(friends: seq<Friend>, selected: seq<Id>, f: Friend, g: Friend)
    requires f in Options(friends, selected) && f.id != ""
    ensures Select(selected, f.id) == selected + [f.id]
    ensures f !in Options(friends, Select(selected, f.id))
    ensures g.id != f.id ==> (g in Options(friends, Select(selected, f.id)) <==> g in Options(friends, selected))
  {
  }

  // ---------------------------------------------------------------------------
  // Submitting
  // ---------------------------------------------------------------------------

  /** In `handleSubmit`, the slot sent is the two times joined by " - ". */
  function TimeSlot(startTime: string, endTime: string): (r: string)
    ensures |r| == |startTime| + 3 + |endTime|
    ensures r[..|startTime|] == startTime && r[|startTime| + 3..] == endTime
  {
    startTime + " - " + endTime
  }

  /** `handleSubmit`'s completeness test: everything required is filled in. */
  predicate Filled(f: Form) {
    |f.selected| > 0 && f.location != "" && f.date != "" && f.startTime != "" && f.endTime != ""
  }

  /** The body of the create request: every field present, as typed. */
  function RequestOf(f: Form): (req: Meetings.CreateRequest)
    ensures req.friends == Some(f.selected) && req.location == Some(f.location)
    ensures req.date == Some(f.date) && req.timeSlot == Some(TimeSlot(f.startTime, f.endTime))
    ensures req.title == Some(f.title) && req.description == Some(f.description)
  {
    Meetings.CreateRequest(Some(f.selected), Some(f.location), Some(f.description), Some(f.date),
                           Some(TimeSlot(f.startTime, f.endTime)), Some(f.title))
  }

  const FillError: string := "Please fill all required fields"

  /** What a submission does to the form, and the request it sends, if any. */
  datatype Submission = Submission(form: Form, request: Option<Meetings.CreateRequest>)

  /** `handleSubmit`: during the cooldown nothing is sent (a toast is shown); an incomplete form
      gets the error; otherwise the request is sent. */
  function Submit(f: Form): (r: Submission)
    ensures r.request.Some? <==> !f.cooldown.active && Filled(f)
    ensures r.request.Some? ==> r.request.value == RequestOf(f) && r.form == f
    ensures f.cooldown.active ==> r.form == f
    ensures !f.cooldown.active && !Filled(f) ==> r.form == f.(error := FillError)
  {
    if f.cooldown.active then Submission(f, None)
    else if !Filled(f) then Submission(f.(error := FillError), None)
    else Submission(f, Some(RequestOf(f)))
  }

  /** A request the dialog sends passes the server's field check. */
  lemma SentPassesServerCheck(f: Form)
    requires Submit(f).request.Some?
    ensures !Meetings.MissingFields(Submit(f).request.value)
  {
  }

  /** From two time inputs in 24-hour form the server reads the end time back: the meeting
      expires at the end's hour and minute of the chosen day. */
  lemma TimeInputsExpire(f: Form, dayStart: int, h: nat, m: nat)
    requires Meetings.NoSpace(f.startTime) && Meetings.IsClock(f.endTime)
    requires h == HourValue(f.endTime[..2]) && m == HourValue(f.endTime[3..5])
    ensures Meetings.ComputeExpiresAt(Some(dayStart), RequestOf(f).timeSlot.value)
      == Success(Some(dayStart + h * 3600000 + m * 60000))
  {
    Meetings.ExpiresAtClock(dayStart, f.startTime, f.endTime, h, m);
  }

  /** `handleSubmit`: after the server accepted, the form is cleared and the countdown starts at
      ten seconds. */
  function Created(): (r: Form)
    ensures r.selected == [] && r.location == "" && r.date == "" && r.startTime == "" && r.endTime == ""
    ensures r.error == "" && r.cooldown == Cooldown(true, 10)
  {
    Form([], "", "", "", "", "", "", "", Cooldown(true, 10))
  }

  /** A submission right after a creation sends nothing. */
  lemma CreatedBlocks()
    ensures Submit(Created()).request.None?
  {
  }

  // ---------------------------------------------------------------------------
  // Countdown
  // ---------------------------------------------------------------------------

  /** The cooldown effect's interval: while the cooldown is on and time is left, each second counts down; the
      last second turns the cooldown off. Otherwise the interval is not running. */
  function Tick(c: Cooldown): (r: Cooldown)
    ensures !(c.active && c.timeLeft > 0) ==> r == c
    ensures c.active && c.timeLeft > 1 ==> r == Cooldown(true, c.timeLeft - 1)
    ensures c.active && c.timeLeft == 1 ==> r == Cooldown(false, 0)
  {
    if !(c.active && c.timeLeft > 0) then c
    else if c.timeLeft <= 1 then Cooldown(false, 0)
    else Cooldown(true, c.timeLeft - 1)
  }

  /** `k` seconds of the countdown. */
  function Ticks(c: Cooldown, k: nat): Cooldown
    decreases k
  {
    if k == 0 then c else Ticks(Tick(c), k - 1)
  }

  /** From `n` seconds the cooldown stays on for `n - 1` ticks and is off, at zero, after `n`;
      it then stays off. */
  lemma {:induction false} CountdownEnds(n: nat, k: nat)
    requires n > 0
    ensures k < n ==> Ticks(Cooldown(true, n), k) == Cooldown(true, n - k)
    ensures k >= n ==> Ticks(Cooldown(true, n), k) == Cooldown(false, 0)
  {
    if k > 0 {
      if n == 1 {
        OffStaysOff(k - 1);
      } else {
        CountdownEnds(n - 1, k - 1);
      }
    }
  }

  /** Once off at zero, the countdown does not move. */
  lemma {:induction false} OffStaysOff(k: nat)
    ensures Ticks(Cooldown(false, 0), k) == Cooldown(false, 0)
  {
    if k > 0 {
      OffStaysOff(k - 1);
    }
  }

  /** After a creation the dialog refuses to send for nine seconds, whatever is filled in
      meanwhile, and sends a complete form again from the tenth. */
  lemma CooldownLastsTenSeconds(f: Form, k: nat)
    requires f.cooldown == Ticks(Cooldown(true, 10), k)
    ensures k < 10 ==> Submit(f).request.None?
    ensures k >= 10 && Filled(f) ==> Submit(f).request == Some(RequestOf(f))
  {
    CountdownEnds(10, k);
  }
}

=== FILE: meetings.dfy ===
/**
 The meeting controller (backend/controllers/meetingController.js) over an in-memory store:
 the end-time computation, creation with its validation and ten-second cooldown, the
 accept and reject transitions on a meeting's lists, the creator-only cancel, the capped
 notifications each step sends, and the categorisation of a user's meetings.

 The clock is the parameter `now` (milliseconds), and the calendar day a meeting is on is
 the parameter `dayStart`: the instant of that day's local midnight, or `None` when the
 date does not parse.
 */
module Meetings {
  import opened JsCore
  import opened SlotLabel
  import opened Notifications

  /** An entry of `rejected`: the user and the message, which defaults to "". */
  datatype Rejection = Rejection(user: Id, message: string)

  /** A stored meeting. `expiresAt` is required by the schema, so a stored meeting has one. */
  datatype Meeting = Meeting(
    creator: Id,
    title: string,
    location: string,
    description: string,
    timeSlot: string,
    invitees: seq<Id>,
    accepted: seq<Id>,
    rejected: seq<Rejection>,
    expiresAt: int)

  /** The meetings collection. */
  type Store = map<Id, Meeting>

  /** Every user's notification list, by user id; a user missing here is not found. */
  type Inboxes = map<Id, seq<Notification>>

  // ---------------------------------------------------------------------------
  // End time
  // ---------------------------------------------------------------------------

  /** What `end.trim()` throws when the slot has no " - ". */
  const NoEndError: string := "Cannot read properties of undefined (reading 'trim')"

  /** `timeSlot.split(' - ')[1].trim()`: the second piece, so anything after a second
      " - " is ignored. */
  function EndText(timeSlot: string): (r: Result<string>)
    ensures r.Failure? <==> |SplitOn(timeSlot, " - ")| < 2
  {
    var pieces := SplitOn(timeSlot, " - ");
    if |pieces| < 2 then Failure(NoEndError) else Success(Trim(pieces[1]))
  }

  /** The end hour `computeExpiresAt` reads, with `parse` for `parseInt`: the number before the first
      ':', plus 12 when the word after the first space is "PM" and the hour is not 12, and 0
      for 12 "AM". */
  function EndHourWith(parse: string -> Option<int>, endTime: string): Option<int> {
    var ampm := Split(endTime, ' ');
    var pm := |ampm| > 1 && ampm[1] == "PM";
    var am := |ampm| > 1 && ampm[1] == "AM";
    match parse(Split(endTime, ':')[0])
    case None => None
    case Some(h) => Some(if pm && h != 12 then h + 12 else if am && h == 12 then 0 else h)
  }

  /** The number after the first ':'; `undefined` when there is none. */
  function EndMinutesWith(parse: string -> Option<int>, endTime: string): Option<int> {
    var hm := Split(endTime, ':');
    if |hm| < 2 then None else parse(hm[1])
  }

  /** `new Date(date)` then `setHours(hour, minutes, 0, 0)`: `None` for an Invalid Date (an
      unparsable date, hour or minutes), else that time on that day. `setHours` rolls an hour
      past 23 into the next day, as the sum does. */
  function SetHours(dayStart: Option<int>, hour: Option<int>, minutes: Option<int>): (r: Option<int>)
    ensures r.Some? <==> dayStart.Some? && hour.Some? && minutes.Some?
  {
    if dayStart.None? || hour.None? || minutes.None? then None
    else Some(dayStart.value + hour.value * 3600000 + minutes.value * 60000)
  }

  function ComputeExpiresAtWith(parse: string -> Option<int>, dayStart: Option<int>, timeSlot: string): (r: Result<Option<int>>)
    ensures r.Failure? <==> EndText(timeSlot).Failure?
  {
    match EndText(timeSlot)
    case Failure(e) => Failure(e)
    case Success(endTime) => Success(SetHours(dayStart, EndHourWith(parse, endTime), EndMinutesWith(parse, endTime)))
  }

  /** `computeExpiresAt(date, timeSlot)`: `Failure` when it throws, `Success(None)` for an
      Invalid Date. */
  function ComputeExpiresAt(dayStart: Option<int>, timeSlot: string): (r: Result<Option<int>>)
    ensures r.Failure? <==> |SplitOn(timeSlot, " - ")| < 2
    ensures r.Success? && r.value.Some? ==> dayStart.Some?
  {
    ComputeExpiresAtWith(ParseInt, dayStart, timeSlot)
  }

  /** Starts with "HH:MM". */
  predicate ClockPrefix(e: string) {
    |e| >= 5 && IsDigit(e[0]) && IsDigit(e[1]) && e[2] == ':' && IsDigit(e[3]) && IsDigit(e[4])
  }

  /** "HH:MM", the value of an `<input type="time">`. */
  predicate IsClock(e: string) {
    |e| == 5 && ClockPrefix(e)
  }

  /** "HH:MM AM" or "HH:MM PM". */
  predicate IsClock12(e: string) {
    |e| == 8 && ClockPrefix(e) && e[5] == ' ' && (e[6] == 'A' || e[6] == 'P') && e[7] == 'M'
  }

  predicate NoSpace(s: string) {
    forall i :: 0 <= i < |s| ==> s[i] != ' '
  }

  /** The end text of a slot whose start has no space is the text after " - ". */
  lemma EndTextAfterDash(start: string, e: string)
    requires NoSpace(start) && |e| > 0 && !IsSpace(e[0]) && !IsSpace(e[|e| - 1]) && !Includes(e, " - ")
    ensures EndText(start + " - " + e) == Success(e)
  {
    SplitOnFirst(start, " - ", e);
    SplitOnAbsent(e, " - ");
  }

  /** A string without spaces has no " - ". */
  lemma NoSpaceNoDash(e: string)
    requires NoSpace(e)
    ensures !Includes(e, " - ")
  {
    forall i | 0 <= i <= |e| ensures !OccursAt(e, i, " - ") {
      if i + 3 <= |e| {
        assert e[i..i + 3][0] == e[i];
      }
    }
  }

  /** "HH:MM AM|PM" has no " - ": its one space is followed by a letter. */
  lemma Clock12NoDash(e: string)
    requires IsClock12(e)
    ensures !Includes(e, " - ")
  {
    forall i | 0 <= i <= |e| ensures !OccursAt(e, i, " - ") {
      if i + 3 <= |e| {
        assert e[i..i + 3][0] == e[i] && e[i..i + 3][1] == e[i + 1];
      }
    }
  }

  /** The text before the first ':' of a clock is its two hour digits, and the text after
      it starts with the two minute digits. */
  lemma ClockColon(e: string)
    requires ClockPrefix(e) && forall i :: 5 <= i < |e| ==> e[i] != ':'
    ensures Split(e, ':') == [e[..2], e[3..]]
  {
    assert e == e[..2] + ":" + e[3..];
    SplitOnFirst(e[..2], ":", e[3..]);
    SplitOnNone(e[3..], ":");
  }

  /** How the computation cuts "HH:MM". */
  lemma ClockSplits(e: string)
    requires IsClock(e)
    ensures Split(e, ':') == [e[..2], e[3..]] && Split(e, ' ') == [e]
    ensures !Includes(e, " - ") && Trim(e) == e
  {
    ClockColon(e);
    assert NoSpace(e);
    SplitOnNone(e, " ");
    NoSpaceNoDash(e);
  }

  /** How the computation cuts "HH:MM AM|PM". */
  lemma Clock12Splits(e: string)
    requires IsClock12(e)
    ensures Split(e, ':') == [e[..2], e[3..]] && Split(e, ' ') == [e[..5], e[6..]]
    ensures !Includes(e, " - ") && Trim(e) == e
  {
    ClockColon(e);
    Clock12Space(e);
    Clock12NoDash(e);
  }

  /** The one space of "HH:MM AM|PM" separates the clock from the meridian. */
  lemma Clock12Space(e: string)
    requires IsClock12(e)
    ensures Split(e, ' ') == [e[..5], e[6..]]
  {
    var w := e[..5];
    assert e == w + " " + e[6..];
    assert NoSpace(w) by {
      forall i | 0 <= i < 5 ensures w[i] != ' ' {
        assert w[i] == e[i];
      }
    }
    SplitOnFirst(w, " ", e[6..]);
    SplitOnNone(e[6..], " ");
  }

  /** "HH:MM" ends at hour HH and minute MM, whatever reads the numbers. */
  lemma ExpiresAtClockWith(parse: string -> Option<int>, dayStart: int, start: string, e: string, h: int, m: int)
    requires NoSpace(start) && IsClock(e)
    requires parse(e[..2]) == Some(h) && parse(e[3..]) == Some(m)
    ensures ComputeExpiresAtWith(parse, Some(dayStart), start + " - " + e) == Success(Some(dayStart + h * 3600000 + m * 60000))
  {
    ClockBounded(e);
    EndTextAfterDash(start, e);
    ClockFields(parse, e, h, m);
  }

  /** A clock, 24- or 12-hour, begins and ends with a non-space and holds no " - ". */
  lemma ClockBounded(e: string)
    requires IsClock(e) || IsClock12(e)
    ensures |e| > 0 && !IsSpace(e[0]) && !IsSpace(e[|e| - 1]) && !Includes(e, " - ")
  {
    if IsClock(e) {
      assert NoSpace(e);
      NoSpaceNoDash(e);
    } else {
      Clock12NoDash(e);
    }
  }

  /** The hour and minute fields of "HH:MM". */
  lemma ClockFields(parse: string -> Option<int>, e: string, h: int, m: int)
    requires IsClock(e)
    requires parse(e[..2]) == Some(h) && parse(e[3..]) == Some(m)
    ensures EndHourWith(parse, e) == Some(h) && EndMinutesWith(parse, e) == Some(m)
  {
    ClockColon(e);
    assert NoSpace(e);
    SplitOnNone(e, " ");
  }

  /** "HH:MM AM|PM" ends at HH under the 12-hour rule and minute MM, whatever reads the
      numbers. */
  lemma ExpiresAtClock12With(parse: string -> Option<int>, dayStart: int, start: string, e: string, h: int, m: int)
    requires NoSpace(start) && IsClock12(e)
    requires parse(e[..2]) == Some(h) && parse(e[3..]) == Some(m)
    ensures ComputeExpiresAtWith(parse, Some(dayStart), start + " - " + e) ==
      Success(Some(dayStart + To24(h, e[6] == 'P') * 3600000 + m * 60000))
  {
    ClockBounded(e);
    EndTextAfterDash(start, e);
    Clock12Fields(parse, e, h, m);
  }

  /** The hour and minute fields of "HH:MM AM|PM". */
  lemma Clock12Fields(parse: string -> Option<int>, e: string, h: int, m: int)
    requires IsClock12(e)
    requires parse(e[..2]) == Some(h) && parse(e[3..]) == Some(m)
    ensures EndHourWith(parse, e) == Some(To24(h, e[6] == 'P')) && EndMinutesWith(parse, e) == Some(m)
  {
    ClockColon(e);
    Clock12Space(e);
    assert e[6..] == [e[6], 'M'];
  }

  /** `parseInt` reads a clock's hour digits. */
  lemma ClockHourDigits(e: string)
    requires ClockPrefix(e)
    ensures ParseInt(e[..2]) == Some(HourValue(e[..2]))
  {
    TwoDigits(e[..2]);
  }

  /** `parseInt` reads a clock's minute digits, ignoring a suffix after a space. */
  lemma ClockMinuteDigits(e: string)
    requires ClockPrefix(e) && (|e| == 5 || e[5] == ' ')
    ensures ParseInt(e[3..]) == Some(HourValue(e[3..5]))
  {
    var ds := e[3..5];
    assert AllDigits(ds);
    assert e[3..] == ds + e[5..];
    ParseDigits(ds, e[5..]);
    TwoDigitsValue(ds);
  }

  /** A 24-hour end "HH:MM", whose fields read as the hour `h` and the minute `m`, expires at
      that hour and minute of the day. */
  lemma ExpiresAtClock(dayStart: int, start: string, e: string, h: nat, m: nat)
    requires NoSpace(start) && IsClock(e) && h == HourValue(e[..2]) && m == HourValue(e[3..5])
    ensures ComputeExpiresAt(Some(dayStart), start + " - " + e) == Success(Some(dayStart + h * 3600000 + m * 60000))
  {
    ClockHourDigits(e);
    ClockMinuteDigits(e);
    ExpiresAtClockWith(ParseInt, dayStart, start, e, h, m);
  }

  /** A 12-hour end "HH:MM AM|PM" expires at that time read with the 12-hour rule, which
      turns 12 AM into hour 0 and keeps 12 PM at 12. */
  lemma ExpiresAtClock12(dayStart: int, start: string, e: string, h: nat, m: nat)
    requires NoSpace(start) && IsClock12(e) && h == HourValue(e[..2]) && m == HourValue(e[3..5])
    ensures ComputeExpiresAt(Some(dayStart), start + " - " + e)
      == Success(Some(dayStart + To24(h, e[6] == 'P') * 3600000 + m * 60000))
  {
    ClockHourDigits(e);
    ClockMinuteDigits(e);
    ExpiresAtClock12With(ParseInt, dayStart, start, e, h, m);
  }

  /** A slot without " - " makes the computation throw. */
  lemma NoDashThrows(dayStart: Option<int>, timeSlot: string)
    requires forall i :: 0 <= i < |timeSlot| ==> timeSlot[i] != ' '
    ensures ComputeExpiresAt(dayStart, timeSlot) == Failure(NoEndError)
  {
    SplitOnNone(timeSlot, " - ");
  }

  // ---------------------------------------------------------------------------
  // Notifications
  // ---------------------------------------------------------------------------

  /** `title || 'Untitled Meeting'`. */
  function DisplayTitle(title: Option<string>): (r: string)
    ensures r != ""
    ensures title.Some? && title.value != "" ==> r == title.value
  {
    if title.None? || title.value == "" then "Untitled Meeting" else title.value
  }

  /** Push `n` onto the list of every id in `ids` that has one, in order; an id listed
      twice is notified twice. */
  function NotifyEach(inboxes: Inboxes, ids: seq<Id>, n: Notification): (r: Inboxes)
    ensures r.Keys == inboxes.Keys
    ensures forall u :: u in inboxes && u !in ids ==> r[u] == inboxes[u]
    decreases |ids|
  {
    if |ids| == 0 then inboxes
    else
      var next := if ids[0] in inboxes then inboxes[ids[0] := PushCapped(inboxes[ids[0]], n)] else inboxes;
      NotifyEach(next, ids[1..], n)
  }

  /** `n` repeated `k` times. */
  function Repeat(n: Notification, k: nat): (r: seq<Notification>)
    ensures |r| == k && forall i :: 0 <= i < k ==> r[i] == n
  {
    if k == 0 then [] else [n] + Repeat(n, k - 1)
  }

  /** Each user's list receives the entry once per time the user is listed, newest first
      and capped like any push. */
  lemma {:induction false} NotifyEachSpec(inboxes: Inboxes, ids: seq<Id>, n: Notification, u: Id)
    requires u in inboxes
    ensures NotifyEach(inboxes, ids, n)[u] == PushAll(inboxes[u], Repeat(n, Count(ids, u)))
    decreases |ids|
  {
    if |ids| > 0 {
      var next := if ids[0] in inboxes then inboxes[ids[0] := PushCapped(inboxes[ids[0]], n)] else inboxes;
      NotifyEachSpec(next, ids[1..], n, u);
      if ids[0] == u {
        assert Repeat(n, Count(ids, u)) == [n] + Repeat(n, Count(ids[1..], u));
      }
    }
  }

  /** A user listed once receives the entry at the head of the list, the older entries
      following within the cap. */
  lemma NotifyOnce(inboxes: Inboxes, ids: seq<Id>, n: Notification, u: Id)
    requires u in inboxes && Count(ids, u) == 1
    ensures NotifyEach(inboxes, ids, n)[u] == PushCapped(inboxes[u], n)
  {
    NotifyEachSpec(inboxes, ids, n, u);
    assert Repeat(n, 1) == [n];
  }

  // ---------------------------------------------------------------------------
  // Creation
  // ---------------------------------------------------------------------------

  /** The body of a create request; absent fields are `None`. */
  datatype CreateRequest = CreateRequest(
    friends: Option<seq<Id>>,
    location: Option<string>,
    description: Option<string>,
    date: Option<string>,
    timeSlot: Option<string>,
    title: Option<string>)

  /** `createMeeting`'s 400 check for missing fields. */
  predicate MissingFields(req: CreateRequest) {
    req.friends.None? || |req.friends.value| == 0 || !Truthy(req.location) || !Truthy(req.date)
      || !Truthy(req.timeSlot)
  }

  /** When each creator last created a meeting (`lastCreated`). */
  type Cooldowns = map<Id, int>

  /** `lastCreated[c] && now - lastCreated[c] < 10000`: a stored 0 is falsy. */
  predicate CoolingDown(last: Cooldowns, creator: Id, now: int) {
    creator in last && last[creator] != 0 && now - last[creator] < 10000
  }

  /** The state the handler reads and writes, and the status it answers with. */
  datatype Server = Server(last: Cooldowns, meetings: Store, inboxes: Inboxes)
  datatype Reply = Reply(status: int, server: Server)

  /** The stored title: the schema's default fills in a missing one. */
  function StoredTitle(title: Option<string>): string {
    title.GetOr("Untitled Meeting")
  }

  function InvitationText(creatorName: string, title: Option<string>): string {
    "You have a meeting invitation from " + creatorName + ": " + DisplayTitle(title)
  }

  /** `createMeeting`: validation, then the cooldown, then the timestamp, then the end time
      (a throw or an Invalid Date both end in 500), then the meeting stored under `id` and an
      invitation pushed to each invitee that exists. `dayStart` is what the date reads as. */
  function CreateMeeting(s: Server, req: CreateRequest, creator: Id, creatorName: string, id: Id,
                         now: int, dayStart: Option<int>): (r: Reply)
    ensures MissingFields(req) ==> r == Reply(400, s)
    ensures !MissingFields(req) && CoolingDown(s.last, creator, now) ==> r == Reply(429, s)
    ensures !MissingFields(req) && !CoolingDown(s.last, creator, now) ==>
      r.server.last == s.last[creator := now]
    ensures r.status == 201 ==> (id in r.server.meetings && r.server.meetings[id].creator == creator
      && r.server.meetings[id].invitees == req.friends.value
      && r.server.meetings[id].accepted == [] && r.server.meetings[id].rejected == [])
    ensures r.status != 201 ==> r.server.meetings == s.meetings && r.server.inboxes == s.inboxes
    ensures !MissingFields(req) && !CoolingDown(s.last, creator, now) ==>
      (r.status == 500 <==> (ComputeExpiresAt(dayStart, req.timeSlot.value).Failure?
        || ComputeExpiresAt(dayStart, req.timeSlot.value).value.None?))
    ensures r.status in {400, 429, 500, 201}
    ensures r.status == 201 ==> (r.server.meetings == s.meetings[id := r.server.meetings[id]]
      && Some(r.server.meetings[id].expiresAt) == ComputeExpiresAt(dayStart, req.timeSlot.value).value
      && r.server.meetings[id].location == req.location.value
      && r.server.meetings[id].timeSlot == req.timeSlot.value
      && r.server.meetings[id].title == StoredTitle(req.title)
      && r.server.meetings[id].description == req.description.GetOr(""))
    ensures r.status == 201 ==>
      r.server.inboxes == NotifyEach(s.inboxes, req.friends.value, Fresh(InvitationText(creatorName, req.title), creator, Some(id)))
  {
    if MissingFields(req) then Reply(400, s)
    else if CoolingDown(s.last, creator, now) then Reply(429, s)
    else
      var stamped := s.(last := s.last[creator := now]);
      match ComputeExpiresAt(dayStart, req.timeSlot.value)
      case Failure(_) => Reply(500, stamped)
      case Success(None) => Reply(500, stamped)
      case Success(Some(expires)) =>
        var m := Meeting(creator, StoredTitle(req.title), req.location.value, req.description.GetOr(""),
                         req.timeSlot.value, req.friends.value, [], [], expires);
        var n := Fresh(InvitationText(creatorName, req.title), creator, Some(id));
        Reply(201, stamped.(meetings := s.meetings[id := m], inboxes := NotifyEach(s.inboxes, req.friends.value, n)))
  }

  /** Two creations by one creator less than ten seconds apart: the second gets 429 and the
      timestamp stays at the first, so waiting is counted from the first. */
  lemma CooldownBlocksSecond(s: Server, req1: CreateRequest, req2: CreateRequest, creator: Id,
                             name: string, id1: Id, id2: Id, t1: int, t2: int, d1: Option<int>, d2: Option<int>)
    requires !MissingFields(req1) && !MissingFields(req2) && !CoolingDown(s.last, creator, t1)
    requires t1 != 0 && t1 <= t2 < t1 + 10000
    ensures CreateMeeting(CreateMeeting(s, req1, creator, name, id1, t1, d1).server, req2, creator, name, id2, t2, d2)
      == Reply(429, CreateMeeting(s, req1, creator, name, id1, t1, d1).server)
    ensures CreateMeeting(s, req1, creator, name, id1, t1, d1).server.last[creator] == t1
  {
  }

  /** The creation succeeds whenever the request is complete, the creator is not cooling
      down and the end time is valid; invitations reach the listed invitees only. */
  lemma CreateSucceeds(s: Server, req: CreateRequest, creator: Id, name: string, id: Id, now: int,
                       dayStart: Option<int>, u: Id)
    requires !MissingFields(req) && !CoolingDown(s.last, creator, now)
    requires ComputeExpiresAt(dayStart, req.timeSlot.value).Success?
    requires ComputeExpiresAt(dayStart, req.timeSlot.value).value.Some?
    requires u in s.inboxes
    ensures CreateMeeting(s, req, creator, name, id, now, dayStart).status == 201
    ensures CreateMeeting(s, req, creator, name, id, now, dayStart).server.inboxes[u] ==
      PushAll(s.inboxes[u], Repeat(Fresh(InvitationText(name, req.title), creator, Some(id)), Count(req.friends.value, u)))
  {
    NotifyEachSpec(s.inboxes, req.friends.value, Fresh(InvitationText(name, req.title), creator, Some(id)), u);
  }

  // ---------------------------------------------------------------------------
  // Accept and reject
  // ---------------------------------------------------------------------------

  /** `acceptMeeting`'s update: drop every occurrence from `invitees`, add to `accepted` unless there. */
  function Accept(m: Meeting, u: Id): (r: Meeting)
    ensures u !in r.invitees && u in r.accepted
    ensures forall v :: v != u ==> (v in r.invitees <==> v in m.invitees)
    ensures r.rejected == m.rejected && r.creator == m.creator && r.expiresAt == m.expiresAt
    ensures Count(r.accepted, u) == if u in m.accepted then Count(m.accepted, u) else 1
  {
    if u in m.accepted then m.(invitees := Without(m.invitees, u))
    else
      CountAppend(m.accepted, u, u);
      CountAbsent(m.accepted, u);
      m.(invitees := Without(m.invitees, u), accepted := m.accepted + [u])
  }

  lemma {:induction false} CountAppend(xs: seq<Id>, y: Id, x: Id)
    ensures Count(xs + [y], x) == Count(xs, x) + (if y == x then 1 else 0)
    decreases |xs|
  {
    if |xs| == 0 {
      assert xs + [y] == [y];
    } else {
      assert (xs + [y])[1..] == xs[1..] + [y];
      CountAppend(xs[1..], y, x);
    }
  }

  lemma {:induction false} CountAbsent(xs: seq<Id>, x: Id)
    ensures x !in xs <==> Count(xs, x) == 0
    decreases |xs|
  {
    if |xs| > 0 {
      CountAbsent(xs[1..], x);
      assert x in xs <==> xs[0] == x || x in xs[1..] by { assert xs == [xs[0]] + xs[1..]; }
    }
  }

  /** Accepting twice is accepting once. */
  lemma AcceptIdempotent(m: Meeting, u: Id)
    ensures Accept(Accept(m, u), u) == Accept(m, u)
  {
  }

  /** `rejectMeeting`'s update: drop from `invitees` and append to `rejected` on every call. */
  function Reject(m: Meeting, u: Id, message: Option<string>): (r: Meeting)
    ensures u !in r.invitees
    ensures forall v :: v != u ==> (v in r.invitees <==> v in m.invitees)
    ensures |r.rejected| == |m.rejected| + 1 && r.rejected[..|m.rejected|] == m.rejected
    ensures r.rejected[|m.rejected|] == Rejection(u, message.GetOr(""))
    ensures r.accepted == m.accepted && r.creator == m.creator && r.expiresAt == m.expiresAt
  {
    m.(invitees := Without(m.invitees, u), rejected := m.rejected + [Rejection(u, message.GetOr(""))])
  }

  function AcceptedText(name: string, title: string): string {
    name + " accepted your meeting: " + DisplayTitle(Some(title))
  }

  function RejectedText(name: string, title: string, message: Option<string>): string {
    name + " rejected your meeting: " + DisplayTitle(Some(title))
      + (if Truthy(message) then " - " + message.value else "")
  }

  /** Push `n` to `u`'s list when `u` exists. */
  function NotifyOne(inboxes: Inboxes, u: Id, n: Notification): (r: Inboxes)
    ensures r.Keys == inboxes.Keys
    ensures u in inboxes ==> r[u] == PushCapped(inboxes[u], n)
    ensures forall v :: v in inboxes && v != u ==> r[v] == inboxes[v]
  {
    if u in inboxes then inboxes[u := PushCapped(inboxes[u], n)] else inboxes
  }

  /** `acceptMeeting`: 404 for an unknown meeting; otherwise the transition, saved, and a
      notice to the creator. */
  function AcceptMeeting(s: Server, id: Id, u: Id, name: string): (r: Reply)
    ensures id !in s.meetings <==> r == Reply(404, s)
    ensures id in s.meetings ==> (r.status == 200 && r.server.meetings == s.meetings[id := Accept(s.meetings[id], u)]
      && r.server.last == s.last)
    ensures id in s.meetings ==> (r.server.inboxes ==
      NotifyOne(s.inboxes, s.meetings[id].creator, Fresh(AcceptedText(name, s.meetings[id].title), u, None)))
  {
    if id !in s.meetings then Reply(404, s)
    else
      var m := s.meetings[id];
      Reply(200, s.(meetings := s.meetings[id := Accept(m, u)],
                    inboxes := NotifyOne(s.inboxes, m.creator, Fresh(AcceptedText(name, m.title), u, None))))
  }

  /** `rejectMeeting`: 404 for an unknown meeting; otherwise the transition, saved, and a
      notice to the creator carrying the message when there is one. */
  function RejectMeeting(s: Server, id: Id, u: Id, name: string, message: Option<string>): (r: Reply)
    ensures id !in s.meetings <==> r == Reply(404, s)
    ensures id in s.meetings ==> (r.status == 200
      && r.server.meetings == s.meetings[id := Reject(s.meetings[id], u, message)] && r.server.last == s.last)
    ensures id in s.meetings ==> (r.server.inboxes ==
      NotifyOne(s.inboxes, s.meetings[id].creator, Fresh(RejectedText(name, s.meetings[id].title, message), u, None)))
  {
    if id !in s.meetings then Reply(404, s)
    else
      var m := s.meetings[id];
      Reply(200, s.(meetings := s.meetings[id := Reject(m, u, message)],
                    inboxes := NotifyOne(s.inboxes, m.creator, Fresh(RejectedText(name, m.title, message), u, None))))
  }

  // ---------------------------------------------------------------------------
  // Cancel
  // ---------------------------------------------------------------------------

  /** `rejected.map(r => r.user)`. */
  function RejectedUsers(rs: seq<Rejection>): (r: seq<Id>)
    ensures |r| == |rs| && forall i :: 0 <= i < |rs| ==> r[i] == rs[i].user
  {
    if |rs| == 0 then [] else [rs[0].user] + RejectedUsers(rs[1..])
  }

  /** The participants `deleteMeeting` notifies: everyone the meeting lists, in list order, duplicates kept. */
  function Participants(m: Meeting): (r: seq<Id>)
    ensures forall v :: v in r <==> (v in m.invitees || v in m.accepted
      || exists i :: 0 <= i < |m.rejected| && m.rejected[i].user == v)
  {
    var users := RejectedUsers(m.rejected);
    assert forall v :: v in users <==> exists i :: 0 <= i < |m.rejected| && m.rejected[i].user == v;
    m.invitees + m.accepted + users
  }

  function CanceledText(name: string, title: string): string {
    name + " canceled the meeting: " + DisplayTitle(Some(title))
  }

  /** `deleteMeeting`: 404 for an unknown meeting, 403 for anyone but the creator; the
      creator's cancel notifies every participant and removes the meeting. */
  function CancelMeeting(s: Server, id: Id, u: Id, name: string): (r: Reply)
    ensures id !in s.meetings ==> r == Reply(404, s)
    ensures id in s.meetings && s.meetings[id].creator != u ==> r == Reply(403, s)
    ensures id in s.meetings && s.meetings[id].creator == u ==> (r.status == 200
      && r.server.meetings == s.meetings - {id} && r.server.last == s.last)
    ensures id in s.meetings && s.meetings[id].creator == u ==> (r.server.inboxes ==
      NotifyEach(s.inboxes, Participants(s.meetings[id]), Fresh(CanceledText(name, s.meetings[id].title), u, None)))
  {
    if id !in s.meetings then Reply(404, s)
    else
      var m := s.meetings[id];
      if m.creator != u then Reply(403, s)
      else
        var n := Fresh(CanceledText(name, m.title), u, None);
        Reply(200, s.(meetings := s.meetings - {id}, inboxes := NotifyEach(s.inboxes, Participants(m), n)))
  }

  /** Only the creator's cancel changes anything, and then every participant with a list,
      and nobody else, receives the cancellation. */
  lemma CancelNotifies(s: Server, id: Id, u: Id, name: string, v: Id)
    requires id in s.meetings && s.meetings[id].creator == u && v in s.inboxes
    ensures v !in Participants(s.meetings[id]) ==> CancelMeeting(s, id, u, name).server.inboxes[v] == s.inboxes[v]
    ensures v in Participants(s.meetings[id]) ==> (|CancelMeeting(s, id, u, name).server.inboxes[v]| > 0 &&
      CancelMeeting(s, id, u, name).server.inboxes[v][0] == Fresh(CanceledText(name, s.meetings[id].title), u, None))
  {
    var n := Fresh(CanceledText(name, s.meetings[id].title), u, None);
    var ps := Participants(s.meetings[id]);
    NotifyEachSpec(s.inboxes, ps, n, v);
    if v in ps {
      CountAbsent(ps, v);
      var k := Count(ps, v);
      PushAllHead(s.inboxes[v], Repeat(n, k));
    }
  }

  // ---------------------------------------------------------------------------
  // Listing
  // ---------------------------------------------------------------------------

  predicate IsCreator(m: Meeting, u: Id) { m.creator == u }
  predicate IsPending(m: Meeting, u: Id) { u in m.invitees }
  predicate IsAccepted(m: Meeting, u: Id) { u in m.accepted }
  predicate IsRejected(m: Meeting, u: Id) { exists i :: 0 <= i < |m.rejected| && m.rejected[i].user == u }

  /** The query of `getMyMeetings`: the user is involved and the meeting has not expired. */
  predicate Visible(m: Meeting, u: Id, now: int) {
    (IsCreator(m, u) || IsPending(m, u) || IsAccepted(m, u) || IsRejected(m, u)) && m.expiresAt > now
  }

  datatype Listing = Listing(created: seq<Meeting>, pending: seq<Meeting>, accepted: seq<Meeting>, rejected: seq<Meeting>)

  /** `getMyMeetings`: the visible meetings, in store order, filtered four ways. */
  function MyMeetings(ms: seq<Meeting>, u: Id, now: int): (r: Listing)
    ensures forall m :: m in r.created <==> m in ms && Visible(m, u, now) && IsCreator(m, u)
    ensures forall m :: m in r.pending <==> m in ms && Visible(m, u, now) && IsPending(m, u)
    ensures forall m :: m in r.accepted <==> m in ms && Visible(m, u, now) && IsAccepted(m, u)
    ensures forall m :: m in r.rejected <==> m in ms && Visible(m, u, now) && IsRejected(m, u)
  {
    var visible := Filter(ms, (m: Meeting) => Visible(m, u, now));
    Listing(Filter(visible, (m: Meeting) => IsCreator(m, u)), Filter(visible, (m: Meeting) => IsPending(m, u)),
            Filter(visible, (m: Meeting) => IsAccepted(m, u)), Filter(visible, (m: Meeting) => IsRejected(m, u)))
  }

  /** A meeting the query returns lands in at least one of the four lists. */
  lemma ListedSomewhere(ms: seq<Meeting>, u: Id, now: int, m: Meeting)
    requires m in ms && Visible(m, u, now)
    ensures var l := MyMeetings(ms, u, now); m in l.created || m in l.pending || m in l.accepted || m in l.rejected
  {
  }

  /** Accepting moves an invitation out of the pending list into the accepted list. */
  lemma AcceptMovesListing(m: Meeting, u: Id, now: int)
    requires m.expiresAt > now
    ensures var l := MyMeetings([Accept(m, u)], u, now); Accept(m, u) !in l.pending && Accept(m, u) in l.accepted
  {
  }
}

=== FILE: navbar.dfy ===
/**
 The navigation bar (frontend/src/components/Navbar.jsx): the relationship button on another
 user's card and the endpoint it calls, the notification badge, marking a notification read
 locally, and the search box.
 */
module Navbar {
  import opened JsCore
  import opened Notifications
  import Users

  // ---------------------------------------------------------------------------
  // Relationship button
  // ---------------------------------------------------------------------------

  /** The four buttons a user card can show. */
  datatype Button = Unfriend | Cancel | Accept | SendRequest

  /** What a button calls: the friend-request toggle, or an accepting answer. */
  datatype Call = Toggle(targetId: Id) | Respond(targetId: Id, result: bool)

  /** The search result's button: the first that applies of friends (the viewer's list), a request sent
      (the target's pending list), a request received (the viewer's pending list), else
      a new request. */
  function ButtonFor(viewerId: Id, viewer: Users.User, targetId: Id, target: Users.User): (b: Button)
    ensures b == Unfriend <==> targetId in viewer.friends
    ensures b == Cancel <==> targetId !in viewer.friends && viewerId in target.pending
    ensures b == Accept <==> (targetId !in viewer.friends && viewerId !in target.pending
      && targetId in viewer.pending)
    ensures b == SendRequest <==> (targetId !in viewer.friends && viewerId !in target.pending
      && targetId !in viewer.pending)
  {
    if targetId in viewer.friends then Unfriend
    else if viewerId in target.pending then Cancel
    else if targetId in viewer.pending then Accept
    else SendRequest
  }

  /** Unfriend, Cancel and Send Request all call the toggle; Accept answers `true`. */
  function CallOf(b: Button, targetId: Id): (c: Call)
    ensures c.targetId == targetId
    ensures c.Respond? <==> b == Accept
    ensures c.Respond? ==> c.result
  {
    if b == Accept then Respond(targetId, true) else Toggle(targetId)
  }

  /** What the server does with a call from the viewer. */
  function Perform(db: Users.Db, viewerId: Id, c: Call): Users.Outcome {
    match c
    case Toggle(t) => Users.SendFriendRequest(db, viewerId, t)
    case Respond(t, result) => Users.AcceptRejectRequest(db, viewerId, t, Some(result))
  }

  /** The server's answer to a button's call, while the card shows the stored records:
      the button's label names the branch the server takes, and after any of them the pair
      is in the state the label promised. */
  lemma ButtonMatchesServer(db: Users.Db, viewerId: Id, targetId: Id)
    requires viewerId != targetId && viewerId in db && targetId in db
    ensures var b := ButtonFor(viewerId, db[viewerId], targetId, db[targetId]);
      var r := Perform(db, viewerId, CallOf(b, targetId));
      r.status == 200
      && (b == Unfriend ==> r.message == "Removed from friends" && targetId !in r.db[viewerId].friends)
      && (b == Cancel ==> r.message == "Friend request canceled" && viewerId !in r.db[targetId].pending)
      && (b == Accept ==> (r.message == "Friend added successfully" && targetId in r.db[viewerId].friends
            && viewerId in r.db[targetId].friends && targetId !in r.db[viewerId].pending))
      && (b == SendRequest ==> r.message == "Friend request sent" && viewerId in r.db[targetId].pending)
  {
    var b := ButtonFor(viewerId, db[viewerId], targetId, db[targetId]);
    if b == Unfriend {
      Users.UnfriendBoth(db, viewerId, targetId);
    } else if b == Cancel {
      Users.CancelRequest(db, viewerId, targetId);
    } else if b == Accept {
      Users.AcceptAppends(db, viewerId, targetId, Some(true));
    } else {
      Users.SendRequest(db, viewerId, targetId);
    }
  }

  /** The search results can include the viewer, whose own card never offers Accept: its
      button calls the toggle, which refuses a request to oneself with 400 and changes
      nothing. */
  lemma SelfCardRefused(db: Users.Db, viewerId: Id)
    requires viewerId in db
    ensures var b := ButtonFor(viewerId, db[viewerId], viewerId, db[viewerId]);
      var r := Perform(db, viewerId, CallOf(b, viewerId));
      b != Accept && r.status == 400 && r.message == "You cannot send request to yourself" && r.db == db
  {
  }

  // ---------------------------------------------------------------------------
  // Notifications
  // ---------------------------------------------------------------------------

  predicate Unread(n: Notification) { !n.read }

  /** The bell's badge, shown when some entry is unread, with the number of unread
      entries. */
  function Badge(list: seq<Notification>): (b: Option<nat>)
    ensures b.Some? <==> HasUnread(list)
  {
    if HasUnread(list) then Some(|Filter(list, Unread)|) else None
  }

  /** The filtered length is the unread count. */
  lemma {:induction false} FilterUnreadCount(list: seq<Notification>)
    ensures |Filter(list, Unread)| == UnreadCount(list)
  {
    if |list| > 0 {
      FilterUnreadCount(list[1..]);
    }
  }

  /** A shown badge counts the unread entries and is never zero. */
  lemma BadgeCounts(list: seq<Notification>)
    requires Badge(list).Some?
    ensures Badge(list).value == UnreadCount(list) > 0
  {
    FilterUnreadCount(list);
    BadgeIffCount(list);
  }

  /** `markAsRead`: the row's index is marked read in the local copy once the request
      returned; the index comes from the rendered list, so it is in range. */
  function LocalMarkRead(list: seq<Notification>, i: nat): (r: seq<Notification>)
    requires i < |list|
    ensures |r| == |list| && r[i].read
    ensures forall j :: 0 <= j < |list| && j != i ==> r[j] == list[j]
  {
    SetRead(list, i)
  }

  /** `${index}` in the route reads back as the index. */
  lemma IndexRoundTrip(i: nat)
    ensures ParseInt(NatToString(i)) == Some(i)
  {
    ParseDigits(NatToString(i), "");
    assert NatToString(i) + "" == NatToString(i);
  }

  /** The local copy after marking row `i` is the list the server stored for that request. */
  lemma LocalMatchesServer(db: Users.Db, u: Id, i: nat)
    requires u in db && i < |db[u].notifications|
    ensures Users.MarkNotificationAsRead(db, u, NatToString(i)).status == 200
    ensures Users.MarkNotificationAsRead(db, u, NatToString(i)).db[u].notifications
      == LocalMarkRead(db[u].notifications, i)
  {
    IndexRoundTrip(i);
  }

  // ---------------------------------------------------------------------------
  // Search box
  // ---------------------------------------------------------------------------

  /** Whether the box is open, the term typed and the results shown. */
  datatype Search = Search(open: bool, term: string, results: seq<Id>)

  /** `toggleSearch`: the box opens or closes, and the term and results are cleared. */
  function ToggleSearch(s: Search): (r: Search)
    ensures r.open == !s.open && r.term == "" && r.results == []
  {
    Search(!s.open, "", [])
  }

  /** Toggling twice returns the box to where it was, emptied. */
  lemma ToggleTwiceEmpties(s: Search)
    ensures ToggleSearch(ToggleSearch(s)) == Search(s.open, "", [])
  {
  }

  /** A change of the term, and the query it sends, if any. */
  datatype SearchStep = SearchStep(state: Search, query: Option<string>)

  /** `handleSearchChange`: the term is stored; a blank term clears the results and sends nothing,
      any other term is sent as typed (the results arrive later). */
  function SearchChange(s: Search, value: string): (r: SearchStep)
    ensures r.state.term == value && r.state.open == s.open
    ensures r.query.None? <==> Trim(value) == ""
    ensures r.query.Some? ==> r.query.value == value && r.state.results == s.results
    ensures r.query.None? ==> r.state.results == []
  {
    if |Trim(value)| == 0 then SearchStep(s.(term := value, results := []), None)
    else SearchStep(s.(term := value), Some(value))
  }
}

=== FILE: notifications.dfy ===
/**
 A user's notification list as the server keeps it (backend/models/userModel.js) and as the
 navigation bar shows it: new entries go to the front and only the ten newest are kept,
 one entry can be marked read by its index, and the badge counts the unread entries.
 */
module Notifications {
  import opened JsCore

  /** A user or meeting id, compared as its string form. */
  type Id = string

  /** One entry of `notifications`; `meetingId` defaults to `null`, `read` to `false`. The
      timestamp is left out. */
  datatype Notification = Notification(message: string, from: Id, meetingId: Option<Id>, read: bool)

  /** How many entries a list keeps. */
  const Cap: nat := 10

  /** A new entry as the controllers build it: not yet read. */
  function Fresh(message: string, from: Id, meetingId: Option<Id>): (n: Notification)
    ensures !n.read && n.message == message && n.from == from && n.meetingId == meetingId
  {
    Notification(message, from, meetingId, false)
  }

  function Min(a: nat, b: nat): nat {
    if a < b then a else b
  }

  /** `list.unshift(n); list = list.slice(0, 10)`: the new entry first, then as many of the
      old entries, in order, as fit under the cap. */
  function PushCapped(list: seq<Notification>, n: Notification): (r: seq<Notification>)
    ensures |r| == Min(|list| + 1, Cap)
    ensures r[0] == n
    ensures r[1..] == list[..|r| - 1]
  {
    ([n] + list)[..Min(|list| + 1, Cap)]
  }

  /** The same entries pushed one after another. */
  function PushAll(list: seq<Notification>, ns: seq<Notification>): seq<Notification>
    decreases |ns|
  {
    if |ns| == 0 then list else PushAll(PushCapped(list, ns[0]), ns[1..])
  }

  function Reverse<T>(s: seq<T>): (r: seq<T>)
    ensures |r| == |s|
    ensures forall i :: 0 <= i < |s| ==> r[i] == s[|s| - 1 - i]
  {
    if |s| == 0 then [] else Reverse(s[1..]) + [s[0]]
  }

  /** Cutting the tail short before cutting the whole changes nothing while the cut of the
      whole falls inside the kept part. */
  lemma TruncateInside(a: seq<Notification>, b: seq<Notification>, k: nat, m: nat)
    requires k <= |b| && m <= |a| + k
    ensures (a + b[..k])[..m] == (a + b)[..m]
  {
  }

  /** After any run of pushes onto a list within the cap, the list holds the newest entries,
      newest first, then the older ones, ten in all at most. */
  lemma {:induction false} PushAllNewest(list: seq<Notification>, ns: seq<Notification>)
    requires |list| <= Cap
    ensures PushAll(list, ns) == (Reverse(ns) + list)[..Min(|ns| + |list|, Cap)]
    decreases |ns|
  {
    if |ns| > 0 {
      var p := PushCapped(list, ns[0]);
      PushAllNewest(p, ns[1..]);
      var k := Min(|list| + 1, Cap);
      TruncateInside(Reverse(ns[1..]), [ns[0]] + list, k, Min(|ns[1..]| + |p|, Cap));
      assert Reverse(ns[1..]) + ([ns[0]] + list) == Reverse(ns) + list;
    }
  }

  /** The last entry pushed is at the head. */
  lemma {:induction false} PushAllHead(list: seq<Notification>, ns: seq<Notification>)
    requires |ns| > 0
    ensures |PushAll(list, ns)| > 0 && PushAll(list, ns)[0] == ns[|ns| - 1]
    decreases |ns|
  {
    if |ns| > 1 {
      PushAllHead(PushCapped(list, ns[0]), ns[1..]);
    }
  }

  /** `list[i].read = true`: entry `i` becomes read, everything else stays. */
  function SetRead(list: seq<Notification>, i: nat): (r: seq<Notification>)
    requires i < |list|
    ensures |r| == |list|
    ensures r[i].read && r[i].message == list[i].message && r[i].from == list[i].from
      && r[i].meetingId == list[i].meetingId
    ensures forall j :: 0 <= j < |list| && j != i ==> r[j] == list[j]
  {
    list[i := list[i].(read := true)]
  }

  /** The index check of `markNotificationAsRead`: `parseInt` of the route parameter, which is
      rejected when it is `NaN`, negative or not below the list's length. */
  function MarkRead(list: seq<Notification>, param: string): (r: Result<seq<Notification>>)
    ensures r.Failure? <==> (ParseInt(param).None? || ParseInt(param).value < 0
      || ParseInt(param).value >= |list|)
    ensures r.Failure? ==> r.error == "Invalid index"
    ensures r.Success? ==> r.value == SetRead(list, ParseInt(param).value)
  {
    match ParseInt(param)
    case None => Failure("Invalid index")
    case Some(index) =>
      if index < 0 || index >= |list| then Failure("Invalid index")
      else Success(SetRead(list, index))
  }

  /** `notifications.filter(n => !n.read).length`. */
  function UnreadCount(list: seq<Notification>): nat {
    if |list| == 0 then 0 else (if list[0].read then 0 else 1) + UnreadCount(list[1..])
  }

  /** `notifications.some(n => !n.read)`: whether the bell shows a badge. */
  predicate HasUnread(list: seq<Notification>) {
    exists i :: 0 <= i < |list| && !list[i].read
  }

  /** The badge shows exactly when the count it shows is positive. */
  lemma {:induction false} BadgeIffCount(list: seq<Notification>)
    ensures HasUnread(list) <==> UnreadCount(list) > 0
    ensures UnreadCount(list) <= |list|
  {
    if |list| > 0 {
      BadgeIffCount(list[1..]);
      if HasUnread(list[1..]) {
        var i :| 0 <= i < |list[1..]| && !list[1..][i].read;
        assert !list[i + 1].read;
      }
      if HasUnread(list) && list[0].read {
        var i :| 0 <= i < |list| && !list[i].read;
        assert !list[1..][i - 1].read;
      }
    }
  }

  /** Marking an entry read lowers the count by one when it was unread, and leaves it
      otherwise. */
  lemma {:induction false} SetReadCount(list: seq<Notification>, i: nat)
    requires i < |list|
    ensures UnreadCount(SetRead(list, i)) == UnreadCount(list) - (if list[i].read then 0 else 1)
  {
    if i > 0 {
      SetReadCount(list[1..], i - 1);
      assert SetRead(list, i)[1..] == SetRead(list[1..], i - 1);
    } else {
      assert SetRead(list, i)[1..] == list[1..];
    }
  }

  /** Marking the same entry twice is marking it once. */
  lemma SetReadIdempotent(list: seq<Notification>, i: nat)
    requires i < |list|
    ensures SetRead(SetRead(list, i), i) == SetRead(list, i)
  {
  }

  /** After a push the count is the new entry's plus that of the old entries still under the
      cap; below the cap none is pushed out, so a fresh entry adds exactly one. */
  lemma {:induction false} PushCappedCount(list: seq<Notification>, n: Notification)
    ensures UnreadCount(PushCapped(list, n)) == UnreadCount(list[..Min(|list|, Cap - 1)]) + (if n.read then 0 else 1)
    ensures |list| < Cap ==> UnreadCount(PushCapped(list, n)) == UnreadCount(list) + (if n.read then 0 else 1)
  {
    assert PushCapped(list, n)[1..] == list[..Min(|list|, Cap - 1)];
    if |list| < Cap {
      assert list[..|list|] == list;
    }
  }
}

=== FILE: pdf_parser.dfy ===
/**
 The spatial join of `parsePDF` (backend/routes/timetableRoutes.js), run over the text
 fragments that pdf.js extracted from the first page. Day headers and slot labels act as
 anchors; each course fragment goes to the day anchor nearest in x and the slot anchor
 nearest in y, and every slot label not filled is then marked "No class".
 */
module PdfParser {
  import opened JsCore
  import opened Assoc
  import opened Calendar
  import opened Sorting
  import opened SlotLabel

  /** `{ text: item.str, x: item.transform[4], y: item.transform[5] }`, with whole-number
      coordinates. */
  datatype Fragment = Fragment(text: string, x: int, y: int)

  /** The number of consecutive capital letters of `s` from `i`. */
  function UpperRun(s: string, i: nat): (n: nat)
    ensures i + n <= |s| || (i > |s| && n == 0)
    ensures forall k :: i <= k < i + n ==> IsUpper(s[k])
    ensures i + n < |s| ==> !IsUpper(s[i + n])
    decreases |s| - i
  {
    if i < |s| && IsUpper(s[i]) then 1 + UpperRun(s, i + 1) else 0
  }

  /** `C:([A-Z]{2,5}\d{3})` anchored at `i`, giving the captured code. The letter run is greedy;
      giving letters back only puts a letter where a digit is needed, so the pattern matches
      exactly when the whole run after "C:" has two to five letters and three digits follow. */
  function CourseAt(s: string, i: nat): (r: Option<string>)
    ensures r.Some? ==> 5 <= |r.value| <= 8
  {
    if i + 2 <= |s| && s[i] == 'C' && s[i + 1] == ':' then
      var n := UpperRun(s, i + 2);
      var e := i + 2 + n;
      if 2 <= n <= 5 && e + 3 <= |s| && IsDigit(s[e]) && IsDigit(s[e + 1]) && IsDigit(s[e + 2]) then
        Some(s[i + 2..e + 3])
      else None
    else None
  }

  /** The regular expression read literally: "C:", then `len` capital letters, then three digits. */
  predicate PatternAt(s: string, i: nat, len: nat) {
    i + 5 + len <= |s| && s[i] == 'C' && s[i + 1] == ':'
      && (forall k :: i + 2 <= k < i + 2 + len ==> IsUpper(s[k]))
      && IsDigit(s[i + 2 + len]) && IsDigit(s[i + 3 + len]) && IsDigit(s[i + 4 + len])
  }

  /** `CourseAt` is the regular expression: it matches at `i` exactly when some letter count
      from two to five fits, and then captures the letters and digits of that count. */
  lemma CourseAtPattern(s: string, i: nat)
    ensures CourseAt(s, i).Some? <==> exists len :: 2 <= len <= 5 && PatternAt(s, i, len)
    ensures forall len :: 2 <= len <= 5 && PatternAt(s, i, len) ==> CourseAt(s, i) == Some(s[i + 2..i + 5 + len])
  {
    if CourseAt(s, i).Some? {
      assert PatternAt(s, i, UpperRun(s, i + 2));
    }
    forall len | 2 <= len <= 5 && PatternAt(s, i, len)
      ensures CourseAt(s, i) == Some(s[i + 2..i + 5 + len])
    {
      RunStopsAtDigit(s, i + 2, len);
    }
  }

  /** A run of capitals followed by a digit ends at that digit. */
  lemma RunStopsAtDigit(s: string, i: nat, len: nat)
    requires i + len < |s| && IsDigit(s[i + len])
    requires forall k :: i <= k < i + len ==> IsUpper(s[k])
    ensures UpperRun(s, i) == len
    decreases len
  {
    if len > 0 {
      RunStopsAtDigit(s, i + 1, len - 1);
    }
  }

  /** The match at `i` is the leftmost one. */
  predicate LeftmostCourseAt(s: string, i: nat) {
    i < |s| && CourseAt(s, i).Some? && forall k :: 0 <= k < i ==> CourseAt(s, k).None?
  }

  /** `s.match(/C:([A-Z]{2,5}\d{3})/)?.[1]`: the leftmost course code, or none iff the pattern
      matches nowhere. */
  function CourseCode(s: string): (r: Option<string>)
    ensures r.Some? ==> 5 <= |r.value| <= 8
    ensures r.None? <==> forall i :: 0 <= i < |s| ==> CourseAt(s, i).None?
    ensures r.Some? ==> exists i {:trigger LeftmostCourseAt(s, i)} :: LeftmostCourseAt(s, i) && r == CourseAt(s, i)
  {
    var f := (i: nat) => CourseAt(s, i);
    var r := FirstFrom(f, 0, |s|);
    assert forall i :: 0 <= i < |s| ==> f(i) == CourseAt(s, i);
    assert r.Some? ==> exists i {:trigger LeftmostCourseAt(s, i)} :: LeftmostCourseAt(s, i) && r == CourseAt(s, i) by {
      if r.Some? {
        FirstFromAt(f, 0, |s|);
        var j: nat :| FirstSomeAt(f, 0, |s|, j) && f(j) == r;
        forall k | 0 <= k < j ensures CourseAt(s, k).None? {
          assert f(k).None?;
        }
        assert LeftmostCourseAt(s, j);
      }
    }
    r
  }

  /** One pass of `items.forEach(...)` that records an anchor `obj[key] = value` for every
      fragment `sel` picks, so a later fragment with the same key overwrites the value. */
  function AnchorsFrom<K(==), V>(acc: Assoc<K, V>, items: seq<Fragment>, sel: Fragment -> Option<(K, V)>): Assoc<K, V>
    decreases |items|
  {
    if |items| == 0 then acc
    else
      var acc' := match sel(items[0]) case None => acc case Some(e) => Put(acc, e.0, e.1);
      AnchorsFrom(acc', items[1..], sel)
  }

  function DaySel(f: Fragment): Option<(string, int)> {
    if f.text in Days then Some((f.text, f.x)) else None
  }

  function SlotSel(f: Fragment): Option<(int, string)> {
    if IsSlotLabel(f.text) then Some((f.y, f.text)) else None
  }

  /** `dayXCoords`: for each day header, in first-seen order, the x of its last occurrence. */
  function DayAnchors(items: seq<Fragment>): Assoc<string, int> {
    AnchorsFrom([], items, DaySel)
  }

  /** `timeSlots`: for each y carrying a slot label, the label of the last fragment there. */
  function SlotAnchors(items: seq<Fragment>): Assoc<int, string> {
    AnchorsFrom([], items, SlotSel)
  }

  /** The value of the last fragment that `sel` keys under `k`. */
  function LastSel<K(==), V>(items: seq<Fragment>, sel: Fragment -> Option<(K, V)>, k: K): (r: Option<V>)
    ensures r.None? <==> forall i :: 0 <= i < |items| ==> sel(items[i]).None? || sel(items[i]).value.0 != k
    ensures r.Some? ==> exists i :: (0 <= i < |items| && sel(items[i]) == Some((k, r.value))
      && forall j :: i < j < |items| ==> sel(items[j]).None? || sel(items[j]).value.0 != k)
    decreases |items|
  {
    if |items| == 0 then None
    else
      var rest := LastSel(items[1..], sel, k);
      assert forall i :: 0 < i < |items| ==> items[i] == items[1..][i - 1];
      if rest.Some? then
        assert exists i :: (0 <= i < |items| && sel(items[i]) == Some((k, rest.value))
          && forall j :: i < j < |items| ==> sel(items[j]).None? || sel(items[j]).value.0 != k) by {
          var i :| 0 <= i < |items[1..]| && sel(items[1..][i]) == Some((k, rest.value))
            && forall j :: i < j < |items[1..]| ==> sel(items[1..][j]).None? || sel(items[1..][j]).value.0 != k;
          assert items[i + 1] == items[1..][i];
        }
        rest
      else if sel(items[0]).Some? && sel(items[0]).value.0 == k then Some(sel(items[0]).value.1)
      else None
  }

  /** A property key that is an array index ("0" to "4294967294"). */
  predicate IsArrayIndex(y: int) {
    0 <= y < 0x1_0000_0000 - 1
  }

  function IndexKeyed(p: (int, string)): bool {
    IsArrayIndex(p.0)
  }

  function NonIndexKeyed(p: (int, string)): bool {
    !IsArrayIndex(p.0)
  }

  function YKey(p: (int, string)): Key {
    Key(p.0, 0)
  }

  /** The order in which `Object.keys` and `Object.values` list `timeSlots`: array-index keys in
      ascending numeric order, then the remaining keys (negative y values) in insertion order. */
  function EnumOrder(a: Assoc<int, string>): (r: seq<(int, string)>)
    ensures forall p :: p in r <==> p in a
    ensures multiset(r) == multiset(a)
    ensures |r| == |a|
  {
    var idx := SortBy(Filter(a, IndexKeyed), YKey);
    var rest := Filter(a, NonIndexKeyed);
    EnumOrderMembers(a, idx, rest);
    idx + rest
  }

  /** Array-index keys come first, in ascending order; the other keys follow in insertion order. */
  lemma EnumOrderShape(a: Assoc<int, string>)
    ensures var r := EnumOrder(a);
      forall i, j :: 0 <= i < j < |r| && IsArrayIndex(r[j].0) ==> IsArrayIndex(r[i].0) && r[i].0 <= r[j].0
    ensures Filter(EnumOrder(a), NonIndexKeyed) == Filter(a, NonIndexKeyed)
  {
    var idx := SortBy(Filter(a, IndexKeyed), YKey);
    IndexPart(a, idx);
    SplitOrder(idx, Filter(a, NonIndexKeyed));
  }

  lemma IndexPart(a: Assoc<int, string>, idx: seq<(int, string)>)
    requires multiset(idx) == multiset(Filter(a, IndexKeyed))
    ensures forall i :: 0 <= i < |idx| ==> IsArrayIndex(idx[i].0)
  {
    forall i | 0 <= i < |idx| ensures IsArrayIndex(idx[i].0) {
      assert idx[i] in multiset(idx);
      assert idx[i] in Filter(a, IndexKeyed);
    }
  }

  lemma SplitOrder(idx: seq<(int, string)>, rest: seq<(int, string)>)
    requires forall i :: 0 <= i < |idx| ==> IsArrayIndex(idx[i].0)
    requires SortedBy(idx, YKey)
    requires forall i :: 0 <= i < |rest| ==> NonIndexKeyed(rest[i])
    ensures var r := idx + rest;
      forall i, j :: 0 <= i < j < |r| && IsArrayIndex(r[j].0) ==> IsArrayIndex(r[i].0) && r[i].0 <= r[j].0
    ensures Filter(idx + rest, NonIndexKeyed) == rest
  {
    var r := idx + rest;
    forall j | |idx| <= j < |r| ensures !IsArrayIndex(r[j].0) {
      assert r[j] == rest[j - |idx|];
    }
    forall i, j | 0 <= i < j < |idx|
      ensures IsArrayIndex(r[i].0) && r[i].0 <= r[j].0
    {
      assert KeyLe(YKey(idx[i]), YKey(idx[j]));
    }
    FilterAppend(idx, rest, NonIndexKeyed);
    FilterExtremes(idx, NonIndexKeyed);
    FilterExtremes(rest, NonIndexKeyed);
  }

  lemma EnumOrderMembers(a: Assoc<int, string>, idx: seq<(int, string)>, rest: seq<(int, string)>)
    requires multiset(idx) == multiset(Filter(a, IndexKeyed))
    requires rest == Filter(a, NonIndexKeyed)
    ensures forall p :: p in idx + rest <==> p in a
    ensures multiset(idx + rest) == multiset(a)
    ensures |idx + rest| == |a|
  {
    FilterPartition(a, IndexKeyed, NonIndexKeyed);
    assert multiset(idx + rest) == multiset(a);
    assert |multiset(idx + rest)| == |idx + rest|;
    forall p ensures p in idx + rest <==> p in a {
      assert p in idx <==> p in multiset(idx);
      assert p in Filter(a, IndexKeyed) <==> p in multiset(Filter(a, IndexKeyed));
    }
  }

  /** The index `reduce((prev, curr) => dist(curr) < dist(prev) ? curr : prev)` ends on, given
      the candidates' distances `ds`: the nearest candidate, the earliest one on a tie since the
      comparison is strict. */
  function Nearest(ds: seq<nat>): (i: nat)
    requires |ds| > 0
    ensures i < |ds|
    ensures forall j :: 0 <= j < |ds| ==> ds[i] <= ds[j]
    ensures forall j :: 0 <= j < i ==> ds[i] < ds[j]
  {
    NearestFrom(ds, 0, 1)
  }

  function NearestFrom(ds: seq<nat>, best: nat, k: nat): (i: nat)
    requires best < k <= |ds|
    requires forall j :: 0 <= j < k ==> ds[best] <= ds[j]
    requires forall j :: 0 <= j < best ==> ds[best] < ds[j]
    ensures i < |ds|
    ensures forall j :: 0 <= j < |ds| ==> ds[i] <= ds[j]
    ensures forall j :: 0 <= j < i ==> ds[i] < ds[j]
    decreases |ds| - k
  {
    if k == |ds| then best
    else if ds[k] < ds[best] then NearestFrom(ds, k, k + 1)
    else NearestFrom(ds, best, k + 1)
  }

  /** What V8 reports for `reduce` on an empty array without an initial value. */
  const ReduceOfEmpty: string := "Reduce of empty array with no initial value"

  /** `Math.abs(x - item.x)` for every day anchor. */
  function XDistances(f: Fragment, days: Assoc<string, int>): (ds: seq<nat>)
    ensures |ds| == |days|
    ensures forall j :: 0 <= j < |days| ==> ds[j] == Abs(days[j].1 - f.x)
  {
    seq(|days|, j requires 0 <= j < |days| => Abs(days[j].1 - f.x))
  }

  /** `Math.abs(y - item.y)` for every slot anchor. */
  function YDistances(f: Fragment, slots: seq<(int, string)>): (ds: seq<nat>)
    ensures |ds| == |slots|
    ensures forall j :: 0 <= j < |slots| ==> ds[j] == Abs(slots[j].0 - f.y)
  {
    seq(|slots|, j requires 0 <= j < |slots| => Abs(slots[j].0 - f.y))
  }

  /** The body of the course loop for one fragment: no write when it holds no course code, a
      `TypeError` when an anchor list is empty, else a write to the nearest day and slot.
      `time && closestDay` always holds: labels and day names are non-empty. */
  function CourseWrite(f: Fragment, days: Assoc<string, int>, slots: seq<(int, string)>): Result<Option<Write>> {
    match CourseCode(f.text)
    case None => Success(None)
    case Some(course) =>
      if |slots| == 0 || |days| == 0 then Failure(ReduceOfEmpty)
      else
        var time := slots[Nearest(YDistances(f, slots))].1;
        var day := days[Nearest(XDistances(f, days))].0;
        if time != "" && day != "" then Success(Some(Write(day, time, course)))
        else Success(None)
  }

  /** The course loop: its writes in fragment order, or the first error. */
  function CourseWrites(items: seq<Fragment>, days: Assoc<string, int>, slots: seq<(int, string)>): Result<seq<Write>> {
    Gather(items, CourseStep(days, slots))
  }

  /** The loop body, one fragment at a time. */
  function CourseStep(days: Assoc<string, int>, slots: seq<(int, string)>): Fragment -> Result<Option<Write>> {
    f => CourseWrite(f, days, slots)
  }

  /** A cell JavaScript treats as false: missing or the empty string. */
  predicate Blank(c: Option<string>) {
    c.None? || c.value == ""
  }

  /** `if (!timetable[day][time]) timetable[day][time] = "No class"` for each label in turn. */
  function FillDay(g: Grid, day: string, labels: seq<string>): Grid
    decreases |labels|
  {
    if |labels| == 0 then g
    else
      var g' := if Blank(CellOf(g, day, labels[0])) then SetCell(g, day, labels[0], NoClass) else g;
      FillDay(g', day, labels[1..])
  }

  function FillDays(g: Grid, days: seq<string>, labels: seq<string>): Grid
    decreases |days|
  {
    if |days| == 0 then g else FillDays(FillDay(g, days[0], labels), days[1..], labels)
  }

  /** The closing `if (!timetable["Sunday"])` block. */
  function SundayBlock(g: Grid, labels: seq<string>): Grid {
    if Get(g, "Sunday").None? then Put(g, "Sunday", PutEach([], labels, NoClass)) else g
  }

  /** The timetable `days.forEach(day => timetable[day] = {})` starts from. */
  function BlankDays(): Grid {
    var none: Cells := [];
    PutEach([], Days, none)
  }

  /** The slot labels in the order `Object.values(timeSlots)` lists them. */
  function PdfLabels(items: seq<Fragment>): seq<string> {
    Values(EnumOrder(SlotAnchors(items)))
  }

  /** The writes of the course loop over all fragments. */
  function PdfWrites(items: seq<Fragment>): Result<seq<Write>> {
    CourseWrites(items, DayAnchors(items), EnumOrder(SlotAnchors(items)))
  }

  /** `parsePDF` after the text has been extracted. */
  function ParsePdf(items: seq<Fragment>): Result<Grid> {
    match PdfWrites(items)
    case Failure(e) => Failure(e)
    case Success(ws) => Success(Assemble(ws, PdfLabels(items)))
  }

  /** A later anchor with the same key overwrites an earlier one; keys nothing picked keep
      their value from `acc`. */
  lemma {:induction false} AnchorsGet<K, V>(acc: Assoc<K, V>, items: seq<Fragment>, sel: Fragment -> Option<(K, V)>, k: K)
    ensures Get(AnchorsFrom(acc, items, sel), k) ==
      if LastSel(items, sel, k).Some? then LastSel(items, sel, k) else Get(acc, k)
    decreases |items|
  {
    if |items| > 0 {
      var acc' := match sel(items[0]) case None => acc case Some(e) => Put(acc, e.0, e.1);
      AnchorsGet(acc', items[1..], sel, k);
      if sel(items[0]).Some? {
        PutGet(acc, sel(items[0]).value.0, sel(items[0]).value.1, k);
      }
    }
  }

  /** Every anchor recorded was picked from some fragment. */
  lemma {:induction false} AnchorsEntries<K, V>(acc: Assoc<K, V>, items: seq<Fragment>, sel: Fragment -> Option<(K, V)>)
    ensures forall e :: e in AnchorsFrom(acc, items, sel) ==>
      e in acc || exists i :: 0 <= i < |items| && sel(items[i]) == Some(e)
    decreases |items|
  {
    if |items| > 0 {
      var acc' := match sel(items[0]) case None => acc case Some(e) => Put(acc, e.0, e.1);
      AnchorsEntries(acc', items[1..], sel);
      if sel(items[0]).Some? {
        PutEntries(acc, sel(items[0]).value.0, sel(items[0]).value.1);
      }
      forall e | e in AnchorsFrom(acc, items, sel)
        ensures e in acc || exists i :: 0 <= i < |items| && sel(items[i]) == Some(e)
      {
        if e !in acc && e !in acc' {
          var i :| 0 <= i < |items[1..]| && sel(items[1..][i]) == Some(e);
          assert items[i + 1] == items[1..][i];
        }
      }
    }
  }

  /** Every day anchor is a weekday name, and every slot anchor's value is a slot label. */
  lemma AnchorsVocabulary(items: seq<Fragment>)
    ensures forall p :: p in DayAnchors(items) ==> p.0 in Days
    ensures forall p :: p in SlotAnchors(items) ==> IsSlotLabel(p.1)
  {
    AnchorsEntries([], items, DaySel);
    AnchorsEntries([], items, SlotSel);
  }

  /** Some fragment holds a course code. */
  predicate HasCourse(items: seq<Fragment>) {
    exists i :: 0 <= i < |items| && CourseCode(items[i].text).Some?
  }

  lemma HasCourseCons(items: seq<Fragment>)
    requires |items| > 0
    ensures HasCourse(items) <==> CourseCode(items[0].text).Some? || HasCourse(items[1..])
  {
    if HasCourse(items) {
      var i :| 0 <= i < |items| && CourseCode(items[i].text).Some?;
      if i > 0 {
        assert items[1..][i - 1] == items[i];
      }
    }
    if HasCourse(items[1..]) {
      var i :| 0 <= i < |items[1..]| && CourseCode(items[1..][i].text).Some?;
      assert items[i + 1] == items[1..][i];
    }
  }

  /** The course loop fails exactly when some fragment holds a course code while one of the
      anchor lists is empty, and then with the `reduce` error. */
  lemma {:induction false} CourseWritesFailure(items: seq<Fragment>, days: Assoc<string, int>, slots: seq<(int, string)>)
    ensures CourseWrites(items, days, slots).Failure? <==> (|slots| == 0 || |days| == 0) && HasCourse(items)
    ensures CourseWrites(items, days, slots).Failure? ==> CourseWrites(items, days, slots).error == ReduceOfEmpty
    decreases |items|
  {
    if |items| > 0 {
      CourseWritesFailure(items[1..], days, slots);
      HasCourseCons(items);
    }
  }

  /** On success the course loop yields exactly the writes of the single fragments. */
  lemma CourseWritesMembers(items: seq<Fragment>, days: Assoc<string, int>, slots: seq<(int, string)>)
    requires CourseWrites(items, days, slots).Success?
    ensures forall w :: w in CourseWrites(items, days, slots).value <==>
      exists i :: 0 <= i < |items| && CourseWrite(items[i], days, slots) == Success(Some(w))
  {
    var step := CourseStep(days, slots);
    forall w ensures w in CourseWrites(items, days, slots).value <==>
      exists i :: 0 <= i < |items| && CourseWrite(items[i], days, slots) == Success(Some(w))
    {
      GatherMembers(items, step, w);
      assert forall i :: 0 <= i < |items| ==> step(items[i]) == CourseWrite(items[i], days, slots);
    }
  }

  /** A fragment with a course code, with both anchor lists non-empty, produces a write of
      its code (the guard `time && closestDay` always passes: labels and day names are not
      empty). */
  lemma CourseWriteSome(f: Fragment, days: Assoc<string, int>, slots: seq<(int, string)>)
    requires CourseCode(f.text).Some? && |days| > 0 && |slots| > 0
    requires forall p :: p in days ==> p.0 != ""
    requires forall p :: p in slots ==> p.1 != ""
    ensures CourseWrite(f, days, slots).Success? && CourseWrite(f, days, slots).value.Some?
    ensures CourseWrite(f, days, slots).value.value.occupant == CourseCode(f.text).value
  {
    var i := Nearest(XDistances(f, days));
    var k := Nearest(YDistances(f, slots));
    assert days[i] in days && slots[k] in slots;
  }

  /** Position `i` of the coordinates `ps` is nearest to `at`, the first listed winning a tie. */
  predicate NearestAt(ps: seq<int>, at: int, i: int) {
    0 <= i < |ps| && (forall j :: 0 <= j < |ps| ==> Abs(ps[i] - at) <= Abs(ps[j] - at))
    && forall j :: 0 <= j < i ==> Abs(ps[i] - at) < Abs(ps[j] - at)
  }

  /** The write goes to the day anchor nearest in x, the first listed one winning a tie. */
  lemma CourseWriteDay(f: Fragment, days: Assoc<string, int>, slots: seq<(int, string)>, w: Write)
    requires CourseWrite(f, days, slots) == Success(Some(w))
    ensures exists i {:trigger NearestAt(Values(days), f.x, i)} ::
      NearestAt(Values(days), f.x, i) && days[i].0 == w.day
  {
    var ds := XDistances(f, days);
    var i := Nearest(ds);
    assert days[i].0 == w.day;
    NearestOf(Values(days), f.x, ds, i);
  }

  /** The write goes to the slot anchor nearest in y, the first listed one winning a tie. */
  lemma CourseWriteSlot(f: Fragment, days: Assoc<string, int>, slots: seq<(int, string)>, w: Write)
    requires CourseWrite(f, days, slots) == Success(Some(w))
    ensures exists k {:trigger NearestAt(Keys(slots), f.y, k)} ::
      NearestAt(Keys(slots), f.y, k) && slots[k].1 == w.slot
  {
    var ds := YDistances(f, slots);
    var k := Nearest(ds);
    assert slots[k].1 == w.slot;
    NearestOf(Keys(slots), f.y, ds, k);
  }

  /** The index `Nearest` picks from the distances to `at` is nearest to `at`. */
  lemma NearestOf(ps: seq<int>, at: int, ds: seq<nat>, i: nat)
    requires |ds| == |ps| && forall j :: 0 <= j < |ps| ==> ds[j] == Abs(ps[j] - at)
    requires i < |ds| && (forall j :: 0 <= j < |ds| ==> ds[i] <= ds[j]) && forall j :: 0 <= j < i ==> ds[i] < ds[j]
    ensures NearestAt(ps, at, i)
  {
  }

  /** Filling one day marks exactly its blank cells under the listed labels "No class". */
  lemma {:induction false} FillDayCell(g: Grid, day: string, labels: seq<string>, d: string, s: string)
    ensures CellOf(FillDay(g, day, labels), d, s) ==
      if d == day && s in labels && Blank(CellOf(g, d, s)) then Some(NoClass) else CellOf(g, d, s)
    decreases |labels|
  {
    if |labels| > 0 {
      var g' := if Blank(CellOf(g, day, labels[0])) then SetCell(g, day, labels[0], NoClass) else g;
      FillDayCell(g', day, labels[1..], d, s);
      if Blank(CellOf(g, day, labels[0])) {
        SetCellOther(g, day, labels[0], NoClass, d, s);
      }
      HeadTail(labels);
    }
  }

  /** Filling a day that is present keeps the day keys and a well-formed grid. */
  lemma {:induction false} FillDayKeys(g: Grid, day: string, labels: seq<string>)
    requires day in Keys(g)
    ensures Keys(FillDay(g, day, labels)) == Keys(g)
    ensures WellFormed(g) ==> WellFormed(FillDay(g, day, labels))
    decreases |labels|
  {
    if |labels| > 0 {
      var g' := if Blank(CellOf(g, day, labels[0])) then SetCell(g, day, labels[0], NoClass) else g;
      if Blank(CellOf(g, day, labels[0])) {
        SetCellKeys(g, day, labels[0], NoClass);
      }
      FillDayKeys(g', day, labels[1..]);
    }
  }

  /** Filling several days marks exactly their blank cells under the labels "No class". */
  lemma {:induction false} FillDaysCell(g: Grid, days: seq<string>, labels: seq<string>, d: string, s: string)
    ensures CellOf(FillDays(g, days, labels), d, s) ==
      if d in days && s in labels && Blank(CellOf(g, d, s)) then Some(NoClass) else CellOf(g, d, s)
    decreases |days|
  {
    if |days| > 0 {
      FillDayCell(g, days[0], labels, d, s);
      FillDaysCell(FillDay(g, days[0], labels), days[1..], labels, d, s);
      HeadTail(days);
    }
  }

  lemma {:induction false} FillDaysKeys(g: Grid, days: seq<string>, labels: seq<string>)
    requires forall d :: d in days ==> d in Keys(g)
    ensures Keys(FillDays(g, days, labels)) == Keys(g)
    ensures WellFormed(g) ==> WellFormed(FillDays(g, days, labels))
    decreases |days|
  {
    if |days| > 0 {
      FillDayKeys(g, days[0], labels);
      FillDaysKeys(FillDay(g, days[0], labels), days[1..], labels);
    }
  }

  /** The starting grid lists the seven days, each with no cell. */
  lemma BlankDaysShape()
    ensures Keys(BlankDays()) == Days
    ensures WellFormed(BlankDays())
    ensures forall d :: Get(BlankDays(), d) == if d in Days then Some([]) else None
  {
    BlankDaysKeys();
    BlankDaysGet();
    var g := BlankDays();
    forall i | 0 <= i < |g| ensures UniqueKeys(g[i].1) {
      GetAt(g, i);
    }
  }

  lemma BlankDaysKeys()
    ensures Keys(BlankDays()) == Days && UniqueKeys(BlankDays())
  {
    var none: Cells := [];
    var empty: Grid := [];
    VocabularyDistinct();
    PutEachKeys(empty, Days, none);
    PutEachUnique(empty, Days, none);
  }

  lemma BlankDaysGet()
    ensures forall d :: Get(BlankDays(), d) == if d in Days then Some([]) else None
  {
    var none: Cells := [];
    var empty: Grid := [];
    forall d ensures Get(BlankDays(), d) == if d in Days then Some(none) else None {
      PutEachGet(empty, Days, none, d);
    }
  }

  /** The written occupant is the fragment's course code. */
  lemma CourseWriteOccupant(f: Fragment, days: Assoc<string, int>, slots: seq<(int, string)>, w: Write)
    requires CourseWrite(f, days, slots) == Success(Some(w))
    ensures CourseCode(f.text) == Some(w.occupant)
  {
  }

  /** Every write of a successful course loop is to a weekday and a listed slot label, of a
      course code (five to eight characters) found in some fragment. */
  lemma PdfWriteFields(items: seq<Fragment>, w: Write)
    requires PdfWrites(items).Success?
    requires w in PdfWrites(items).value
    ensures w.day in Days && w.slot in PdfLabels(items) && 5 <= |w.occupant| <= 8
    ensures exists i :: 0 <= i < |items| && CourseCode(items[i].text) == Some(w.occupant)
  {
    var days := DayAnchors(items);
    var slots := EnumOrder(SlotAnchors(items));
    CourseWritesMembers(items, days, slots);
    var i :| 0 <= i < |items| && CourseWrite(items[i], days, slots) == Success(Some(w));
    CourseWriteOccupant(items[i], days, slots, w);
    WriteAnchors(items, days, slots, w, i);
  }

  lemma WriteAnchors(items: seq<Fragment>, days: Assoc<string, int>, slots: seq<(int, string)>, w: Write, i: nat)
    requires days == DayAnchors(items)
    requires i < |items| && CourseWrite(items[i], days, slots) == Success(Some(w))
    ensures w.day in Days && w.slot in Values(slots)
  {
    AnchorsVocabulary(items);
    CourseWriteDay(items[i], days, slots, w);
    CourseWriteSlot(items[i], days, slots, w);
    var k :| NearestAt(Keys(slots), items[i].y, k) && slots[k].1 == w.slot;
    assert Values(slots)[k] == w.slot;
    var j :| NearestAt(Values(days), items[i].x, j) && days[j].0 == w.day;
    assert days[j] in days;
  }

  /** Once the seven days are present the Sunday block changes nothing. */
  lemma SundayBlockNoop(g: Grid, labels: seq<string>)
    requires Keys(g) == Days
    ensures SundayBlock(g, labels) == g
  {
    assert Keys(g)[6] == "Sunday";
  }

  /** The grid the parser returns after a successful course loop. */
  function Assemble(ws: seq<Write>, labels: seq<string>): Grid {
    SundayBlock(FillDays(ApplyWrites(BlankDays(), ws), Days, labels), labels)
  }

  lemma AssembleDays(ws: seq<Write>, labels: seq<string>)
    requires forall w :: w in ws ==> w.day in Days
    ensures Keys(Assemble(ws, labels)) == Days
    ensures WellFormed(Assemble(ws, labels))
  {
    BlankDaysShape();
    assert forall i :: 0 <= i < |ws| ==> ws[i] in ws;
    ApplyWritesKeys(BlankDays(), ws);
    var g := FillDays(ApplyWrites(BlankDays(), ws), Days, labels);
    FillDaysKeys(ApplyWrites(BlankDays(), ws), Days, labels);
    SundayBlockNoop(g, labels);
  }

  lemma FillDaysKeysOnly(g1: Grid, labels: seq<string>)
    requires Keys(g1) == Days
    ensures Keys(FillDays(g1, Days, labels)) == Days
  {
    FillDaysKeys(g1, Days, labels);
  }

  lemma AssembleCell(ws: seq<Write>, labels: seq<string>, d: string, s: string)
    requires forall w :: w in ws ==> w.day in Days && w.slot in labels && w.occupant != ""
    requires d in Days
    ensures CellOf(Assemble(ws, labels), d, s) ==
      if s in labels then Some(LastWrite(ws, d, s).GetOr(NoClass)) else None
  {
    var g1 := ApplyWrites(BlankDays(), ws);
    BlankDaysShape();
    assert forall i :: 0 <= i < |ws| ==> ws[i] in ws;
    ApplyWritesKeys(BlankDays(), ws);
    ApplyWritesCell(BlankDays(), ws, d, s);
    FillDaysCell(g1, Days, labels, d, s);
    var last := LastWrite(ws, d, s);
    if last.Some? {
      var i :| 0 <= i < |ws| && ws[i] == Write(d, s, last.value);
      assert ws[i] in ws;
    }
    FillDaysKeysOnly(g1, labels);
    SundayBlockNoop(FillDays(g1, Days, labels), labels);
  }

  /** `parsePDF` fails exactly when a fragment holds a course code but no day header or no
      slot label was found, and then with the `reduce` error. */
  lemma ParsePdfFailure(items: seq<Fragment>)
    ensures ParsePdf(items).Failure? <==>
      (|SlotAnchors(items)| == 0 || |DayAnchors(items)| == 0) && HasCourse(items)
    ensures ParsePdf(items).Failure? ==> ParsePdf(items).error == ReduceOfEmpty
  {
    CourseWritesFailure(items, DayAnchors(items), EnumOrder(SlotAnchors(items)));
  }

  /** A parsed timetable lists the seven days in order (so the Sunday block never runs) and is
      well formed. */
  lemma ParsePdfDays(items: seq<Fragment>)
    requires ParsePdf(items).Success?
    ensures Keys(ParsePdf(items).value) == Days
    ensures WellFormed(ParsePdf(items).value)
  {
    forall w | w in PdfWrites(items).value ensures w.day in Days {
      PdfWriteFields(items, w);
    }
    AssembleDays(PdfWrites(items).value, PdfLabels(items));
  }

  /** Each day of a parsed timetable has a cell for exactly the slot labels found on the page:
      the course of the last fragment written there, or "No class". */
  lemma ParsePdfCell(items: seq<Fragment>, d: string, s: string)
    requires ParsePdf(items).Success?
    requires d in Days
    ensures CellOf(ParsePdf(items).value, d, s) ==
      if s in PdfLabels(items) then Some(LastWrite(PdfWrites(items).value, d, s).GetOr(NoClass)) else None
  {
    forall w | w in PdfWrites(items).value
      ensures w.day in Days && w.slot in PdfLabels(items) && w.occupant != ""
    {
      PdfWriteFields(items, w);
    }
    AssembleCell(PdfWrites(items).value, PdfLabels(items), d, s);
  }

  /** Every cell that is not "No class" holds the course code of some fragment. */
  lemma ParsePdfOccupant(items: seq<Fragment>, d: string, s: string)
    requires ParsePdf(items).Success?
    requires CellOf(ParsePdf(items).value, d, s).Some?
    requires CellOf(ParsePdf(items).value, d, s).value != NoClass
    ensures exists i :: 0 <= i < |items| && CourseCode(items[i].text) == CellOf(ParsePdf(items).value, d, s)
  {
    var ws := PdfWrites(items).value;
    ParsePdfDays(items);
    ParsePdfCell(items, d, s);
    var last := LastWrite(ws, d, s);
    var i :| 0 <= i < |ws| && ws[i] == Write(d, s, last.value);
    PdfWriteFields(items, ws[i]);
  }
}

=== FILE: profile_page.dfy ===
/**
 The timetable editor of the profile page (frontend/src/components/ProfilePage.jsx): a manual
 edit of one cell, the Sunday filled in before saving, the slot rows ordered by start time in
 minutes since midnight, the day columns ordered Monday first, the emptiness test, and the
 text a cell is shown with. React state is passed in and returned.
 */
module ProfilePage {
  import opened JsCore
  import opened Assoc
  import opened Calendar
  import opened Sorting
  import opened SlotLabel

  // ---------------------------------------------------------------------------
  // Editing
  // ---------------------------------------------------------------------------

  /** What an edited value is stored as: a value blank after trimming becomes "No class",
      anything else is stored untrimmed. */
  function StoredValue(newValue: string): (r: string)
    ensures r != ""
    ensures r == NoClass <==> Trim(newValue) == "" || newValue == NoClass
  {
    if Trim(newValue) == "" then NoClass else newValue
  }

  /** `handleManualTimetableChange(day, timeSlot, newValue)` on the state `g`: the deep copy
      is the same value, a missing day is created empty, then the cell is assigned. */
  function ManualEdit(g: Grid, day: string, slot: string, newValue: string): (r: Grid)
    ensures CellOf(r, day, slot) == Some(StoredValue(newValue))
  {
    SetCell(g, day, slot, StoredValue(newValue))
  }

  /** A manual edit changes the one cell and nothing else, creates its day at the end when it
      was missing, and keeps the grid well formed. */
  lemma ManualEditSpec(g: Grid, day: string, slot: string, newValue: string)
    ensures forall d, s :: (CellOf(ManualEdit(g, day, slot, newValue), d, s) ==
      if (d, s) == (day, slot) then Some(StoredValue(newValue)) else CellOf(g, d, s))
    ensures forall d :: d != day ==> Get(ManualEdit(g, day, slot, newValue), d) == Get(g, d)
    ensures Keys(ManualEdit(g, day, slot, newValue)) == if day in Keys(g) then Keys(g) else Keys(g) + [day]
    ensures WellFormed(g) ==> WellFormed(ManualEdit(g, day, slot, newValue))
  {
    forall d, s ensures CellOf(ManualEdit(g, day, slot, newValue), d, s) ==
      if (d, s) == (day, slot) then Some(StoredValue(newValue)) else CellOf(g, d, s)
    {
      SetCellOther(g, day, slot, StoredValue(newValue), d, s);
    }
    forall d | d != day ensures Get(ManualEdit(g, day, slot, newValue), d) == Get(g, d) {
      SetCellOther(g, day, slot, StoredValue(newValue), d, slot);
    }
    SetCellKeys(g, day, slot, StoredValue(newValue));
  }

  // ---------------------------------------------------------------------------
  // Sunday
  // ---------------------------------------------------------------------------

  const Sunday: string := Days[6]

  /** `if (!timetable["Sunday"]) timetable["Sunday"] = {...nine free slots}`: a day object
      is always truthy, so only a missing Sunday is filled. */
  function WithSunday(g: Grid): (r: Grid)
    ensures Get(r, Sunday).Some?
  {
    if Get(g, Sunday).None? then Put(g, Sunday, EmptyDay()) else g
  }

  /** A present Sunday is kept as it is. */
  lemma WithSundayPresent(g: Grid)
    requires Get(g, Sunday).Some?
    ensures WithSunday(g) == g
  {
  }

  /** A missing Sunday is added last, with the nine canonical slots all free. */
  lemma WithSundayAdded(g: Grid)
    requires Get(g, Sunday).None?
    ensures Get(WithSunday(g), Sunday) == Some(EmptyDay())
    ensures Keys(WithSunday(g)) == Keys(g) + [Sunday]
  {
    PutKeys(g, Sunday, EmptyDay());
  }

  /** Every other day is kept as it is. */
  lemma WithSundayOthers(g: Grid, d: string)
    requires d != Sunday
    ensures Get(WithSunday(g), d) == Get(g, d)
  {
    if Get(g, Sunday).None? {
      PutGet(g, Sunday, EmptyDay(), d);
    }
  }

  /** Filling Sunday keeps the grid well formed. */
  lemma WithSundayWellFormed(g: Grid)
    requires WellFormed(g)
    ensures WellFormed(WithSunday(g))
  {
    if Get(g, Sunday).None? {
      EmptyDayShape();
      PutUnique(g, Sunday, EmptyDay());
      PutEntries(g, Sunday, EmptyDay());
      var r := WithSunday(g);
      forall i | 0 <= i < |r| ensures UniqueKeys(r[i].1) {
        assert r[i] in r;
        if r[i] != (Sunday, EmptyDay()) {
          var k :| 0 <= k < |g| && g[k] == r[i];
        }
      }
    }
  }

  /** Filling Sunday twice is filling it once. */
  lemma WithSundayIdempotent(g: Grid)
    ensures WithSunday(WithSunday(g)) == WithSunday(g)
  {
  }

  // ---------------------------------------------------------------------------
  // Slot rows
  // ---------------------------------------------------------------------------

  /** `parseTime(timeStr)` of the slot comparator: minutes since midnight of the start. The
      hour is `parseInt(., 10)` of the text before the first ':' of the first '-' piece of
      the first space piece; the minutes are `parseInt(., 10) || 0` of the text after that
      ':', so a missing or unparseable minute is 0. The period is AM when the whole label
      contains "AM" anywhere and PM otherwise; PM adds 12 unless the hour is 12, and 12 AM
      is 0. A `NaN` hour makes the whole value `NaN`. */
  function ParseTime(timeStr: string): Option<int> {
    MinutesOf(StartPieces(timeStr), Includes(timeStr, "AM"))
  }

  /** `timeStr.split(' ')[0].split('-')[0].split(':')`: the hour and minute texts. */
  function StartPieces(timeStr: string): (r: seq<string>)
    ensures |r| >= 1
  {
    Split(Split(Split(timeStr, ' ')[0], '-')[0], ':')
  }

  /** The start minute from the hour and minute texts and the period. */
  function MinutesOf(hm: seq<string>, am: bool): Option<int>
    requires |hm| >= 1
  {
    var minute := if |hm| > 1 then ParseInt10(hm[1]).GetOr(0) else 0;
    match ParseInt10(hm[0])
    case None => None
    case Some(h) => Some(PeriodHour(h, am) * 60 + minute)
  }

  /** The two period rules of `parseTime`: PM adds 12 unless the hour is 12, then AM turns 12
      into 0. */
  function PeriodHour(h: int, am: bool): (r: int)
    ensures r == To24(h, !am)
  {
    var h1 := if !am && h != 12 then h + 12 else h;
    if am && h1 == 12 then 0 else h1
  }

  /** A well-formed label contains "AM" exactly when it is an AM label. */
  lemma LabelMeridian(s: string)
    requires IsSlotLabel(s)
    ensures Includes(s, "AM") <==> !IsPm(s)
  {
    if !IsPm(s) {
      assert OccursAt(s, 6, "AM");
    }
    if Includes(s, "AM") {
      var i :| 0 <= i <= |s| && OccursAt(s, i, "AM");
      assert s[i..i + 2][0] == 'A' && s[i..i + 2][1] == 'M';
      assert s[i] == 'A' && s[i + 1] == 'M';
    }
  }

  /** A well-formed label reads as its start hour times 60 under the 12-hour rule. */
  lemma ParseTimeLabel(s: string)
    requires IsSlotLabel(s)
    ensures ParseTime(s) == Some(To24(StartOf(s), IsPm(s)) * 60)
  {
    assert StartPieces(s) == [s[..2]] by {
      LabelPieces(s);
    }
    assert ParseInt10(s[..2]) == Some(StartOf(s)) by {
      LabelHours(s);
    }
    assert Includes(s, "AM") == !IsPm(s) by {
      LabelMeridian(s);
    }
  }

  /** The nine canonical slots start (9 + i) * 60 minutes after midnight. */
  lemma ParseTimeCanonical(i: nat)
    requires i < |SlotOrder|
    ensures ParseTime(SlotOrder[i]) == Some((9 + i) * 60)
  {
    CanonicalLabel(i);
    ParseTimeLabel(SlotOrder[i]);
  }

  /** Every label reads as a number of minutes, so the comparator never yields `NaN`. */
  predicate MinutesKnown(labels: seq<string>) {
    forall i :: 0 <= i < |labels| ==> ParseTime(labels[i]).Some?
  }

  function MinuteKey(s: string): Key {
    Key(ParseTime(s).GetOr(0), 0)
  }

  /** `sortedTimeSlots`: the distinct slot labels of all days, sorted by start minute. */
  function SortedTimeSlots(g: Grid): (r: seq<string>)
    requires MinutesKnown(SlotLabels(g))
    ensures SortedBy(r, MinuteKey) && multiset(r) == multiset(SlotLabels(g))
    ensures forall k :: Filter(r, HasKey(MinuteKey, k)) == Filter(SlotLabels(g), HasKey(MinuteKey, k))
  {
    SortBy(SlotLabels(g), MinuteKey)
  }

  /** The rows are the slot labels of all days, each once. */
  lemma SortedTimeSlotsMembers(g: Grid)
    requires MinutesKnown(SlotLabels(g))
    ensures Distinct(SortedTimeSlots(g))
    ensures forall x :: x in SortedTimeSlots(g) <==> exists i :: 0 <= i < |g| && x in Keys(g[i].1)
  {
    PermutationMembers(SlotLabels(g), SortedTimeSlots(g));
  }

  /** The rows come by non-decreasing start minute, every one of them known. */
  lemma SortedTimeSlotsOrder(g: Grid)
    requires MinutesKnown(SlotLabels(g))
    ensures forall i :: 0 <= i < |SortedTimeSlots(g)| ==> ParseTime(SortedTimeSlots(g)[i]).Some?
    ensures forall i, j :: 0 <= i < j < |SortedTimeSlots(g)| ==>
      ParseTime(SortedTimeSlots(g)[i]).GetOr(0) <= ParseTime(SortedTimeSlots(g)[j]).GetOr(0)
  {
    KnownSorted(SlotLabels(g), SortedTimeSlots(g), ParseTime);
  }

  /** A rearrangement of readings that are all known, sorted by reading, reads in
      non-decreasing order. */
  lemma KnownSorted(labels: seq<string>, r: seq<string>, read: string -> Option<int>)
    requires forall i :: 0 <= i < |labels| ==> read(labels[i]).Some?
    requires multiset(r) == multiset(labels)
    requires SortedBy(r, (s: string) => Key(read(s).GetOr(0), 0))
    ensures forall i :: 0 <= i < |r| ==> read(r[i]).Some?
    ensures forall i, j :: 0 <= i < j < |r| ==> read(r[i]).GetOr(0) <= read(r[j]).GetOr(0)
  {
    forall i | 0 <= i < |r| ensures read(r[i]).Some? {
      assert r[i] in multiset(labels);
      var k :| 0 <= k < |labels| && labels[k] == r[i];
    }
  }

  // ---------------------------------------------------------------------------
  // Day columns
  // ---------------------------------------------------------------------------

  /** `order.indexOf(d)`: -1 for a name not in the Monday-first list. */
  function DayIndex(d: string): (r: int)
    ensures -1 <= r < |Days|
    ensures r >= 0 ==> Days[r] == d
    ensures r == -1 <==> d !in Days
  {
    if d == Days[0] then 0 else if d == Days[1] then 1 else if d == Days[2] then 2
    else if d == Days[3] then 3 else if d == Days[4] then 4 else if d == Days[5] then 5
    else if d == Days[6] then 6 else -1
  }

  function DayKey(d: string): Key {
    Key(DayIndex(d), 0)
  }

  /** `days`: the day keys sorted by their position in the Monday-first list; names outside
      it come first, in insertion order. */
  function OrderedDays(g: Grid): (r: seq<string>)
    ensures SortedBy(r, DayKey) && multiset(r) == multiset(Keys(g))
    ensures forall k :: Filter(r, HasKey(DayKey, k)) == Filter(Keys(g), HasKey(DayKey, k))
  {
    SortBy(Keys(g), DayKey)
  }

  /** When every key is a day name, the columns are exactly the days present, Monday to
      Sunday. */
  lemma OrderedDaysKnown(g: Grid)
    requires UniqueKeys(g)
    requires forall i :: 0 <= i < |g| ==> g[i].0 in Days
    ensures OrderedDays(g) == Filter(Days, (d: string) => d in Keys(g))
  {
    var present := Filter(Days, (d: string) => d in Keys(g));
    var r := OrderedDays(g);
    DaysSorted();
    FilterSorted(Days, (d: string) => d in Keys(g), DayKey);
    VocabularyDistinct();
    assert Distinct(Keys(g)) by {
      forall i, j | 0 <= i < j < |Keys(g)| ensures Keys(g)[i] != Keys(g)[j] {
        assert g[i].0 != g[j].0;
      }
    }
    DistinctFilter(Days, (d: string) => d in Keys(g));
    SameElements(present, Keys(g));
    assert forall i :: 0 <= i < |r| ==> r[i] in Days by {
      forall i | 0 <= i < |r| ensures r[i] in Days {
        assert r[i] in multiset(Keys(g));
        var a :| 0 <= a < |g| && Keys(g)[a] == r[i];
      }
    }
    DayKeyInjective(r);
    SortedUnique(r, present, DayKey);
  }

  /** Distinct day names have distinct positions. */
  lemma DayKeyInjective(r: seq<string>)
    requires forall i :: 0 <= i < |r| ==> r[i] in Days
    ensures KeyInjective(r, DayKey)
  {
  }

  /** The Monday-first list is in day order. */
  lemma DaysSorted()
    ensures SortedBy(Days, DayKey)
  {
    assert forall i :: 0 <= i < |Days| ==> DayIndex(Days[i]) == i;
  }

  /** Keeping some elements of a sorted list keeps it sorted. */
  lemma {:induction false} FilterSorted<T(!new)>(xs: seq<T>, p: T -> bool, key: T -> Key)
    requires SortedBy(xs, key)
    ensures SortedBy(Filter(xs, p), key)
  {
    if |xs| > 0 {
      Tails(xs, key);
      FilterSorted(xs[1..], p, key);
      var rest := Filter(xs[1..], p);
      if p(xs[0]) {
        var r := [xs[0]] + rest;
        forall j | 0 <= j < |rest| ensures KeyLe(key(xs[0]), key(rest[j])) {
          assert rest[j] in xs[1..];
          var m :| 0 <= m < |xs[1..]| && xs[1..][m] == rest[j];
          assert xs[m + 1] == rest[j];
        }
        forall i, j | 0 <= i < j < |r| ensures KeyLe(key(r[i]), key(r[j])) {
          assert r[j] == rest[j - 1];
          if i > 0 { assert r[i] == rest[i - 1]; }
        }
      }
    }
  }

  /** Keeping some elements of a list without repeats has none either. */
  lemma {:induction false} DistinctFilter(xs: seq<string>, p: string -> bool)
    requires Distinct(xs)
    ensures Distinct(Filter(xs, p))
  {
    if |xs| > 0 {
      DistinctTail(xs);
      DistinctFilter(xs[1..], p);
      var rest := Filter(xs[1..], p);
      if p(xs[0]) {
        var r := [xs[0]] + rest;
        assert xs[0] !in xs[1..];
        forall i, j | 0 <= i < j < |r| ensures r[i] != r[j] {
          assert r[j] == rest[j - 1];
          if i > 0 { assert r[i] == rest[i - 1]; }
        }
      }
    }
  }

  /** Two lists without repeats holding the same elements are rearrangements of each other. */
  lemma SameElements(a: seq<string>, b: seq<string>)
    requires Distinct(a) && Distinct(b)
    requires forall x :: x in a <==> x in b
    ensures multiset(a) == multiset(b)
  {
    forall x ensures multiset(a)[x] == multiset(b)[x] {
      DistinctCount(a, x);
      DistinctCount(b, x);
      assert x in a <==> x in multiset(a);
      assert x in b <==> x in multiset(b);
    }
  }

  /** `filteredDays`: the ordered days without Sunday. */
  function FilteredDays(g: Grid): (r: seq<string>)
    ensures Sunday !in r
    ensures forall d :: d in r <==> d in Keys(g) && d != Sunday
    ensures forall i, j :: 0 <= i < j < |r| ==> DayIndex(r[i]) <= DayIndex(r[j])
  {
    var days := OrderedDays(g);
    assert forall d :: d in days <==> d in multiset(Keys(g));
    FilterSorted(days, Other(Sunday), DayKey);
    Filter(days, Other(Sunday))
  }

  /** Names sharing a position in the Monday-first list keep their insertion order among the
      columns: in particular the names outside the list, which all sit at -1. */
  lemma FilteredDaysStable(g: Grid, k: Key)
    requires k != DayKey(Sunday)
    ensures Filter(FilteredDays(g), HasKey(DayKey, k)) == Filter(Keys(g), HasKey(DayKey, k))
  {
    var days := OrderedDays(g);
    var both := (d: string) => d != Sunday && DayKey(d) == k;
    FilterBoth(days, Other(Sunday), HasKey(DayKey, k), both);
    FilterBoth(days, HasKey(DayKey, k), Other(Sunday), both);
    var same := Filter(Keys(g), HasKey(DayKey, k));
    FilterExtremes(same, Other(Sunday));
  }

  /** When every key is a day name, the columns are exactly the days present other than
      Sunday, Monday to Saturday. */
  lemma FilteredDaysKnown(g: Grid)
    requires UniqueKeys(g)
    requires forall i :: 0 <= i < |g| ==> g[i].0 in Days
    ensures FilteredDays(g) == Filter(Days, (d: string) => d in Keys(g) && d != Sunday)
  {
    OrderedDaysKnown(g);
    FilterBoth(Days, (d: string) => d in Keys(g), Other(Sunday), (d: string) => d in Keys(g) && d != Sunday);
  }

  // ---------------------------------------------------------------------------
  // Emptiness and display
  // ---------------------------------------------------------------------------

  /** `isTimetableEmpty`: no day keys, or every day has no slot keys. */
  predicate IsTimetableEmpty(g: Grid) {
    |Keys(g)| == 0 || forall i :: 0 <= i < |g| ==> |Keys(g[i].1)| == 0
  }

  /** A well-formed timetable is empty exactly when no cell holds anything, and exactly when
      it has no slot label. */
  lemma IsTimetableEmptySpec(g: Grid)
    requires UniqueKeys(g)
    ensures IsTimetableEmpty(g) <==> forall d, s :: CellOf(g, d, s).None?
    ensures IsTimetableEmpty(g) <==> forall x :: x !in SlotLabels(g)
  {
    if !IsTimetableEmpty(g) {
      var i :| 0 <= i < |g| && |Keys(g[i].1)| != 0;
      GetAt(g, i);
      var s := Keys(g[i].1)[0];
      assert CellOf(g, g[i].0, s).Some?;
      assert s in SlotLabels(g);
    } else {
      forall d, s ensures CellOf(g, d, s).None? {
        if Get(g, d).Some? {
          GetFound(g, d);
        }
      }
    }
  }

  /** `localTimetableData[day]?.[timeSlot] || 'No class'`. */
  function DisplayCell(g: Grid, day: string, slot: string): (r: string)
    ensures r != ""
    ensures r != NoClass <==> Get(g, day).Some? && HasClass(Get(g, day).value, slot)
  {
    match CellOf(g, day, slot)
    case None => NoClass
    case Some(v) => if v == "" then NoClass else v
  }

  /** The text input of a cell in edit mode: empty for a free cell. */
  function InputValue(display: string): (r: string)
    ensures r == "" <==> display == NoClass || display == ""
  {
    if display == NoClass then "" else display
  }

  /** After an edit the cell shows what was typed, or "No class" for a blank entry. */
  lemma EditThenDisplay(g: Grid, day: string, slot: string, newValue: string)
    ensures DisplayCell(ManualEdit(g, day, slot, newValue), day, slot) == StoredValue(newValue)
    ensures Trim(newValue) != "" ==> DisplayCell(ManualEdit(g, day, slot, newValue), day, slot) == newValue
  {
  }

  /** Typing back the text an input shows leaves what the cell shows unchanged, unless that
      text is blank but not empty. */
  lemma EditRoundTrip(g: Grid, day: string, slot: string)
    ensures Trim(DisplayCell(g, day, slot)) != "" ==>
      DisplayCell(ManualEdit(g, day, slot, InputValue(DisplayCell(g, day, slot))), day, slot) == DisplayCell(g, day, slot)
  {
  }
}

=== FILE: slot_agreement.dfy ===
/**
 The client reads slot labels in three places: `parseHour` in Friends.jsx, `parseSlotTime` in
 Header.jsx and the `parseTime` of the slot comparator in ProfilePage.jsx. They agree on the
 nine canonical labels and on every well-formed label except one that starts at 12 AM.
 */
module SlotAgreement {
  import opened JsCore
  import opened Calendar
  import opened SlotLabel
  import Friends
  import Header
  import ProfilePage

  /** On the nine canonical labels the three readers give the same start: hour 9 + i, or
      that hour in minutes. */
  lemma CanonicalAgree(i: nat)
    requires i < |SlotOrder|
    ensures Friends.ParseHour(SlotOrder[i]) == Some(9 + i)
    ensures Header.ParseSlotTime(SlotOrder[i]) == Some(9 + i)
    ensures ProfilePage.ParseTime(SlotOrder[i]) == Some((9 + i) * 60)
  {
    Friends.ParseHourCanonical(i);
    Header.ParseSlotTimeCanonical(i);
    ProfilePage.ParseTimeCanonical(i);
  }

  /** All three readers order the canonical labels as listed. */
  lemma CanonicalIncreasing(i: nat, j: nat)
    requires i < j < |SlotOrder|
    ensures Friends.ParseHour(SlotOrder[i]).Some? && Friends.ParseHour(SlotOrder[j]).Some?
      && Friends.ParseHour(SlotOrder[i]).value < Friends.ParseHour(SlotOrder[j]).value
    ensures Header.ParseSlotTime(SlotOrder[i]).Some? && Header.ParseSlotTime(SlotOrder[j]).Some?
      && Header.ParseSlotTime(SlotOrder[i]).value < Header.ParseSlotTime(SlotOrder[j]).value
    ensures ProfilePage.ParseTime(SlotOrder[i]).Some? && ProfilePage.ParseTime(SlotOrder[j]).Some?
      && ProfilePage.ParseTime(SlotOrder[i]).value < ProfilePage.ParseTime(SlotOrder[j]).value
  {
    CanonicalAgree(i);
    CanonicalAgree(j);
  }

  /** On a well-formed label the hour readers agree, and the minute reader gives that hour
      in minutes, unless the label starts at 12 AM: then `parseHour` and `parseTime` read
      midnight and `parseSlotTime` reads noon. */
  lemma LabelAgree(s: string)
    requires IsSlotLabel(s)
    ensures Friends.ParseHour(s).Some? && ProfilePage.ParseTime(s) == Some(Friends.ParseHour(s).value * 60)
    ensures !(StartOf(s) == 12 && !IsPm(s)) ==> Header.ParseSlotTime(s) == Friends.ParseHour(s)
    ensures StartOf(s) == 12 && !IsPm(s) ==> Friends.ParseHour(s) == Some(0) && Header.ParseSlotTime(s) == Some(12)
  {
    Friends.ParseHourLabel(s);
    Header.ParseSlotTimeLabel(s);
    ProfilePage.ParseTimeLabel(s);
  }
}

=== FILE: slot_label.dfy ===
/**
 Slot labels of the form "HH-HH AM" / "HH-HH PM" (the `SLOT_ORDER` vocabulary and what
 `parsePDF` accepts as a row anchor), and how the string operations the client parsers apply
 to them decompose such a label.
 */
module SlotLabel {
  import opened JsCore
  import opened Calendar

  /** `/^\d{2}-\d{2} (AM|PM)$/.test(s)`. */
  predicate IsSlotLabel(s: string) {
    |s| == 8 && IsDigit(s[0]) && IsDigit(s[1]) && s[2] == '-' && IsDigit(s[3]) && IsDigit(s[4])
      && s[5] == ' ' && (s[6] == 'A' || s[6] == 'P') && s[7] == 'M'
  }

  /** The value of two decimal digits. */
  function HourValue(ds: string): nat
    requires |ds| == 2
  {
    DigitValue(ds[0]) * 10 + DigitValue(ds[1])
  }

  /** The two-digit start hour as written. */
  function StartOf(s: string): nat
    requires IsSlotLabel(s)
  {
    HourValue(s[..2])
  }

  /** The two-digit end hour as written. */
  function EndOf(s: string): nat
    requires IsSlotLabel(s)
  {
    HourValue(s[3..5])
  }

  predicate IsPm(s: string)
    requires IsSlotLabel(s)
  {
    s[6] == 'P'
  }

  /** The 12-hour to 24-hour rule of `parseHour`: PM adds 12 except at 12, and 12 AM is 0. */
  function To24(h: int, pm: bool): (r: int)
    ensures 1 <= h <= 12 ==> 0 <= r < 24 && r % 12 == h % 12 && (r >= 12 <==> pm)
  {
    if pm then (if h != 12 then h + 12 else h)
    else (if h == 12 then 0 else h)
  }

  /** `slot.split(" ")` gives the range and the meridian, `range.split("-")` the two hours, and
      neither hour contains a ':'. */
  lemma LabelPieces(s: string)
    requires IsSlotLabel(s)
    ensures Split(s, ' ') == [s[..5], s[6..]]
    ensures Split(s[..5], '-') == [s[..2], s[3..5]]
    ensures Split(s[..2], ':') == [s[..2]]
    ensures s[6..] == if IsPm(s) then "PM" else "AM"
  {
    assert s == s[..5] + [' '] + s[6..];
    SplitOnFirst(s[..5], [' '], s[6..]);
    SplitOnNone(s[6..], [' ']);
    var r := s[..5];
    assert r == r[..2] + ['-'] + r[3..5];
    SplitOnFirst(r[..2], ['-'], r[3..5]);
    SplitOnNone(r[3..5], ['-']);
    SplitOnNone(s[..2], [':']);
    assert r[..2] == s[..2] && r[3..5] == s[3..5];
  }

  /** Both two-digit hours read as their value under `parseInt`, `parseInt(., 10)` and
      `Number`. */
  lemma LabelHours(s: string)
    requires IsSlotLabel(s)
    ensures ParseInt(s[..2]) == Some(StartOf(s)) && ParseInt10(s[..2]) == Some(StartOf(s))
    ensures ToNumber(s[..2]) == Some(StartOf(s))
    ensures ParseInt(s[3..5]) == Some(EndOf(s)) && ToNumber(s[3..5]) == Some(EndOf(s))
  {
    TwoDigits(s[..2]);
    TwoDigits(s[3..5]);
  }

  /** A two-digit string reads as its value under all three parsers. */
  lemma TwoDigits(ds: string)
    requires |ds| == 2 && IsDigit(ds[0]) && IsDigit(ds[1])
    ensures ParseInt(ds) == Some(HourValue(ds))
    ensures ParseInt10(ds) == Some(HourValue(ds))
    ensures ToNumber(ds) == Some(HourValue(ds))
  {
    assert AllDigits(ds);
    TwoDigitsValue(ds);
    assert ds + "" == ds;
    ParseDigits(ds, "");
    NumberOfDigits(ds);
  }

  lemma TwoDigitsValue(ds: string)
    requires |ds| == 2 && IsDigit(ds[0]) && IsDigit(ds[1])
    ensures DigitsValue(ds, 10) == HourValue(ds)
  {
    var one := ds[..1];
    assert one[..0] == [];
    assert DigitsValue(one, 10) == DigitValue(ds[0]);
  }

  /** The nine canonical labels are well-formed and, read with the 12-hour rule, start at
      9 + i o'clock; each ends an hour later except "11-12 AM", whose end reads as 0. */
  lemma CanonicalLabel(i: nat)
    requires i < |SlotOrder|
    ensures IsSlotLabel(SlotOrder[i])
    ensures To24(StartOf(SlotOrder[i]), IsPm(SlotOrder[i])) == 9 + i
    ensures To24(EndOf(SlotOrder[i]), IsPm(SlotOrder[i])) == if i == 2 then 0 else 10 + i
  {
  }
}

=== FILE: sorting.dfy ===
/**
 `Array.prototype.sort` with a comparator that subtracts numeric keys. The sort is
 stable (as ECMAScript requires since 2019), so with a consistent comparator its
 result is the stable sort by key, which is what insertion sort computes here.
 */
module Sorting {
  import opened JsCore

  /** A sort key compared lexicographically: a comparator that first subtracts the major
      keys and, on a tie, the minor keys. Single-key comparators use a minor key of 0. */
  datatype Key = Key(major: int, minor: int)

  predicate KeyLe(a: Key, b: Key) {
    a.major < b.major || (a.major == b.major && a.minor <= b.minor)
  }

  predicate KeyLt(a: Key, b: Key) {
    a.major < b.major || (a.major == b.major && a.minor < b.minor)
  }

  predicate SortedBy<T>(s: seq<T>, key: T -> Key) {
    forall i, j :: 0 <= i < j < |s| ==> KeyLe(key(s[i]), key(s[j]))
  }

  /** Place `x` before the first element whose key is not smaller. */
  function Insert<T>(x: T, s: seq<T>, key: T -> Key): (r: seq<T>)
    requires SortedBy(s, key)
    ensures SortedBy(r, key)
    ensures multiset(r) == multiset(s) + multiset{x}
    ensures |r| == |s| + 1
  {
    if |s| == 0 || !KeyLt(key(s[0]), key(x)) then
      PrependSorted(x, s, key);
      [x] + s
    else
      var t := Insert(x, s[1..], key);
      assert s == [s[0]] + s[1..];
      HeadBelow(x, s, key, t);
      PrependSorted(s[0], t, key);
      [s[0]] + t
  }

  /** An element no greater than the head of a sorted list keeps it sorted in front. */
  lemma PrependSorted<T>(a: T, s: seq<T>, key: T -> Key)
    requires SortedBy(s, key) && (|s| == 0 || KeyLe(key(a), key(s[0])))
    ensures SortedBy([a] + s, key)
  {
    var r := [a] + s;
    forall i, j | 0 <= i < j < |r| ensures KeyLe(key(r[i]), key(r[j])) {
      assert r[j] == s[j - 1];
      if i > 0 {
        assert r[i] == s[i - 1];
      }
    }
  }

  /** The head of a sorted list, smaller than `x`, is no greater than any element of the
      rest with `x` added. */
  lemma HeadBelow<T>(x: T, s: seq<T>, key: T -> Key, t: seq<T>)
    requires SortedBy(s, key) && |s| > 0 && KeyLt(key(s[0]), key(x))
    requires multiset(t) == multiset(s[1..]) + multiset{x}
    ensures |t| == 0 || KeyLe(key(s[0]), key(t[0]))
  {
    if |t| > 0 {
      assert t[0] in multiset(t);
      if t[0] != x {
        assert t[0] in multiset(s[1..]);
        var m :| 0 <= m < |s[1..]| && s[1..][m] == t[0];
        assert s[m + 1] == t[0];
      }
    }
  }

  /** The test "has sort key `k`": the elements a comparator ties with each other. */
  function HasKey<T>(key: T -> Key, k: Key): T -> bool {
    x => key(x) == k
  }

  /** Inserting `x` puts it in front of every element sharing its key, and leaves the
      relative order of each key's elements otherwise as it was. */
  lemma {:induction false} InsertKeyed<T(!new)>(x: T, s: seq<T>, key: T -> Key, k: Key)
    requires SortedBy(s, key)
    ensures Filter(Insert(x, s, key), HasKey(key, k))
      == (if key(x) == k then [x] else []) + Filter(s, HasKey(key, k))
    decreases |s|
  {
    var p := HasKey(key, k);
    var e := if key(x) == k then [x] else [];
    FilterOne(x, p);
    if |s| == 0 || !KeyLt(key(s[0]), key(x)) {
      FilterAppend([x], s, p);
    } else {
      var t := Insert(x, s[1..], key);
      var h := if key(s[0]) == k then [s[0]] else [];
      FilterOne(s[0], p);
      FilterAppend([s[0]], t, p);
      assert s == [s[0]] + s[1..];
      FilterAppend([s[0]], s[1..], p);
      InsertKeyed(x, s[1..], key, k);
      assert e == [] || h == [];
      SwapEmpty(h, e, Filter(s[1..], p));
    }
  }

  lemma SwapEmpty<T>(a: seq<T>, b: seq<T>, c: seq<T>)
    requires a == [] || b == []
    ensures a + (b + c) == b + (a + c)
  {
    if a == [] {
      assert a + (b + c) == b + c == b + (a + c);
    } else {
      assert a + (b + c) == a + c == b + (a + c);
    }
  }

  lemma FilterOne<T(!new)>(a: T, p: T -> bool)
    ensures Filter([a], p) == if p(a) then [a] else []
  {
    assert [a][1..] == [];
  }

  lemma InsertKeyedAll<T(!new)>(x: T, s: seq<T>, key: T -> Key)
    requires SortedBy(s, key)
    ensures forall k :: (Filter(Insert(x, s, key), HasKey(key, k))
      == (if key(x) == k then [x] else []) + Filter(s, HasKey(key, k)))
  {
    forall k ensures Filter(Insert(x, s, key), HasKey(key, k))
      == (if key(x) == k then [x] else []) + Filter(s, HasKey(key, k))
    {
      InsertKeyed(x, s, key, k);
    }
  }

  /** `s.slice().sort((a, b) => key(a) - key(b))`: a stable sort, so the elements sharing a
      key keep their input order. */
  function SortBy<T(!new)>(s: seq<T>, key: T -> Key): (r: seq<T>)
    ensures SortedBy(r, key)
    ensures multiset(r) == multiset(s)
    ensures |r| == |s|
    ensures forall k :: Filter(r, HasKey(key, k)) == Filter(s, HasKey(key, k))
  {
    if |s| == 0 then []
    else
      assert s == [s[0]] + s[1..];
      InsertKeyedAll(s[0], SortBy(s[1..], key), key);
      Insert(s[0], SortBy(s[1..], key), key)
  }

  /** No two distinct elements of `s` share a key. */
  ghost predicate KeyInjective<T>(s: seq<T>, key: T -> Key) {
    forall i, j :: 0 <= i < |s| && 0 <= j < |s| && key(s[i]) == key(s[j]) ==> s[i] == s[j]
  }

  /** Two sorted arrangements of the same elements coincide when no two distinct elements
      share a key: the sorted order is then fully determined by the keys. */
  lemma {:induction false} SortedUnique<T>(a: seq<T>, b: seq<T>, key: T -> Key)
    requires SortedBy(a, key) && SortedBy(b, key)
    requires multiset(a) == multiset(b)
    requires KeyInjective(a, key)
    ensures a == b
    decreases |a|
  {
    assert |a| == |multiset(a)| == |multiset(b)| == |b|;
    if |a| > 0 {
      HeadsEqual(a, b, key);
      assert a == [a[0]] + a[1..];
      assert b == [b[0]] + b[1..];
      assert multiset(a[1..]) == multiset(a) - multiset{a[0]};
      assert multiset(b[1..]) == multiset(b) - multiset{b[0]};
      Tails(a, key);
      Tails(b, key);
      SortedUnique(a[1..], b[1..], key);
    }
  }

  lemma HeadsEqual<T>(a: seq<T>, b: seq<T>, key: T -> Key)
    requires |a| > 0
    requires SortedBy(a, key) && SortedBy(b, key)
    requires multiset(a) == multiset(b)
    requires KeyInjective(a, key)
    ensures a[0] == b[0]
  {
    assert a[0] in multiset(b);
    var jb :| 0 <= jb < |b| && b[jb] == a[0];
    assert b[0] in multiset(a);
    var ja :| 0 <= ja < |a| && a[ja] == b[0];
    assert KeyLe(key(b[0]), key(a[0])) by {
      if jb > 0 { assert KeyLe(key(b[0]), key(b[jb])); }
    }
    assert KeyLe(key(a[0]), key(b[0])) by {
      if ja > 0 { assert KeyLe(key(a[0]), key(a[ja])); }
    }
    assert key(a[0]) == key(a[ja]);
  }

  lemma Tails<T>(a: seq<T>, key: T -> Key)
    requires |a| > 0
    ensures SortedBy(a, key) ==> SortedBy(a[1..], key)
    ensures KeyInjective(a, key) ==> KeyInjective(a[1..], key)
  {
    if SortedBy(a, key) {
      forall i, j | 0 <= i < j < |a[1..]| ensures KeyLe(key(a[1..][i]), key(a[1..][j])) {
        assert a[1..][i] == a[i + 1] && a[1..][j] == a[j + 1];
      }
    }
    if KeyInjective(a, key) {
      forall i, j | 0 <= i < |a[1..]| && 0 <= j < |a[1..]| && key(a[1..][i]) == key(a[1..][j])
        ensures a[1..][i] == a[1..][j]
      {
        assert a[1..][i] == a[i + 1] && a[1..][j] == a[j + 1];
      }
    }
  }
}

=== FILE: time_slot.dfy ===
/**
 `normalizeTimeSlot` of backend/routes/timetableRoutes.js: turn a spreadsheet time cell
 such as "13:00 - 14:00" into the slot label "01-02 PM" used as a timetable key.
 */
module TimeSlot {
  import opened JsCore
  import opened Calendar

  /** The four numbers captured by `(\d{1,2}):(\d{2})\s*-\s*(\d{1,2}):(\d{2})`, each the value of
      `parseInt(group, 10)`. */
  datatype TimeRange = TimeRange(startHour: nat, startMinute: nat, endHour: nat, endMinute: nat)

  function TwoDigitValue(a: char, b: char): nat
    requires IsDigit(a) && IsDigit(b)
  {
    DigitValue(a) * 10 + DigitValue(b)
  }

  /** `(\d{1,2}):` at `i`: the hour and the index after the colon. The greedy quantifier takes two
      digits when it can; backtracking to one digit only helps when the second digit is a colon,
      which it is not. */
  function HourColonAt(s: string, i: nat): (r: Option<(nat, nat)>)
    ensures r.Some? ==> i < r.value.1 <= |s| && r.value.0 < 100 && s[r.value.1 - 1] == ':'
  {
    if i + 1 < |s| && IsDigit(s[i]) && s[i + 1] == ':' then Some((DigitValue(s[i]), i + 2))
    else if i + 2 < |s| && IsDigit(s[i]) && IsDigit(s[i + 1]) && s[i + 2] == ':' then
      Some((TwoDigitValue(s[i], s[i + 1]), i + 3))
    else None
  }

  /** `(\d{2})` at `i`. */
  function MinutesAt(s: string, i: nat): (r: Option<nat>)
    ensures r.Some? ==> i + 2 <= |s| && r.value < 100
  {
    if i + 1 < |s| && IsDigit(s[i]) && IsDigit(s[i + 1]) then Some(TwoDigitValue(s[i], s[i + 1]))
    else None
  }

  /** `\s*` from `i`: the first index at or after `i` that is not white space. */
  function SkipSpaces(s: string, i: nat): (j: nat)
    requires i <= |s|
    ensures i <= j <= |s|
    ensures forall k :: i <= k < j ==> IsSpace(s[k])
    ensures j == |s| || !IsSpace(s[j])
    decreases |s| - i
  {
    if i < |s| && IsSpace(s[i]) then SkipSpaces(s, i + 1) else i
  }

  /** The whole pattern anchored at `i`. */
  function MatchAt(s: string, i: nat): Option<TimeRange> {
    match HourColonAt(s, i)
    case None => None
    case Some((sh, j)) =>
      match MinutesAt(s, j)
      case None => None
      case Some(sm) =>
        var k := SkipSpaces(s, j + 2);
        if k < |s| && s[k] == '-' then
          var l := SkipSpaces(s, k + 1);
          match HourColonAt(s, l)
          case None => None
          case Some((eh, m)) =>
            match MinutesAt(s, m)
            case None => None
            case Some(em) => Some(TimeRange(sh, sm, eh, em))
        else None
  }

  /** Each number came from at most two decimal digits. */
  predicate TwoDigitFields(t: TimeRange) {
    t.startHour < 100 && t.startMinute < 100 && t.endHour < 100 && t.endMinute < 100
  }

  /** The pattern matches at `i` and at no earlier position. */
  predicate LeftmostMatchAt(s: string, i: nat) {
    i < |s| && MatchAt(s, i).Some? && forall k :: 0 <= k < i ==> MatchAt(s, k).None?
  }

  /** `s.match(pattern)` without the `g` flag: the leftmost match. */
  function FindTimeRange(s: string): (r: Option<TimeRange>)
    ensures r.None? <==> forall i :: 0 <= i < |s| ==> MatchAt(s, i).None?
    ensures r.Some? ==> exists i {:trigger LeftmostMatchAt(s, i)} :: LeftmostMatchAt(s, i) && r == MatchAt(s, i)
    ensures r.Some? ==> TwoDigitFields(r.value)
  {
    var f := (i: nat) => MatchAt(s, i);
    var r := FirstFrom(f, 0, |s|);
    assert forall i :: 0 <= i < |s| ==> f(i) == MatchAt(s, i);
    assert r.Some? ==> exists i {:trigger LeftmostMatchAt(s, i)} :: LeftmostMatchAt(s, i) && r == MatchAt(s, i) by {
      if r.Some? {
        FirstFromAt(f, 0, |s|);
        var j: nat :| FirstSomeAt(f, 0, |s|, j) && f(j) == r;
        forall k | 0 <= k < j ensures MatchAt(s, k).None? {
          assert f(k).None?;
        }
        assert LeftmostMatchAt(s, j);
      }
    }
    r
  }

  /** A 24-hour clock hour on the 12-hour clock: 13..23 lose 12, and 0 becomes 12. */
  function TwelveHour(h: nat): (r: nat)
    ensures h <= 24 ==> 1 <= r <= 12 && r % 12 == h % 12
  {
    var h1 := if h > 12 then h - 12 else h;
    if h1 == 0 then 12 else h1
  }

  /** "HH" when the minutes are zero, "HH:MM" otherwise. */
  function FormatPart(h: nat, m: nat): string {
    if m == 0 then Pad2(h) else Pad2(h) + ":" + Pad2(m)
  }

  function Suffix(t: TimeRange): string {
    if t.startHour < 12 then "AM" else "PM"
  }

  /** The label built from a matched range: `${startStr}-${endStr} ${suffix}`. */
  function FormatSlot(t: TimeRange): string {
    FormatPart(TwelveHour(t.startHour), t.startMinute) + "-"
      + FormatPart(TwelveHour(t.endHour), t.endMinute) + " " + Suffix(t)
  }

  /** The text handed to the pattern: one trailing colon dropped, line breaks removed, trimmed. */
  function Clean(raw: string): string {
    Trim(RemoveChar(StripTrailingColon(raw), '\n'))
  }

  /** `normalizeTimeSlot(raw)`; `None` is `null`. */
  function NormalizeTimeSlot(raw: string): (r: Option<string>)
    ensures r.Some? ==> exists t :: TwoDigitFields(t) && r.value == FormatSlot(t)
    ensures raw == "" ==> r.None?
    ensures r.None? <==> raw == "" || forall i :: 0 <= i < |Clean(raw)| ==> MatchAt(Clean(raw), i).None?
    ensures r.Some? ==> exists i {:trigger LeftmostMatchAt(Clean(raw), i)} ::
      LeftmostMatchAt(Clean(raw), i) && r.value == FormatSlot(MatchAt(Clean(raw), i).value)
  {
    if raw == "" then None
    else
      match FindTimeRange(Clean(raw))
      case None => None
      case Some(t) => Some(FormatSlot(t))
  }

  /** Text without a colon never names a slot. */
  lemma NoColonNoSlot(raw: string)
    requires ':' !in raw
    ensures NormalizeTimeSlot(raw).None?
  {
    MatchHasColon(Clean(raw));
    CleanKeepsChars(raw);
  }

  lemma MatchHasColon(s: string)
    ensures FindTimeRange(s).Some? ==> ':' in s
  {
    if FindTimeRange(s).Some? {
      var i :| 0 <= i < |s| && MatchAt(s, i) == FindTimeRange(s);
      var j := HourColonAt(s, i).value.1;
      assert s[j - 1] in s;
    }
  }

  lemma CleanKeepsChars(raw: string)
    ensures forall c :: c in Clean(raw) ==> c in raw
  {
    var a := StripTrailingColon(raw);
    assert forall c :: c in a ==> c in raw;
  }

  /** The spreadsheet's own spelling of a range, "HH:MM - HH:MM" with two-digit fields. */
  function RangeText(t: TimeRange): string {
    Pad2(t.startHour) + ":" + Pad2(t.startMinute) + " - " + Pad2(t.endHour) + ":" + Pad2(t.endMinute)
  }

  /** The spelling is thirteen characters, starts and ends with a digit and has no line break. */
  lemma RangeTextShape(t: TimeRange)
    requires TwoDigitFields(t)
    ensures var s := RangeText(t);
      |s| == 13 && IsDigit(s[0]) && IsDigit(s[12]) && !IsSpace(s[0]) && !IsSpace(s[12])
        && '\n' !in s
  {
    var s := RangeText(t);
    assert |s| == 13;
    assert s[12] == Pad2(t.endMinute)[1];
    NoSpaceDigit(s[12]);
    NoSpaceDigit(s[0]);
    forall k | 0 <= k < |s| ensures s[k] != '\n' {
      assert k < 13;
    }
  }

  /** "HH:MM" written at `i` is read as hour `h` and minute `m`. */
  lemma MatchClockAt(s: string, i: nat, h: nat, m: nat)
    requires h < 100 && m < 100
    requires i + 5 <= |s| && s[i..i + 5] == Pad2(h) + ":" + Pad2(m)
    ensures HourColonAt(s, i) == Some((h, i + 3))
    ensures MinutesAt(s, i + 3) == Some(m)
  {
    var a, b := Pad2(h), Pad2(m);
    assert s[i] == s[i..i + 5][0] == a[0];
    assert s[i + 1] == s[i..i + 5][1] == a[1];
    assert s[i + 2] == s[i..i + 5][2] == ':';
    assert s[i + 3] == s[i..i + 5][3] == b[0];
    assert s[i + 4] == s[i..i + 5][4] == b[1];
  }

  /** A range written as "HH:MM - HH:MM" is recognised with exactly the numbers written. */
  lemma MatchRangeText(t: TimeRange)
    requires TwoDigitFields(t)
    ensures MatchAt(RangeText(t), 0) == Some(t)
  {
    var s := RangeText(t);
    var start := Pad2(t.startHour) + ":" + Pad2(t.startMinute);
    var end := Pad2(t.endHour) + ":" + Pad2(t.endMinute);
    assert s == start + " - " + end;
    assert |start| == 5 && |end| == 5;
    assert s[0..5] == start;
    assert s[8..13] == end;
    MatchClockAt(s, 0, t.startHour, t.startMinute);
    MatchClockAt(s, 8, t.endHour, t.endMinute);
    assert s[5] == ' ' && s[6] == '-' && s[7] == ' ';
    assert SkipSpaces(s, 5) == 6;
    assert IsDigit(s[8]);
    NoSpaceDigit(s[8]);
    assert SkipSpaces(s, 7) == 8;
  }

  /** Normalising the spreadsheet spelling of a range yields the label formatted from its numbers:
      the parser reads back exactly what was written. */
  lemma NormalizeRangeText(t: TimeRange)
    requires TwoDigitFields(t)
    ensures NormalizeTimeSlot(RangeText(t)) == Some(FormatSlot(t))
  {
    var s := RangeText(t);
    MatchRangeText(t);
    RangeTextShape(t);
    assert StripTrailingColon(s) == s;
    assert Clean(s) == s;
    var f := i => MatchAt(s, i);
    assert f(0) == Some(t);
    assert FindTimeRange(s) == Some(t);
  }

  /** The suffix is "AM" exactly when the range starts before noon. */
  lemma SuffixAm(t: TimeRange)
    ensures EndsWith(FormatSlot(t), "AM") <==> t.startHour < 12
    ensures EndsWith(FormatSlot(t), "PM") <==> t.startHour >= 12
  {
    var r := FormatSlot(t);
    assert r[|r| - 2..] == Suffix(t);
  }

  /** Each whole-hour range from 09:00 to 18:00 normalises to the matching canonical slot, so a
      spreadsheet that writes whole hours fills the cells of the empty timetable. */
  lemma CanonicalSlots(h: nat)
    requires 9 <= h <= 17
    ensures FormatSlot(TimeRange(h, 0, h + 1, 0)) == SlotOrder[h - 9]
  {
    WholeHourText(h);
    if h <= 12 {
      MorningSlots(h);
    } else {
      AfternoonSlots(h);
    }
  }

  lemma MorningSlots(h: nat)
    requires 9 <= h <= 12
    ensures var a, b := TwelveHour(h), TwelveHour(h + 1);
      [DigitChar(a / 10), DigitChar(a % 10), '-', DigitChar(b / 10), DigitChar(b % 10), ' ',
       if h < 12 then 'A' else 'P', 'M'] == SlotOrder[h - 9]
  {
  }

  lemma AfternoonSlots(h: nat)
    requires 13 <= h <= 17
    ensures var a, b := TwelveHour(h), TwelveHour(h + 1);
      [DigitChar(a / 10), DigitChar(a % 10), '-', DigitChar(b / 10), DigitChar(b % 10), ' ',
       if h < 12 then 'A' else 'P', 'M'] == SlotOrder[h - 9]
  {
  }

  lemma WholeHourText(h: nat)
    requires h <= 24
    ensures var a, b := TwelveHour(h), TwelveHour(h + 1);
      FormatSlot(TimeRange(h, 0, h + 1, 0)) ==
        [DigitChar(a / 10), DigitChar(a % 10), '-', DigitChar(b / 10), DigitChar(b % 10), ' ',
         if h < 12 then 'A' else 'P', 'M']
  {
    var a, b := TwelveHour(h), TwelveHour(h + 1);
    var t := TimeRange(h, 0, h + 1, 0);
    assert FormatPart(a, 0) == [DigitChar(a / 10), DigitChar(a % 10)];
    assert FormatPart(b, 0) == [DigitChar(b / 10), DigitChar(b % 10)];
    assert Suffix(t) == [if h < 12 then 'A' else 'P', 'M'];
  }

  /** A label whose range starts off the hour has a colon after its two-digit start hour. */
  lemma MinuteColon(t: TimeRange)
    requires TwoDigitFields(t) && t.startMinute != 0
    ensures |FormatSlot(t)| > 2 && FormatSlot(t)[2] == ':'
  {
    var p := Pad2(TwelveHour(t.startHour));
    assert |p| == 2;
    assert FormatPart(TwelveHour(t.startHour), t.startMinute) == p + ":" + Pad2(t.startMinute);
  }

  /** Every canonical label has a dash after its two-digit start hour. */
  lemma CanonicalDash()
    ensures forall k :: 0 <= k < |SlotOrder| ==> |SlotOrder[k]| > 2 && SlotOrder[k][2] == '-'
  {
  }
}

=== FILE: upload.dfy ===
/**
 The `POST /upload-timetable` route (backend/routes/timetableRoutes.js): classify the
 uploaded file, run the matching parser, store the grid on the user and answer 200, or
 answer 500 with the message of whatever was thrown. The file's content is represented by
 what the spreadsheet reader and the PDF text extractor would hand the parsers.
 */
module Upload {
  import opened JsCore
  import opened Assoc
  import opened Calendar
  import opened ExcelParser
  import opened PdfParser

  datatype FileKind = Pdf | Excel | Unknown

  /** `detectFileType(file)`. */
  function DetectFileType(mimetype: string, name: string): (k: FileKind)
    ensures k == Pdf <==> Includes(mimetype, "pdf")
    ensures k == Unknown <==>
      !Includes(mimetype, "pdf") && !Includes(mimetype, "sheet") && !EndsWith(name, ".xlsx") && !EndsWith(name, ".xls")
  {
    if Includes(mimetype, "pdf") then Pdf
    else if Includes(mimetype, "sheet") || EndsWith(name, ".xlsx") || EndsWith(name, ".xls") then Excel
    else Unknown
  }

  /** `req.file` as multer leaves it, with the content already read by the foreign readers. */
  datatype UploadedFile = UploadedFile(mimetype: string, originalName: string, sheet: seq<Row>, fragments: seq<Fragment>)

  /** The JSON answer and the timetable stored on the user (if any). */
  datatype Response = Response(status: int, success: bool, message: string, stored: Option<Grid>)

  const UnsupportedFileType: string := "Unsupported file type"
  const UploadedMessage: string := "Timetable uploaded successfully"
  /** What V8 throws for `req.file.path` when no file was attached. */
  const NoFileMessage: string := "Cannot read properties of undefined (reading 'path')"

  /** The parser the route picks, or the error it throws. */
  function ParseUpload(f: UploadedFile): Result<Grid> {
    match DetectFileType(f.mimetype, f.originalName)
    case Excel => ParseExcel(f.sheet)
    case Pdf => ParsePdf(f.fragments)
    case Unknown => Failure(UnsupportedFileType)
  }

  /** The route handler: a thrown error becomes a 500 carrying its message. */
  function UploadTimetable(file: Option<UploadedFile>): (r: Response)
    ensures r.status == 200 <==> r.stored.Some?
    ensures r.status == 200 || r.status == 500
    ensures r.success <==> r.status == 200
  {
    match file
    case None => Response(500, false, NoFileMessage, None)
    case Some(f) => Answer(ParseUpload(f))
  }

  /** The end of the `try`: the stored grid and 200, or the `catch` with the thrown message. */
  function Answer(parsed: Result<Grid>): (r: Response)
    ensures r.status == 500 <==> parsed.Failure?
    ensures parsed.Failure? ==> r.message == parsed.error && r.stored.None?
    ensures parsed.Success? ==> r.stored == Some(parsed.value)
  {
    match parsed
    case Failure(e) => Response(500, false, e, None)
    case Success(g) => Response(200, true, UploadedMessage, Some(g))
  }

  /** A file that is neither a PDF nor a spreadsheet is refused before any parsing, and the
      user's timetable is left alone. */
  lemma UnknownRejected(f: UploadedFile)
    requires !Includes(f.mimetype, "pdf") && !Includes(f.mimetype, "sheet")
    requires !EndsWith(f.originalName, ".xlsx") && !EndsWith(f.originalName, ".xls")
    ensures UploadTimetable(Some(f)) == Response(500, false, UnsupportedFileType, None)
  {
  }

  /** A spreadsheet upload is refused with the TypeError of `.trim()` exactly when some cell of
      row 3 or later is a non-zero number or `true`; otherwise the grid read from the sheet,
      which keeps the seven days, is stored. */
  lemma ExcelStored(f: UploadedFile)
    requires DetectFileType(f.mimetype, f.originalName) == Excel
    ensures UploadTimetable(Some(f)).status == 500 <==> exists r, c :: (3 <= r < |f.sheet| && 0 <= c < |f.sheet[r]|
      && ((f.sheet[r][c].Num? && f.sheet[r][c].value != 0.0) || f.sheet[r][c] == Bool(true)))
    ensures UploadTimetable(Some(f)).status == 500 ==> UploadTimetable(Some(f)).message == TrimError
    ensures UploadTimetable(Some(f)).status == 200 ==> UploadTimetable(Some(f)).stored == Some(ExcelGrid(f.sheet))
    ensures UploadTimetable(Some(f)).status == 200 ==> Keys(UploadTimetable(Some(f)).stored.value) == Days
  {
    assert UploadTimetable(Some(f)) == Answer(ParseExcel(f.sheet));
    ParseExcelThrows(f.sheet);
    ExcelGridDays(f.sheet);
  }

  /** A PDF upload is refused exactly when the page has a course code but no day header or
      no slot label; otherwise the parsed grid with the seven days is stored. */
  lemma PdfStored(f: UploadedFile)
    requires DetectFileType(f.mimetype, f.originalName) == Pdf
    ensures UploadTimetable(Some(f)).status == 500 <==>
      HasCourse(f.fragments) && (|SlotAnchors(f.fragments)| == 0 || |DayAnchors(f.fragments)| == 0)
    ensures UploadTimetable(Some(f)).status == 500 ==> UploadTimetable(Some(f)).message == ReduceOfEmpty
    ensures UploadTimetable(Some(f)).status == 200 ==> Keys(UploadTimetable(Some(f)).stored.value) == Days
  {
    var parsed := ParsePdf(f.fragments);
    assert UploadTimetable(Some(f)) == Answer(parsed);
    ParsePdfFailure(f.fragments);
    if parsed.Success? {
      ParsePdfDays(f.fragments);
    }
  }

  /** A name ending in ".xlsx" or ".xls" makes a spreadsheet of any upload whose type does not
      mention "pdf". */
  lemma ExtensionDecides(mimetype: string, name: string)
    requires !Includes(mimetype, "pdf")
    requires EndsWith(name, ".xlsx") || EndsWith(name, ".xls")
    ensures DetectFileType(mimetype, name) == Excel
  {
  }
}

=== FILE: users.dfy ===
/**
 The user controller's social and verification logic (backend/controllers/userController.js)
 over an in-memory user table: the friend-request toggle, answering a request, reminders on
 the capped notification list, marking a notification read, and the two one-time-password
 checks.
 */
module Users {
  import opened JsCore
  import opened Notifications

  /** The fields of a user document the handlers read or write. `otpExpiry` has no default and
      is `None` until one is stored. */
  datatype User = User(
    username: string,
    email: string,
    friends: seq<Id>,
    pending: seq<Id>,
    notifications: seq<Notification>,
    otp: string,
    otpExpiry: Option<int>,
    verified: bool)

  /** A new user as the schema's defaults make it. */
  function NewUser(username: string, email: string): (u: User)
    ensures u.friends == [] && u.pending == [] && u.notifications == []
    ensures u.otp == "" && !u.verified
  {
    User(username, email, [], [], [], "", None, false)
  }

  /** The user collection, by id. */
  type Db = map<Id, User>

  /** The status and message a handler answers with, and the collection afterwards. */
  datatype Outcome = Outcome(status: int, message: string, db: Db)

  /** `User.updateOne({ _id: id }, …)`: the change applies to the user with that id, and to
      nobody when there is none. */
  function Modify(db: Db, id: Id, u: User): (r: Db)
    ensures r.Keys == db.Keys
    ensures id in db ==> r[id] == u
    ensures forall v :: v in db && v != id ==> r[v] == db[v]
  {
    if id in db then db[id := u] else db
  }

  /** `$pull: { friends: x }`. */
  function PullFriend(db: Db, id: Id, x: Id): Db {
    if id in db then Modify(db, id, db[id].(friends := Without(db[id].friends, x))) else db
  }

  /** `$push: { friends: x }`. */
  function PushFriend(db: Db, id: Id, x: Id): Db {
    if id in db then Modify(db, id, db[id].(friends := db[id].friends + [x])) else db
  }

  /** `$pull: { pendingRequest: x }`. */
  function PullPending(db: Db, id: Id, x: Id): Db {
    if id in db then Modify(db, id, db[id].(pending := Without(db[id].pending, x))) else db
  }

  /** `$push: { pendingRequest: x }`. */
  function PushPending(db: Db, id: Id, x: Id): Db {
    if id in db then Modify(db, id, db[id].(pending := db[id].pending + [x])) else db
  }

  // ---------------------------------------------------------------------------
  // Friend requests
  // ---------------------------------------------------------------------------

  /** Which branch of the toggle applies between two distinct, existing users. */
  datatype Relation = Friends | Requested | Strangers

  /** The toggle's test: friendship as the requester's list records it, then a request as the
      target's pending list records it. */
  function RelationOf(db: Db, userId: Id, targetId: Id): (rel: Relation)
    requires userId in db && targetId in db
    ensures rel == Friends <==> targetId in db[userId].friends
    ensures rel == Requested <==> targetId !in db[userId].friends && userId in db[targetId].pending
  {
    if targetId in db[userId].friends then Friends
    else if userId in db[targetId].pending then Requested
    else Strangers
  }

  /** `sendFriendRequest`: a request to oneself is refused, a missing user is 404; otherwise
      friends are unfriended on both sides, a pending request is withdrawn, and a new one is
      appended to the target's pending list. */
  function SendFriendRequest(db: Db, userId: Id, targetId: Id): (r: Outcome)
    ensures r.status == 400 <==> userId == targetId
    ensures r.status == 404 <==> userId != targetId && (userId !in db || targetId !in db)
    ensures r.status != 200 ==> r.db == db
    ensures r.status == 200 ==> (r.db.Keys == db.Keys
      && forall v :: v in db && v != userId && v != targetId ==> r.db[v] == db[v])
    ensures r.status == 200 ==> forall v :: v in db ==> r.db[v].notifications == db[v].notifications
  {
    if userId == targetId then Outcome(400, "You cannot send request to yourself", db)
    else if userId !in db || targetId !in db then Outcome(404, "User not found", db)
    else match RelationOf(db, userId, targetId)
      case Friends =>
        Outcome(200, "Removed from friends", PullFriend(PullFriend(db, userId, targetId), targetId, userId))
      case Requested =>
        Outcome(200, "Friend request canceled", PullPending(db, targetId, userId))
      case Strangers =>
        Outcome(200, "Friend request sent", PushPending(db, targetId, userId))
  }

  /** Between friends the toggle removes each from the other's list, every other friend
      stays, and both pending lists are untouched. */
  lemma UnfriendBoth(db: Db, userId: Id, targetId: Id)
    requires userId != targetId && userId in db && targetId in db
    requires targetId in db[userId].friends
    ensures var r := SendFriendRequest(db, userId, targetId);
      r.message == "Removed from friends"
      && targetId !in r.db[userId].friends && userId !in r.db[targetId].friends
      && (forall v :: v != targetId ==> (v in r.db[userId].friends <==> v in db[userId].friends))
      && (forall v :: v != userId ==> (v in r.db[targetId].friends <==> v in db[targetId].friends))
      && r.db[userId].pending == db[userId].pending && r.db[targetId].pending == db[targetId].pending
  {
  }

  /** A pending request is withdrawn: the requester leaves the target's pending list, other
      requests stay, and neither friends list changes. */
  lemma CancelRequest(db: Db, userId: Id, targetId: Id)
    requires userId != targetId && userId in db && targetId in db
    requires targetId !in db[userId].friends && userId in db[targetId].pending
    ensures var r := SendFriendRequest(db, userId, targetId);
      r.message == "Friend request canceled"
      && userId !in r.db[targetId].pending
      && (forall v :: v != userId ==> (v in r.db[targetId].pending <==> v in db[targetId].pending))
      && r.db[userId] == db[userId] && r.db[targetId].friends == db[targetId].friends
  {
  }

  /** Otherwise the requester is appended to the target's pending list and nothing else
      changes. */
  lemma SendRequest(db: Db, userId: Id, targetId: Id)
    requires userId != targetId && userId in db && targetId in db
    requires targetId !in db[userId].friends && userId !in db[targetId].pending
    ensures var r := SendFriendRequest(db, userId, targetId);
      r.message == "Friend request sent"
      && r.db[targetId] == db[targetId].(pending := db[targetId].pending + [userId])
      && r.db[userId] == db[userId]
  {
  }

  /** Sending and then toggling again between strangers restores the collection: the second
      call withdraws the request the first one made. */
  lemma ToggleTwice(db: Db, userId: Id, targetId: Id)
    requires userId != targetId && userId in db && targetId in db
    requires targetId !in db[userId].friends && userId !in db[targetId].pending
    ensures SendFriendRequest(SendFriendRequest(db, userId, targetId).db, userId, targetId).db == db
  {
    var db1 := SendFriendRequest(db, userId, targetId).db;
    assert db1[targetId].pending == db[targetId].pending + [userId];
    assert db1[userId] == db[userId];
    WithoutAppended(db[targetId].pending, userId);
    var db2 := SendFriendRequest(db1, userId, targetId).db;
    assert db2[targetId] == db[targetId];
    assert db2[userId] == db[userId];
  }

  // ---------------------------------------------------------------------------
  // Answering a request
  // ---------------------------------------------------------------------------

  /** `acceptRejectRequest`: only a literal `false` rejects, which drops the target from the
      user's pending list and answers 400; anything else adds each to the other's friends list
      and drops the pending entry, whether or not a request was pending. `result` is `None` when
      the body's field is missing or not a boolean. */
  function AcceptRejectRequest(db: Db, userId: Id, targetId: Id, result: Option<bool>): (r: Outcome)
    ensures r.status == 400 <==> result == Some(false)
    ensures r.status != 400 ==> r.status == 200
    ensures r.db.Keys == db.Keys
    ensures forall v :: v in db && v != userId && v != targetId ==> r.db[v] == db[v]
    ensures userId in db ==> (targetId !in r.db[userId].pending
      && forall v :: v != targetId ==> (v in r.db[userId].pending <==> v in db[userId].pending))
    ensures r.status == 400 ==> forall v :: v in db ==> r.db[v].friends == db[v].friends
  {
    if result == Some(false) then
      Outcome(400, "Friend request rejected", PullPending(db, userId, targetId))
    else
      var db1 := PushFriend(db, userId, targetId);
      var db2 := PushFriend(db1, targetId, userId);
      Outcome(200, "Friend added successfully", PullPending(db2, userId, targetId))
  }

  /** An accept between two existing users appends each to the other's friends list and keeps
      the target's pending list, even when no request was pending and even when they already
      were friends. */
  lemma AcceptAppends(db: Db, userId: Id, targetId: Id, result: Option<bool>)
    requires userId != targetId && userId in db && targetId in db && result != Some(false)
    ensures var r := AcceptRejectRequest(db, userId, targetId, result);
      r.db[userId].friends == db[userId].friends + [targetId]
      && r.db[targetId].friends == db[targetId].friends + [userId]
      && r.db[targetId].pending == db[targetId].pending
  {
  }

  /** Accepting twice leaves two copies of each id in the friends lists: nothing deduplicates. */
  lemma AcceptTwiceDuplicates(db: Db, userId: Id, targetId: Id)
    requires userId != targetId && userId in db && targetId in db
    ensures var r := AcceptRejectRequest(AcceptRejectRequest(db, userId, targetId, Some(true)).db,
                                         userId, targetId, Some(true));
      r.db[userId].friends == db[userId].friends + [targetId, targetId]
  {
    AcceptAppends(db, userId, targetId, Some(true));
    var db1 := AcceptRejectRequest(db, userId, targetId, Some(true)).db;
    AcceptAppends(db1, userId, targetId, Some(true));
    assert db[userId].friends + [targetId] + [targetId] == db[userId].friends + [targetId, targetId];
  }

  /** A request from strangers, accepted by its target, makes them friends both ways and leaves
      the target's pending list as it was before the request. */
  lemma RequestThenAccept(db: Db, userId: Id, targetId: Id)
    requires userId != targetId && userId in db && targetId in db
    requires targetId !in db[userId].friends && userId !in db[targetId].pending
    ensures var r := AcceptRejectRequest(SendFriendRequest(db, userId, targetId).db, targetId, userId, Some(true));
      r.status == 200
      && r.db[targetId].friends == db[targetId].friends + [userId]
      && r.db[userId].friends == db[userId].friends + [targetId]
      && r.db[targetId].pending == db[targetId].pending
  {
    var db1 := SendFriendRequest(db, userId, targetId).db;
    assert db1[targetId].pending == db[targetId].pending + [userId];
    WithoutAppended(db[targetId].pending, userId);
    AcceptAppends(db1, targetId, userId, Some(true));
  }

  // ---------------------------------------------------------------------------
  // Notifications
  // ---------------------------------------------------------------------------

  function ReminderText(username: string): string {
    username + " sent you a reminder to meet!"
  }

  /** `sendReminder`: 404 unless both users exist; otherwise the reminder is put at the head
      of the recipient's notifications, capped at ten. */
  function SendReminder(db: Db, fromId: Id, toId: Id): (r: Outcome)
    ensures r.status == 404 <==> fromId !in db || toId !in db
    ensures r.status != 404 ==> r.status == 200
    ensures r.status == 404 ==> r.db == db
    ensures r.db.Keys == db.Keys
    ensures forall v :: v in db && v != toId ==> r.db[v] == db[v]
    ensures r.status == 200 ==> (
      var before := db[toId].notifications; var after := r.db[toId].notifications;
      |after| == Min(|before| + 1, Cap) && 0 < |after|
      && after[0] == Fresh(ReminderText(db[fromId].username), fromId, None)
      && after[1..] == before[..|after| - 1]
      && r.db[toId] == db[toId].(notifications := after))
  {
    if fromId !in db || toId !in db then Outcome(404, "User not found", db)
    else
      var n := Fresh(ReminderText(db[fromId].username), fromId, None);
      var to := db[toId];
      Outcome(200, "Reminder sent!", db[toId := to.(notifications := PushCapped(to.notifications, n))])
  }

  /** `markNotificationAsRead`. The checks run left to right: a `NaN` or negative index is
      refused before the user is looked at, so only a larger index meets a missing user, and
      reading its list then throws (500). */
  function MarkNotificationAsRead(db: Db, userId: Id, param: string): (r: Outcome)
    ensures r.status == 200 <==> userId in db && MarkRead(db[userId].notifications, param).Success?
    ensures r.status == 500 <==> userId !in db && ParseInt(param).Some? && ParseInt(param).value >= 0
    ensures r.status != 200 ==> r.db == db
    ensures r.status == 200 ==> r.db == db[userId := db[userId].(notifications :=
      MarkRead(db[userId].notifications, param).value)]
  {
    match ParseInt(param)
    case None => Outcome(400, "Invalid index", db)
    case Some(index) =>
      if index < 0 then Outcome(400, "Invalid index", db)
      else if userId !in db then Outcome(500, "", db)
      else match MarkRead(db[userId].notifications, param)
        case Failure(e) => Outcome(400, e, db)
        case Success(list) => Outcome(200, "", db[userId := db[userId].(notifications := list)])
  }

  /** A successful mark lowers the unread count by one exactly when the entry was unread, so
      the badge tracks the server. */
  lemma MarkLowersCount(db: Db, userId: Id, param: string)
    requires MarkNotificationAsRead(db, userId, param).status == 200
    ensures var list := db[userId].notifications; var i := ParseInt(param).value;
      0 <= i < |list|
      && UnreadCount(MarkNotificationAsRead(db, userId, param).db[userId].notifications)
         == UnreadCount(list) - (if list[i].read then 0 else 1)
  {
    SetReadCount(db[userId].notifications, ParseInt(param).value);
  }

  // ---------------------------------------------------------------------------
  // One-time passwords
  // ---------------------------------------------------------------------------

  /** The stored code matches: a present, non-empty code equal to the user's `otp`. The
      expiry is not consulted. */
  predicate OtpMatches(db: Db, userId: Id, otp: Option<string>) {
    Truthy(otp) && userId in db && otp.value == db[userId].otp
  }

  /** What a successful check does to the user: the code is spent and the user is verified. */
  function Spend(u: User): (r: User)
    ensures r.otp == "" && r.otpExpiry == Some(0) && r.verified
    ensures r.friends == u.friends && r.pending == u.pending && r.notifications == u.notifications
      && r.email == u.email && r.username == u.username
  {
    u.(otp := "", otpExpiry := Some(0), verified := true)
  }

  /** `verifyChangePasswordOtp`: a missing code is 400 "Enter OTP", a missing user throws
      (500), a different code is 400 "Wrong OTP"; a match spends the code. */
  function VerifyChangePasswordOtp(db: Db, userId: Id, otp: Option<string>): (r: Outcome)
    ensures r.status == 200 <==> OtpMatches(db, userId, otp)
    ensures r.status == 500 <==> Truthy(otp) && userId !in db
    ensures r.status != 200 ==> r.db == db
    ensures r.status == 200 ==> r.db == db[userId := Spend(db[userId])]
  {
    if !Truthy(otp) then Outcome(400, "Enter OTP", db)
    else if userId !in db then Outcome(500, "Error while entering otp", db)
    else if otp.value != db[userId].otp then Outcome(400, "Wrong OTP", db)
    else Outcome(200, "OTP verified", db[userId := Spend(db[userId])])
  }

  /** Another user already holds `email`: the schema's unique index on `email` makes `save`
      fail with a duplicate-key error. */
  predicate EmailTaken(db: Db, userId: Id, email: string) {
    exists v :: v in db && v != userId && db[v].email == email
  }

  /** `verifyNewEmail`: the same check, which also needs the new address, and on a match also
      stores the address; `save` throws (500) when another user has that address. */
  function VerifyNewEmail(db: Db, userId: Id, email: Option<string>, otp: Option<string>): (r: Outcome)
    ensures r.status == 200 <==> Truthy(email) && OtpMatches(db, userId, otp) && !EmailTaken(db, userId, email.value)
    ensures r.status == 500 <==> (Truthy(email) && Truthy(otp)
      && (userId !in db || (OtpMatches(db, userId, otp) && EmailTaken(db, userId, email.value))))
    ensures r.status != 200 ==> r.db == db
    ensures r.status == 200 ==> r.db == db[userId := Spend(db[userId]).(email := email.value)]
    ensures r.status == 200 ==> forall v :: v in r.db && r.db[v].email == email.value ==> v == userId
  {
    if !Truthy(otp) || !Truthy(email) then Outcome(400, "Enter OTP", db)
    else if userId !in db then Outcome(500, "Error while verifying otp", db)
    else if otp.value != db[userId].otp then Outcome(400, "Wrong OTP", db)
    else if EmailTaken(db, userId, email.value) then Outcome(500, "Error while verifying otp", db)
    else Outcome(200, "Eamil verified", db[userId := Spend(db[userId]).(email := email.value)])
  }

  /** A spent code cannot be replayed, and a user who was never sent a code (the default
      empty `otp`) cannot pass either check, whatever code is offered. */
  lemma NoReplay(db: Db, userId: Id, otp: Option<string>, again: Option<string>, email: Option<string>)
    requires VerifyChangePasswordOtp(db, userId, otp).status == 200
    ensures VerifyChangePasswordOtp(VerifyChangePasswordOtp(db, userId, otp).db, userId, again).status == 400
    ensures VerifyNewEmail(VerifyChangePasswordOtp(db, userId, otp).db, userId, email, again).status == 400
  {
  }

  /** With the default empty code stored, both checks fail. */
  lemma FreshUserCannotVerify(db: Db, userId: Id, otp: Option<string>, email: Option<string>)
    requires userId in db && db[userId].otp == ""
    ensures VerifyChangePasswordOtp(db, userId, otp).status == 400
    ensures VerifyNewEmail(db, userId, email, otp).status == 400
  {
  }

  /** The expiry is never read: users that differ only in it get the same answer. */
  lemma ExpiryIgnored(db: Db, userId: Id, otp: Option<string>, expiry: Option<int>)
    requires userId in db
    ensures VerifyChangePasswordOtp(db[userId := db[userId].(otpExpiry := expiry)], userId, otp).status
      == VerifyChangePasswordOtp(db, userId, otp).status
  {
  }

  /** The two checks agree on a request that carries an address no other user holds, and
      differ only in the stored address; with a taken address a matching code ends in 500. */
  lemma EmailCheckExtends(db: Db, userId: Id, email: string, otp: Option<string>)
    requires email != ""
    ensures !EmailTaken(db, userId, email) ==>
      VerifyNewEmail(db, userId, Some(email), otp).status == VerifyChangePasswordOtp(db, userId, otp).status
    ensures EmailTaken(db, userId, email) && VerifyChangePasswordOtp(db, userId, otp).status == 200 ==>
      VerifyNewEmail(db, userId, Some(email), otp) == Outcome(500, "Error while verifying otp", db)
    ensures VerifyNewEmail(db, userId, Some(email), otp).status == 200 ==>
      VerifyNewEmail(db, userId, Some(email), otp).db ==
        VerifyChangePasswordOtp(db, userId, otp).db[userId := Spend(db[userId]).(email := email)]
  {
  }
}
